=== FILE: README.md ===
# BootLoaderFree installation engine — a Dafny model

BootLoaderFree is a Windows wizard that installs a second operating system in
one of three ways:

- dual boot, on a new or an existing partition;
- WSL, as a Linux distribution;
- a Hyper-V virtual machine.

This project models its installation engine (`InstallationService`) and the
decision logic around it:

- configuration validation;
- the step records and how the installation screen derives step statuses from the engine's events;
- the disk, bootloader, WSL and VM services;
- the four wizard view models (navigation, system selection, disk configuration, installation);
- the small helpers `PartitionInfo`, `VMInfo`, `AdminHelper` and the two boolean converters.

Everything that touches the machine is an input:

- A process launch is a `Runner` or `Shell` function from a command to a `ProcessResult`. A result is an exit code plus the stdout and stderr strings.
- WMI queries, `File.Exists`, drive queries and probe answers are plain parameters. A probe that throws is `None`.
- The engine's collaborators are a `World` record of answers. Every collaborator call the engine makes is recorded as `Issued(step, call)`, so properties can talk about which calls happen and in which step.
- The cancellation token is the oracle `cancel`: `cancel(k)` is what the pipeline reads at its check in step `k`. The engine records only whether a token source exists and whether it was cancelled.
- Events are an appended trace of `ProgressChanged` / `InstallationCompleted` values.

C# details are written out where they matter:

- truncating `/` and `%` (`Numeric.TruncDiv`);
- unchecked `int` and `long` wrap-around (`WrapInt32`, `WrapInt64`);
- `string.IsNullOrWhiteSpace` (`Text.IsBlank`);
- `Split(..., RemoveEmptyEntries)` (`Text.Split`);
- `Trim`;
- `int.TryParse` (`Text.ParseInt32`);
- ASCII `ToLower`.

The modules follow the program's files:

- `Wrappers`, `Numeric`, `Text` and `Process` are shared helpers.
- `Partitions`, `InstallationConfig`, `InstallationProgress` and `VmInfo` are the models.
- `DiskService`, `BootloaderService`, `WslService`, `VmService` and `InstallationService` are the services.
- `AdminHelper` and `Converters` are the small helpers.
- `SystemSelection`, `DiskConfiguration`, `InstallationViewModel` and `Navigation` are the view models.

Where the program's design and its code disagree, the model follows the code.
Where the code is evidently wrong (see "## Findings"), the model has both an
as-written member and a corrected one. The intended behaviour is stated about the
corrected members (`BootloaderService.BcdbootCorrected`, `VmService.MemoryStartupBytes`,
`VmService.VhdSizeBytes`, `WslService.DefaultDistroIsNotReinstalled`). The engine in `InstallationService` reaches the services through
oracles, so it depends on neither half.
`InstallationConfig.Validate` is never called by the engine: a run is guarded
only by `CheckPrerequisitesAsync`. So a dual boot asking for a 5000 MB partition
is refused by `Validate` and still passes the engine's own check, as
`InstallationService.UndersizedPartitionPassesPrerequisites` proves.

## Model

| member | source | states |
|---|---|---|
| `AdminHelper.RequiresAdmin` | BOOTLOADERFREE/Helpers/AdminHelper.cs:73-91 | an operation needs administrator rights exactly when it is one of partition creation, disk formatting, bootloader change, system install, WSL install |
| `AdminHelper.NonSystemOperationsNeedNoAdmin` | BOOTLOADERFREE/Helpers/AdminHelper.cs:85-89 | creating a VM, reading system info, browsing files and any undeclared enum value need no rights |
| `Converters.ToVisibility` | BOOTLOADERFREE/Converters/BooleanToVisibilityConverter.cs:21-31 | the result is always Visible or Collapsed, and Visible exactly when the value is `true` xor the parameter is "Invert" in any case |
| `Converters.FromVisibility` | BOOTLOADERFREE/Converters/BooleanToVisibilityConverter.cs:36-50 | a non-Visibility value gives false; otherwise true exactly when Visible xor Invert |
| `Converters.VisibilityRoundTrip` | BOOTLOADERFREE/Converters/BooleanToVisibilityConverter.cs:21-50 | converting a bool to a visibility and back, with the same parameter, gives the bool back |
| `Converters.NonBoolIsFalse` | BOOTLOADERFREE/Converters/BooleanToVisibilityConverter.cs:24 | a value that is not a bool converts like `false` (and, when not null, to a background like `false`) |
| `Converters.ToBackground` | BOOTLOADERFREE/Converters/BooleanToBackgroundConverter.cs:36-49 | null gives the default brush; anything else gives the success brush exactly when true xor Invert, otherwise the error brush |
| `Converters.FromBackground` | BOOTLOADERFREE/Converters/BooleanToBackgroundConverter.cs:54-58 | converting back always answers `Binding.DoNothing` |
| `Converters.InvertSwapsBrushes` | BOOTLOADERFREE/Converters/BooleanToBackgroundConverter.cs:41-46 | Invert swaps the success and error brushes and leaves null on the default brush |
| `Partitions.Partition.SizeMB` | BOOTLOADERFREE/Models/PartitionInfo.cs:26-30 | the truncated quotient: for a non-negative size, the whole MiB below it; for a negative size, the whole MiB above it; stays within `long` |
| `Partitions.Partition.WithSizeMB` | BOOTLOADERFREE/Models/PartitionInfo.cs:26-30 | the setter stores `value * 1048576` wrapped to `long`; when the product fits it is stored exactly; no other field changes |
| `Partitions.Partition.Caption` | BOOTLOADERFREE/Models/PartitionInfo.cs:113-118 | the "Partition N" form exactly when the drive letter is empty, otherwise the letter, label and file system |
| `Partitions.SizeMBRoundTrip` | BOOTLOADERFREE/Models/PartitionInfo.cs:26-30 | setting `SizeMB = v` and reading it back gives `v` whenever `v * 1048576` fits in a `long` |
| `VmInfo.UptimeParts` | BOOTLOADERFREE/Models/VMInfo.cs:63-81 | the minutes form exactly below 60 minutes; the other forms have hours below 24 and minutes below 60 and add back up to the uptime |
| `VmInfo.FormattedUptime` | BOOTLOADERFREE/Models/VMInfo.cs:63-81 | below 60 minutes the text is the number followed by " min" |
| `VmInfo.UptimePartsInjective` | BOOTLOADERFREE/Models/VMInfo.cs:63-81 | two uptimes with the same displayed parts are equal: the decomposition loses nothing |
| `InstallationConfig.NewWslConfig` | BOOTLOADERFREE/Models/InstallationConfig.cs:118-123 | the lazily built WSL settings carry the config's distribution, version and path, user "user", WSL 2, not default |
| `InstallationConfig.Config.GetWsl` | BOOTLOADERFREE/Models/InstallationConfig.cs:116-123 | a cached value is returned as is; otherwise one is built from the config's fields and cached; nothing else changes |
| `InstallationConfig.Config.SetWsl` | BOOTLOADERFREE/Models/InstallationConfig.cs:124-133 | the cache holds the value set; a non-null value also copies distribution, version and path into the config; nothing else changes |
| `InstallationConfig.Validate` | BOOTLOADERFREE/Models/InstallationConfig.cs:140-167 | no error exactly when the config is acceptable; each error is reported exactly under its own condition, in the code's order (blank name first, VM path before VM memory) |
| `InstallationConfig.ValidateReadsOnlyOwnStrategy` | BOOTLOADERFREE/Models/InstallationConfig.cs:145-167 | two configs that agree on the name, the type and the fields of that type's branch validate alike |
| `InstallationConfig.GetWslIdempotent` | BOOTLOADERFREE/Models/InstallationConfig.cs:116-123 | a second read returns the same settings and leaves the config as the first read left it |
| `InstallationConfig.GetWslCacheIsStale` | BOOTLOADERFREE/Models/InstallationConfig.cs:116-123 | once read, the settings do not follow later changes to the distribution name |
| `InstallationConfig.SetThenGetWsl` | BOOTLOADERFREE/Models/InstallationConfig.cs:116-134 | reading after setting returns the value set, and the copied fields match it |
| `InstallationConfig.ClearThenGetWsl` | BOOTLOADERFREE/Models/InstallationConfig.cs:116-134 | after setting null, a read rebuilds the settings from the config's fields |
| `InstallationProgress.SetProperty` | BOOTLOADERFREE/Models/InstallationProgress.cs:188-196 | reports a change exactly when the value differs; the stored value is the new one, which equals the old one when nothing changed |
| `InstallationProgress.Step.Duration` | BOOTLOADERFREE/Models/InstallationProgress.cs:133 | end minus start for a completed step, now minus start for every other status, failed included |
| `InstallationProgress.Step.Start` | BOOTLOADERFREE/Models/InstallationProgress.cs:139-144 | in progress, detail set to the argument even when null, start time now; nothing else changes |
| `InstallationProgress.Step.Complete` | BOOTLOADERFREE/Models/InstallationProgress.cs:150-156 | completed at 100 %, detail the argument or "Terminé", end time now; nothing else changes |
| `InstallationProgress.Step.Fail` | BOOTLOADERFREE/Models/InstallationProgress.cs:162-167 | failed with the error as detail and end time now; the percentage is kept; nothing else changes |
| `InstallationProgress.Step.UpdateProgress` | BOOTLOADERFREE/Models/InstallationProgress.cs:174-179 | sets the percentage, changes the detail only when one is given, never touches the status |
| `InstallationProgress.TransitionsIgnorePriorStatus` | BOOTLOADERFREE/Models/InstallationProgress.cs:139-167 | the transitions do not check the status they start from: completing a failed step, failing a completed one and restarting a completed one all take effect |
| `InstallationProgress.DurationAfterFinish` | BOOTLOADERFREE/Models/InstallationProgress.cs:133-167 | after `Fail` the duration still runs to now; after `Complete` it is fixed at the end time |
| `DiskService.SumSizes` | BOOTLOADERFREE/Services/DiskService.cs:569-583 | the loop's unchecked `long` sum of the partition sizes equals the exact sum wrapped once |
| `DiskService.SumFree` | BOOTLOADERFREE/Services/DiskService.cs:569-587 | likewise for the partitions' free space |
| `DiskService.CalculateFreeSpace` | BOOTLOADERFREE/Services/DiskService.cs:564-594 | free space is disk size minus the partition sizes plus their free space, in `long` arithmetic |
| `DiskService.FindDisk` | BOOTLOADERFREE/Services/DiskService.cs:242 | finds a disk exactly when one has that number, and returns the first such disk |
| `DiskService.HasEnoughFreeSpace` | BOOTLOADERFREE/Services/DiskService.cs:237-261 | false when listing throws or the disk is unknown; otherwise true exactly when its free space covers `mb * 1048576` computed in `long` |
| `DiskService.FindByLetter` | BOOTLOADERFREE/Services/DiskService.cs:146 | finds a partition exactly when one has that drive letter, and the one found is the first with that letter |
| `DiskService.CreatePartition` | BOOTLOADERFREE/Services/DiskService.cs:91-164 | refused without running diskpart exactly when space is short; a partition is returned only after exit code 0, and it is the listed partition with the assigned letter |
| `DiskService.FormatCommand` | BOOTLOADERFREE/Services/DiskService.cs:180-185 | "format L: /fs:FS /q", then " /v:label" exactly when the label is not blank, always ending in " /y" |
| `DiskService.FormatCommandKeepsLabel` | BOOTLOADERFREE/Services/DiskService.cs:180-185 | different non-blank labels give different commands |
| `DiskService.FormatSucceeded` | BOOTLOADERFREE/Services/DiskService.cs:204-221 | success exactly when the exit code is 0 and the output contains one of the two success phrases |
| `DiskService.DiskpartSucceeded` | BOOTLOADERFREE/Services/DiskService.cs:301-358 | failure exactly when the exit code is non-zero or the output contains "ERREUR:" |
| `DiskService.PartitionTypeString` | BOOTLOADERFREE/Services/DiskService.cs:601-635 | each listed code gives its fixed name; any other code gives "Unknown (n)" with `n` in decimal |
| `DiskService.PartitionTypeStringSeparatesUnknown` | BOOTLOADERFREE/Services/DiskService.cs:601-635 | an unknown code's text is never another code's text |
| `DiskService.PartitionStyle` | BOOTLOADERFREE/Services/DiskService.cs:515-557 | "MBR" exactly when an MBR phrase is present; "GPT" exactly when a GPT phrase is present and no MBR phrase is; "Unknown" otherwise and when the command fails |
| `DiskService.GptDiskReadsGpt` | BOOTLOADERFREE/Services/DiskService.cs:544-549 | without an MBR phrase, either wording of the GPT phrase gives "GPT", and "Unknown" means neither style was named |
| `DiskService.MbrWinsOverGpt` | BOOTLOADERFREE/Services/DiskService.cs:544-549 | an output naming both styles is read as MBR |
| `BootloaderService.CommandOutput` | BOOTLOADERFREE/Services/BootloaderService.cs:454-479 | the output is stdout, followed by a newline and stderr exactly when stderr is not blank |
| `BootloaderService.ErrorStreamIsSeen` | BOOTLOADERFREE/Services/BootloaderService.cs:474-475 | an "error" written only to stderr still fails a bcdedit command |
| `BootloaderService.RunBcd` | BOOTLOADERFREE/Services/BootloaderService.cs:256-411 | remove, set-default, set-timeout and export succeed exactly when the output contains neither "erreur" nor "error" |
| `BootloaderService.Restore` | BOOTLOADERFREE/Services/BootloaderService.cs:416-447 | a missing backup fails with no command run; otherwise exactly the import is run and its output decides |
| `BootloaderService.GetBootTimeout` | BOOTLOADERFREE/Services/BootloaderService.cs:356-381 | the parsed value when the captured text parses as an `int`, 30 when nothing was captured or it does not parse |
| `BootloaderService.GetBootTimeoutReadsPrinted` | BOOTLOADERFREE/Services/BootloaderService.cs:365-379 | a printed non-negative `int` timeout is read back as itself |
| `BootloaderService.FindBraceId` | BOOTLOADERFREE/Services/BootloaderService.cs:203-211 | a found id is non-empty, contains no "}" and occurs between braces in the output; it is the leftmost such match; when none is found, no position holds one |
| `BootloaderService.FindBraceIdReadsCopiedId` | BOOTLOADERFREE/Services/BootloaderService.cs:203-211 | the first braced id of an output is the one read |
| `BootloaderService.FindById` | BOOTLOADERFREE/Services/BootloaderService.cs:168-169 | an entry is found exactly when one has that id |
| `BootloaderService.UpdateEntry` | BOOTLOADERFREE/Services/BootloaderService.cs:171-195 | the commands are exactly: description, then path when the description succeeded and the path is set, then systemroot when every earlier step succeeded and the options are set; the verdict is the conjunction of the issued steps |
| `BootloaderService.UpdateWritesEverySetValue` | BOOTLOADERFREE/Services/BootloaderService.cs:171-195 | a successful update wrote the path and the system root exactly when they were set, only to the entry's own id; a failed description stops the update after one command |
| `BootloaderService.CreateEntry` | BOOTLOADERFREE/Services/BootloaderService.cs:196-244 | the copy comes first; no id in its output fails with nothing else run; otherwise the id is read from it and the commands are exactly: path when set, systemroot when set and every earlier setting succeeded, device likewise, then display order /addlast always; the verdict covers every command after the copy |
| `BootloaderService.CreateAlwaysAppends` | BOOTLOADERFREE/Services/BootloaderService.cs:213-236 | a created entry is always appended to the display order, and every command between the copy and the append writes a setting other than the description to the copy's id |
| `BootloaderService.CreateWritesEverySetValue` | BOOTLOADERFREE/Services/BootloaderService.cs:213-236 | a successful creation wrote the path, the system root and the device exactly when each was set |
| `BootloaderService.ConfigureBootEntry` | BOOTLOADERFREE/Services/BootloaderService.cs:161-251 | a listed id updates that entry; otherwise a new entry is created |
| `BootloaderService.EmptyListingCreatesCopy` | BOOTLOADERFREE/Services/BootloaderService.cs:161-169 | a listing that read nothing (its failures are swallowed) leads to copying the current entry; the copy is made exactly when no listed entry has the id |
| `BootloaderService.BcdbootTargetsDoubledColon` | BOOTLOADERFREE/Services/BootloaderService.cs:122-126 | on system root "C:\" the bcdboot command as written targets "C::"; the corrected one targets "C:" |
| `BootloaderService.BcdbootCorrected` | BOOTLOADERFREE/Services/BootloaderService.cs:122-126 | bcdboot targets the system drive without its trailing backslash, and copies from that drive's Windows folder |
| `BootloaderService.InstallBootloaderWith` | BOOTLOADERFREE/Services/BootloaderService.cs:102-156 | only "windows boot manager" in any case is installed; bootsect runs first and bcdboot only when bootsect's output has neither "ERREUR" nor "ERROR" |
| `BootloaderService.InstallBootloaderAsWritten` | BOOTLOADERFREE/Services/BootloaderService.cs:102-156 | after a clean bootsect, the bcdboot command issued has the doubled colon |
| `BootloaderService.InstallBootloader` | BOOTLOADERFREE/Services/BootloaderService.cs:102-156 | after a clean bootsect, bcdboot is issued with the corrected target; success only for the Windows Boot Manager |
| `BootloaderService.InstallBootloaderDispatch` | BOOTLOADERFREE/Services/BootloaderService.cs:112-137 | a command runs exactly for the Windows Boot Manager type; "grub2" fails with nothing run |
| `BootloaderService.WindowsBootManagerAccepted` | BOOTLOADERFREE/Services/BootloaderService.cs:112-114 | the display spelling "Windows Boot Manager" selects the Windows branch |
| `WslService.IsWslSupported` | BOOTLOADERFREE/Services/WSLService.cs:28-59 | supported exactly on a 64-bit OS with major version above 10, or 10 with build 14393 or later |
| `WslService.SupportIsMonotone` | BOOTLOADERFREE/Services/WSLService.cs:36-52 | a later version of the same OS stays supported |
| `WslService.IsWslInstalled` | BOOTLOADERFREE/Services/WSLService.cs:62-109 | false without wsl.exe; otherwise true exactly when the status exits 0 and stderr has neither not-installed message |
| `WslService.IsWslAvailable` | BOOTLOADERFREE/Services/WSLService.cs:112-134 | available exactly when supported and installed, whatever the distributions |
| `WslService.EnableWsl` | BOOTLOADERFREE/Services/WSLService.cs:137-169 | success exactly when the feature command exits 0 with no "Error" in stdout |
| `WslService.VerdictStreams` | BOOTLOADERFREE/Services/WSLService.cs:137-169 | a clean exit with "Error" only on stderr enables the feature but fails setting the default and installing WSL; with "Error" only on stdout it is the other way round |
| `WslService.UpdateToWsl2` | BOOTLOADERFREE/Services/WSLService.cs:172-229 | a failing platform command stops there; otherwise the default-version command decides, on its exit code and both streams |
| `WslService.ParseDistroLineAsWritten` | BOOTLOADERFREE/Services/WSLService.cs:266-278 | a row parses exactly when it has at least three tokens; name, state, version from tokens 0-2, an unparsable version reading 0; never marked default |
| `WslService.ParsedFields` | BOOTLOADERFREE/Services/WSLService.cs:266-278 | with the marker understood, a row whose tokens are an optional "*" and three fields is read as those fields, marked default exactly when the "*" is there |
| `WslService.ParseRow` | BOOTLOADERFREE/Services/WSLService.cs:266-278 | the row wsl prints for a distribution, default marker included, is read back as that distribution |
| `WslService.ListDistributionsWith` | BOOTLOADERFREE/Services/WSLService.cs:232-295 | nothing on a non-zero exit code or when the output has no line after the header |
| `WslService.ListDistributionsAsWritten` | BOOTLOADERFREE/Services/WSLService.cs:232-295 | the listing as written never reports a default distribution |
| `WslService.ListDistributionsRoundTrip` | BOOTLOADERFREE/Services/WSLService.cs:232-295 | a header line followed by one rendered row per distribution is read back as exactly those distributions, default marker included |
| `WslService.DefaultMarkerMisread` | BOOTLOADERFREE/Services/WSLService.cs:270-278 | as written, the default distribution's row is read with name "*" and the distribution name as its state |
| `WslService.DefaultUbuntuMisread` | BOOTLOADERFREE/Services/WSLService.cs:270-278 | the row "* Ubuntu Running 2" is read as distribution "*" in state "Ubuntu", version 0 |
| `WslService.DefaultMarkerRead` | BOOTLOADERFREE/Services/WSLService.cs:270-278 | the corrected reading gives "Ubuntu", "Running", 2, marked default |
| `WslService.InstallDistributionWith` | BOOTLOADERFREE/Services/WSLService.cs:298-355 | given a reading of the listing: without WSL nothing runs; a listed name (any case) fails after the listing only; otherwise the install command decides |
| `WslService.InstallDistributionAsWritten` | BOOTLOADERFREE/Services/WSLService.cs:298-355 | as written, the duplicate check uses the listing that misreads the default row; success exactly when WSL is there, no name matches in that listing and the install exits cleanly |
| `WslService.InstallDistribution` | BOOTLOADERFREE/Services/WSLService.cs:298-355 | the corrected half of the listing finding: the same steps with the default marker understood |
| `WslService.ImportDistributionWith` | BOOTLOADERFREE/Services/WSLService.cs:358-422 | given a reading of the listing: without WSL or the tar file nothing runs; a listed name fails; otherwise success exactly when the import exits 0 with no "Error" in stderr |
| `WslService.ImportDistributionAsWritten` | BOOTLOADERFREE/Services/WSLService.cs:358-422 | as written, the duplicate check uses the listing that misreads the default row |
| `WslService.ImportDistribution` | BOOTLOADERFREE/Services/WSLService.cs:358-422 | the corrected half of the listing finding: the same steps with the default marker understood |
| `WslService.SetDefaultDistribution` | BOOTLOADERFREE/Services/WSLService.cs:425-460 | success exactly when the command exits 0 with no "Error" in stderr |
| `WslService.InstallWslFeature` | BOOTLOADERFREE/Services/WSLService.cs:500-537 | success exactly when `wsl --install` exits 0 with no "Error" in stderr |
| `WslService.DefaultDistroIsNotReinstalled` | BOOTLOADERFREE/Services/WSLService.cs:305-317 | with the corrected reading, the current default distribution is seen as present and neither installed nor imported again |
| `WslService.DefaultDistroReinstalledAsWritten` | BOOTLOADERFREE/Services/WSLService.cs:305-317 | as written, a listing holding only the default distribution does not stop `wsl --install -d` or `wsl --import` for that same name |
| `VmService.StateOfLower` | BOOTLOADERFREE/Services/VMService.cs:497-510 | a known state is returned only for that state's lower-case name |
| `VmService.ParseVmState` | BOOTLOADERFREE/Services/VMService.cs:497-510 | null reads Unknown; a known state only for its name in some case |
| `VmService.ParseStateName` | BOOTLOADERFREE/Services/VMService.cs:497-510 | each state's own name parses back to that state |
| `VmService.ParseVmStateIgnoresCase` | BOOTLOADERFREE/Services/VMService.cs:497-510 | names equal up to case parse to the same state |
| `VmService.IsVirtualizationSupported` | BOOTLOADERFREE/Services/VMService.cs:28-64 | true exactly when the probe exits 0 and its trimmed output is "True" in any case |
| `VmService.IsHyperVEnabled` | BOOTLOADERFREE/Services/VMService.cs:67-103 | the same reading of the Hyper-V probe |
| `VmService.AnswersTrueReadsTrimmedOutput` | BOOTLOADERFREE/Services/VMService.cs:49-57 | "TRUE" followed by white space counts as true |
| `VmService.EnableHyperVFeature` | BOOTLOADERFREE/Services/VMService.cs:106-144 | success exactly when the command exits 0 with no "Error" in stdout |
| `VmService.EnableHyperVReadsStdout` | BOOTLOADERFREE/Services/VMService.cs:106-144 | "Error" only on stderr still counts as success; on stdout it is a failure |
| `VmService.ParseVmLine` | BOOTLOADERFREE/Services/VMService.cs:392-405 | a row parses exactly when it has at least four tokens; name, id, state, path from tokens 0-3; the hypervisor is always "Hyper-V" |
| `VmService.ParseVmRow` | BOOTLOADERFREE/Services/VMService.cs:392-405 | the row printed for a machine with single-word columns is read back as that machine |
| `VmService.ListVirtualMachines` | BOOTLOADERFREE/Services/VMService.cs:352-416 | nothing on a non-zero exit code or with two lines or fewer; every machine returned is the reading of some line after the first two and is tagged Hyper-V |
| `VmService.ListVirtualMachinesRoundTrip` | BOOTLOADERFREE/Services/VMService.cs:352-416 | a header, a rule and one rendered row per machine are read back as exactly those machines |
| `VmService.GetVmById` | BOOTLOADERFREE/Services/VMService.cs:478-490 | none exactly when no listed machine has the id; otherwise the first that has it |
| `VmService.MemoryStartupBytesAsWritten` | BOOTLOADERFREE/Services/VMService.cs:173 | the `int` product wraps: from 2048 MB up the machine gets less memory than asked |
| `VmService.MemoryStartupBytes` | BOOTLOADERFREE/Services/VMService.cs:173 | the corrected `long` product holds exactly the requested megabytes |
| `VmService.MemoryStartupBytesWraps` | BOOTLOADERFREE/Services/VMService.cs:173 | as written, 4096 MB becomes 0 bytes and 2048 MB a negative size |
| `VmService.CreateVmWith` | BOOTLOADERFREE/Services/VMService.cs:147-201 | with Hyper-V disabled nothing is created; otherwise the New-VM command runs and the id is returned only if it succeeded |
| `VmService.CreateVmAsWritten` | BOOTLOADERFREE/Services/VMService.cs:147-201 | the New-VM command as written asks for less memory than configured from 2048 MB up |
| `VmService.CreateVm` | BOOTLOADERFREE/Services/VMService.cs:147-201 | the corrected command asks for exactly the configured memory |
| `VmService.VhdSizeBytesAsWritten` | BOOTLOADERFREE/Services/VMService.cs:277 | the `int` product wraps: from 2 GB up the disk is smaller than asked |
| `VmService.VhdSizeBytes` | BOOTLOADERFREE/Services/VMService.cs:277 | the corrected `long` product holds exactly the requested gigabytes |
| `VmService.VhdSizeBytesWraps` | BOOTLOADERFREE/Services/VMService.cs:277 | as written, 50 GB becomes a negative size and 4 GB zero |
| `VmService.CreateVirtualDiskWith` | BOOTLOADERFREE/Services/VMService.cs:257-303 | returns exactly the input path when the command exits cleanly, otherwise nothing |
| `VmService.CreateVirtualDiskAsWritten` | BOOTLOADERFREE/Services/VMService.cs:257-303 | the same verdict on the command with the wrapped size |
| `VmService.CreateVirtualDisk` | BOOTLOADERFREE/Services/VMService.cs:257-303 | the same verdict on the command with the exact size |
| `VmService.AttachVirtualDisk` | BOOTLOADERFREE/Services/VMService.cs:204-254 | a missing disk file runs nothing; an unknown id stops after the listing; otherwise the attach command decides |
| `VmService.StartVirtualMachine` | BOOTLOADERFREE/Services/VMService.cs:306-349 | an unknown id stops after the listing; otherwise the start command decides |
| `VmService.AttachIso` | BOOTLOADERFREE/Services/VMService.cs:419-469 | a missing ISO runs nothing; an unknown id stops after the listing; otherwise the DVD command decides |
| `VmService.UnlistedMachineIsNeverTouched` | BOOTLOADERFREE/Services/VMService.cs:211-437 | for an id the listing does not show, attach, start and ISO attach all fail after the listing alone |
| `InstallationService.GetTotalSteps` | BOOTLOADERFREE/Services/InstallationService.cs:714-723 | five steps exactly for the three supported strategies, three for any other enum value |
| `InstallationService.UpdateProgress` | BOOTLOADERFREE/Services/InstallationService.cs:634-651 | step and operation are set; an explicit percentage is used as is; otherwise it is the share of finished steps, between 0 and 100 |
| `InstallationService.FirstStepReadsZero` | BOOTLOADERFREE/Services/InstallationService.cs:646 | step 1 without an explicit percentage reads 0 % |
| `InstallationService.Finalize` | BOOTLOADERFREE/Services/InstallationService.cs:658-671 | completed, successful as told, operation and detail the message, 100 % only on success and the percentage kept on failure |
| `InstallationService.CompletionEvent` | BOOTLOADERFREE/Services/InstallationService.cs:694-709 | the completion carries the final record, and an error message exactly on failure |
| `InstallationService.CheckPrerequisites` | BOOTLOADERFREE/Services/InstallationService.cs:200-291 | a null config gives exactly one issue; otherwise no issue exactly when the prerequisites hold; a blank name is always the first issue |
| `InstallationService.IssuesAccumulate` | BOOTLOADERFREE/Services/InstallationService.cs:204-234 | a blank name and a dual boot reuse without letter give both issues, in order |
| `InstallationService.ProbeFailureKeepsEarlierIssues` | BOOTLOADERFREE/Services/InstallationService.cs:236-291 | a failing drive probe adds its error after the issues already found |
| `InstallationService.UndersizedPartitionPassesPrerequisites` | BOOTLOADERFREE/Services/InstallationService.cs:200-291 | a config `Validate` rejects for a too-small partition raises no prerequisite issue |
| `InstallationService.DualBootTarget` | BOOTLOADERFREE/Services/InstallationService.cs:329-356 | the created partition in create mode; in reuse mode, when a disk has the configured number, a partition is found exactly when the first such disk has one with the configured letter, and it is the first one; none when the disk is unknown |
| `InstallationService.BootEntryFor` | BOOTLOADERFREE/Services/InstallationService.cs:402-408 | the entry is named after the system, created by the tool, on the partition's letter |
| `InstallationService.DualBootInstall` | BOOTLOADERFREE/Services/InstallationService.cs:317-440 | succeeds exactly when no step is cancelled, the target is found, formatting and the boot entry succeed; formatting and activation happen only in create mode; percentages 10, (20), 30, 70, 90, 100 |
| `InstallationService.DefaultRequested` | BOOTLOADERFREE/Services/InstallationService.cs:511-516 | the default is set exactly when the "SetAsDefault" option equals "true" in any case; a null option value throws |
| `InstallationService.WslInstall` | BOOTLOADERFREE/Services/InstallationService.cs:445-526 | WSL is installed only when missing; the distribution install decides; SetDefaultDistribution only when requested; percentages 10, 30, 50, 80, 95, 100 |
| `InstallationService.VmFolder` | BOOTLOADERFREE/Services/InstallationService.cs:556-567 | the configured path, or a folder under the user's documents when it is empty |
| `InstallationService.DiskSizeGB` | BOOTLOADERFREE/Services/InstallationService.cs:568-587 | the partition size in whole GiB, truncated to an `int` |
| `InstallationService.SmallPartitionAsksForEmptyDisk` | BOOTLOADERFREE/Services/InstallationService.cs:568-587 | a VM config under 1024 MB passes the prerequisites and asks for a 0 GB disk |
| `InstallationService.VmRequest` | BOOTLOADERFREE/Services/InstallationService.cs:581-589 | 4096 MB and 2 CPUs replace non-positive values; the configured ones are kept otherwise; a dynamic disk of the converted size |
| `InstallationService.VmInstall` | BOOTLOADERFREE/Services/InstallationService.cs:531-626 | succeeds exactly when no step is cancelled and both the disk and the machine are created; percentages 10, 30, 50, 80, 95, 100 |
| `InstallationService.ExpectedPercentsListed` | BOOTLOADERFREE/Services/InstallationService.cs:324-618 | the explicit percentages of each pipeline, written out |
| `InstallationService.SuccessfulPercentsRise` | BOOTLOADERFREE/Services/InstallationService.cs:121-671 | a successful run's published percentages never decrease and end at 100 |
| `InstallationService.RunPipeline` | BOOTLOADERFREE/Services/InstallationService.cs:133-147 | dispatch to the strategy's pipeline; no call of a step at or after the first cancelled check |
| `InstallationService.Install` | BOOTLOADERFREE/Services/InstallationService.cs:80-163 | a run always ends idle with one final progress and one completion event; success exactly when prerequisites hold and the pipeline completes; failed prerequisites stop before any pipeline call; a cancellation seen at step `k` stops every call of step `k` on; the engine keeps the run's source, cancelled exactly when a request reached a check |
| `InstallationService.StartInstallation` | BOOTLOADERFREE/Services/InstallationService.cs:80-163 | a busy engine returns its record and does nothing; a null config gives a fresh failed record, no event and an unchanged engine; a started run leaves a cancellation source behind |
| `InstallationService.Cancel` | BOOTLOADERFREE/Services/InstallationService.cs:168-195 | refused without event when idle; otherwise cancels the source, goes idle and publishes "Installation annulée" then a failed completion |
| `InstallationService.CancelTwice` | BOOTLOADERFREE/Services/InstallationService.cs:168-195 | a second cancellation is refused and publishes nothing |
| `InstallationService.RequestCancel` | BOOTLOADERFREE/Services/InstallationService.cs:306-310 | the source, when one exists, is cancelled; nothing else changes |
| `InstallationService.RequestCancelNeedsRun` | BOOTLOADERFREE/Services/InstallationService.cs:306-310 | before any run there is no source and a request changes nothing; a second request changes nothing more |
| `InstallationService.SetConfiguration` | BOOTLOADERFREE/Services/InstallationService.cs:297-301 | a null config throws; otherwise only the stored config changes |
| `InstallationViewModel.InitialSteps` | BOOTLOADERFREE/ViewModels/InstallationViewModel.cs:212-229 | five steps numbered 1 to 5, all pending at 0 % with no detail |
| `InstallationViewModel.ResetSteps` | BOOTLOADERFREE/ViewModels/InstallationViewModel.cs:231-239 | every step pending at 0 % with no detail; count, numbers and descriptions kept |
| `InstallationViewModel.ResetRestoresInitial` | BOOTLOADERFREE/ViewModels/InstallationViewModel.cs:212-239 | resetting the initial steps gives them back; resetting twice is resetting once |
| `InstallationViewModel.OnProgress` | BOOTLOADERFREE/ViewModels/InstallationViewModel.cs:241-272 | a null event changes nothing; an event on an open step makes it in progress and completes every earlier non-failed step; an event on a finished or out-of-range step changes only operation and percentage |
| `InstallationViewModel.ShownError` | BOOTLOADERFREE/ViewModels/InstallationViewModel.cs:280-283 | the error shown changes only on a failure carrying a non-empty message, and then becomes that message; a success or an empty or null message leaves it |
| `InstallationViewModel.OnCompleted` | BOOTLOADERFREE/ViewModels/InstallationViewModel.cs:274-316 | the flags record the outcome; earlier non-failed steps complete; the final step completes or fails; later steps become skipped only on success |
| `InstallationViewModel.ProgressKeepsFinishedSteps` | BOOTLOADERFREE/ViewModels/InstallationViewModel.cs:255 | progress never reopens a completed or failed step |
| `InstallationViewModel.ProgressEventsNeverFail` | BOOTLOADERFREE/ViewModels/InstallationViewModel.cs:241-272 | any number of progress events marks no step failed and keeps the step records |
| `InstallationViewModel.SuccessShowsEveryStepCompleted` | BOOTLOADERFREE/ViewModels/InstallationViewModel.cs:231-316 | after a reset, progress events and a success naming the last step, every step shows completed |
| `InstallationViewModel.FailureSkipsNothing` | BOOTLOADERFREE/ViewModels/InstallationViewModel.cs:302-312 | a failure leaves the later steps as they were |
| `InstallationViewModel.SuccessOverwritesLaterFailure` | BOOTLOADERFREE/ViewModels/InstallationViewModel.cs:302-312 | on success a later step that had failed is shown skipped |
| `InstallationViewModel.EventsKeepSteps` | BOOTLOADERFREE/ViewModels/InstallationViewModel.cs:241-316 | no sequence of events adds, removes or renames a step |
| `InstallationViewModel.ConvertInstallationType` | BOOTLOADERFREE/ViewModels/InstallationViewModel.cs:318-327 | each option type maps to the engine type of the same name; an undeclared value maps to dual boot |
| `InstallationViewModel.ConvertRoundTrip` | BOOTLOADERFREE/ViewModels/InstallationViewModel.cs:318-327 | on declared values the conversion is a bijection |
| `InstallationViewModel.PrepareInstallation` | BOOTLOADERFREE/ViewModels/InstallationViewModel.cs:107-154 | a config exactly when an option and a disk configuration exist; it adds the option's name and converted type and changes nothing else |
| `Navigation.SetCurrent` | BOOTLOADERFREE/ViewModels/MainViewModel.cs:122-129 | the page becomes current only when the provider resolves it |
| `Navigation.NavigateTo` | BOOTLOADERFREE/ViewModels/MainViewModel.cs:105-120 | entries after the current one are dropped, the page is appended even when unresolved, and the index points at it |
| `Navigation.NewNav` | BOOTLOADERFREE/ViewModels/MainViewModel.cs:20-30 | the history is the welcome page at index 0, with no way back |
| `Navigation.NavigateBack` | BOOTLOADERFREE/ViewModels/MainViewModel.cs:56-71 | only from index above 0; one step back; the earlier page becomes current only when it resolves; history, title, button text and status are untouched |
| `Navigation.NavigateForward` | BOOTLOADERFREE/ViewModels/MainViewModel.cs:73-103 | each page navigates to the next, which becomes current when it resolves, with that page's title and, for the last two, its button text; the status is kept; from the summary only the status message changes; without a current page nothing happens |
| `Navigation.NextPageAdvances` | BOOTLOADERFREE/ViewModels/MainViewModel.cs:76-102 | the forward order visits the five pages once each, in order |
| `Navigation.BackUndoesNavigateTo` | BOOTLOADERFREE/ViewModels/MainViewModel.cs:62-120 | going back after a navigation returns to the entry navigated from |
| `Navigation.NavigateAfterBackDropsForwardEntries` | BOOTLOADERFREE/ViewModels/MainViewModel.cs:62-120 | navigating after going back discards the entries ahead |
| `Navigation.ForwardThroughWizard` | BOOTLOADERFREE/ViewModels/MainViewModel.cs:20-103 | following the wizard from the start visits all five pages and ends on the summary, titled "Résumé" with the button "Terminer" |
| `SystemSelection.OptionsFor` | BOOTLOADERFREE/ViewModels/SystemSelectionViewModel.cs:76-114 | dual boot first, WSL exactly when supported, VM exactly when supported, in that order, with their fixed settings |
| `SystemSelection.LoadSystemOptions` | BOOTLOADERFREE/ViewModels/SystemSelectionViewModel.cs:66-132 | with both answers the options are listed and dual boot selected; a throwing probe keeps the list and reports the error; loading always ends |
| `SystemSelection.LoadedSelectionIsDualBoot` | BOOTLOADERFREE/ViewModels/SystemSelectionViewModel.cs:117 | one to three options, the first selected, dual boot needing 20000 MB |
| `SystemSelection.OptionsAreDistinct` | BOOTLOADERFREE/ViewModels/SystemSelectionViewModel.cs:76-114 | no type is offered twice |
| `DiskConfiguration.InitialPartitionSize` | BOOTLOADERFREE/ViewModels/DiskConfigurationViewModel.cs:23-43 | 30000 by default; with a requirement, the larger of 20000 and the requirement |
| `DiskConfiguration.SetCreateNewPartition` | BOOTLOADERFREE/ViewModels/DiskConfigurationViewModel.cs:70-80 | turning create mode on clears reuse mode; turning it off leaves reuse mode alone |
| `DiskConfiguration.SetUseExistingPartition` | BOOTLOADERFREE/ViewModels/DiskConfigurationViewModel.cs:82-92 | turning reuse mode on clears create mode; turning it off leaves create mode alone |
| `DiskConfiguration.SettersKeepModesExclusive` | BOOTLOADERFREE/ViewModels/DiskConfigurationViewModel.cs:70-92 | the two setters never leave both modes on |
| `DiskConfiguration.IsNtfsIgnoresCase` | BOOTLOADERFREE/ViewModels/DiskConfigurationViewModel.cs:181 | the NTFS test ignores case |
| `DiskConfiguration.SuitablePartitions` | BOOTLOADERFREE/ViewModels/DiskConfigurationViewModel.cs:179-183 | exactly the lettered NTFS partitions with enough MiB, in disk order |
| `DiskConfiguration.UpdateAvailablePartitions` | BOOTLOADERFREE/ViewModels/DiskConfigurationViewModel.cs:170-199 | the suitable partitions of the selected disk; the first is selected; with none, nothing is selected and create mode is forced |
| `DiskConfiguration.DefaultDisk` | BOOTLOADERFREE/ViewModels/DiskConfigurationViewModel.cs:144-148 | the first non-removable disk, or the first disk when all are removable |
| `DiskConfiguration.SelectDisk` | BOOTLOADERFREE/ViewModels/DiskConfigurationViewModel.cs:57-67 | selecting a different disk refreshes the partitions; otherwise only the selection is stored |
| `DiskConfiguration.LoadDisks` | BOOTLOADERFREE/ViewModels/DiskConfigurationViewModel.cs:132-168 | a failing listing only reports an error; an empty one stores no disks; otherwise the default disk is selected, its suitable partitions offered with the first selected, create mode forced when there is none, and the count reported; the sizes are untouched and loading always ends |
| `DiskConfiguration.NewDiskScreen` | BOOTLOADERFREE/ViewModels/DiskConfigurationViewModel.cs:19-48 | the screen always starts in create mode, with the listed disks and the initial size for the option, and not loading |
| `DiskConfiguration.OperationsKeepModesExclusive` | BOOTLOADERFREE/ViewModels/DiskConfigurationViewModel.cs:70-199 | refreshing, selecting and loading never leave both modes on |
| `DiskConfiguration.OfferedPartitionsAreSuitable` | BOOTLOADERFREE/ViewModels/DiskConfigurationViewModel.cs:132-199 | after loading, every offered partition is suitable |
| `DiskConfiguration.GetDiskConfiguration` | BOOTLOADERFREE/ViewModels/DiskConfigurationViewModel.cs:201-231 | none without a disk; create mode gives the requested size; reuse mode with a selection copies its letter and number; anything else gives none |
| `DiskConfiguration.NeitherModeGivesNoConfiguration` | BOOTLOADERFREE/ViewModels/DiskConfigurationViewModel.cs:70-231 | turning create mode off leaves no mode and no configuration |
| `DiskConfiguration.InitialSizeValidates` | BOOTLOADERFREE/ViewModels/DiskConfigurationViewModel.cs:213-219 | a named create-mode configuration with the initial size passes `Validate` |

## Left out

- Process launches, WMI queries, `DriveInfo`, `File.Exists` and `Directory.CreateDirectory` are inputs: runner functions, booleans and lists. Nothing about them is modelled.
- The runners see a command's arguments only, not the executable's name.
- `Regex` parsing is not modelled: `GetBootEntriesAsync`, `ExtractValue`, `GetDefaultOSAsync`, the drive letter read from diskpart output, and `GetDiskPartitionsAsync`. What they would read is an input. `GetBootEntriesAsync` swallows its own failures and returns the entries read so far, so `BootloaderService.ConfigureBootEntry` takes a plain list, possibly empty.
- `GetAvailableDisksAsync`, `IsSystemDiskAsync`, `IsSystemPartition` and `IsBootPartition` are pure WMI/`DriveInfo` queries; their answers are inputs.
- The diskpart scripts of `ResizePartitionAsync` and `SetPartitionActiveAsync` are not built; only their verdict (`DiskService.DiskpartSucceeded`) is modelled.
- Async machinery, `Task.Delay` and the one-second wait in `CancelInstallationAsync` are not modelled. A run is sequential and the cancellation token is a boolean oracle read at each step's check; a request that arrives after the last check of a run is not reflected in the source the engine keeps.
- A cancellation racing a running pipeline is not modelled. The source then announces completion twice, once from the cancel and once from the pipeline's own finalisation. `Cancel` and `Install` are separate transitions.
- Events are value snapshots. The source passes its single mutable progress object to every handler.
- Exceptions swallowed by the event fan-out are not modelled, and neither are multiple subscribers.
- Floating-point size formatting (`FormattedSize`, `FormatSize`, `FormattedRequiredSpace`) is not modelled. Time stamps are integers.
- `LoggingService`, `App.xaml.cs`, `WelcomeViewModel`, `SummaryViewModel`, `AdminHelper.IsRunningAsAdmin` and `RestartAsAdmin` are not modelled: logging, wiring, environment text and process restarts.
- The data-only models (`VMConfig`, `BootEntryInfo`, `DiskInfo`, `WSLDistroInfo`, `SystemOption`) are datatypes with the fields the logic reads. Descriptions, versions and images of the options are dropped.
- `WSLService.ExecuteCommandAsync` and `GetDistributionDetailsAsync` are not modelled; the details they add to a listed distribution are not read by any decision.
- The command buttons of the installation screen (`StartInstallation`, `CancelInstallation`, `CanStartInstallation`, `GetInstallationConfig`) are not modelled. They call the engine and feed its events to `OnProgress` / `OnCompleted`.
- `SystemSelectionViewModel.GetSelectedOption`, `MainViewModel.UpdateNavigationState` and `SetStatusMessage` are not modelled: they are single property reads or writes.
- French message texts are opaque strings. Only the substrings the code tests are compared.
- Case folding is ASCII only. `ToLower` and `OrdinalIgnoreCase` on other letters are not modelled.
- A null string field of the configuration is identified with the empty string, since every check treats them alike. `Option` is used where null is distinguished.
- `Path.Combine` is reduced to joining with a backslash (`InstallationService.Combine`).
- Disks and partitions are compared structurally. The source compares object references.
- `InstallationService.VmFolder`: states only that the folder starts with the documents folder when no path is configured, not its exact name.
- `VmInfo.FormattedUptime`: states only the minutes-only text; the hour and day texts are stated through `VmInfo.UptimeParts`.
- `VmService.ListVirtualMachines`: states which lines the machines come from, not their order or that every readable line is kept; the full contents of a listing are stated by `VmService.ListVirtualMachinesRoundTrip`.
- `WslService.ListDistributionsWith`: states only the empty cases; what a listing contains is stated by `WslService.ListDistributionsRoundTrip`.

## Findings

| source | as written | input that shows it | evidently intended | confidence | as-written member | corrected member |
|---|---|---|---|---|---|---|
| BOOTLOADERFREE/Services/BootloaderService.cs:122-126 | the drive is trimmed of its backslash ("C:") and then a colon is appended again in `/s {systemDrive}:` | system root "C:\" gives `bcdboot C:\Windows /s C::` | `/s C:` | not executed; high | `BootloaderService.InstallBootloaderAsWritten` (with `BootloaderService.BcdbootTargetsDoubledColon`) | `BootloaderService.InstallBootloader` (with `BootloaderService.BcdbootCorrected`) |
| BOOTLOADERFREE/Services/VMService.cs:173 | `vmConfig.MemoryMB * 1024 * 1024` is an `int` product, which wraps | 4096 MB gives 0 bytes; 2048 MB gives -2147483648 | the `long` product, 4096 MB = 4294967296 bytes | not executed; high | `VmService.CreateVmAsWritten` (with `VmService.MemoryStartupBytesWraps`) | `VmService.CreateVm` (with `VmService.MemoryStartupBytes`) |
| BOOTLOADERFREE/Services/VMService.cs:277 | `sizeInGB * 1024 * 1024 * 1024` is an `int` product, which wraps | 50 GB gives -2147483648 bytes; 4 GB gives 0 | the `long` product | not executed; high | `VmService.CreateVirtualDiskAsWritten` (with `VmService.VhdSizeBytesWraps`) | `VmService.CreateVirtualDisk` (with `VmService.VhdSizeBytes`) |
| BOOTLOADERFREE/Services/WSLService.cs:270-278 | the row is split on spaces and tokens 0-2 are read, but `wsl --list --verbose` marks the default distribution with a leading "*" token | the row "* Ubuntu Running 2" is read as a distribution named "*" in state "Ubuntu", version 0, so a default "Ubuntu" passes the duplicate check and is installed or imported again | skip the marker: name "Ubuntu", state "Running", version 2 | not executed; medium (depends on the listing format) | `WslService.ListDistributionsAsWritten` (with `WslService.DefaultUbuntuMisread`, `WslService.DefaultMarkerMisread`, `WslService.InstallDistributionAsWritten`, `WslService.ImportDistributionAsWritten`, `WslService.DefaultDistroReinstalledAsWritten`) | `WslService.ListDistributions` (with `WslService.DefaultMarkerRead`, `WslService.ListDistributionsRoundTrip`, `WslService.InstallDistribution`, `WslService.ImportDistribution`, `WslService.DefaultDistroIsNotReinstalled`) |

=== FILE: admin_helper.dfy ===
/**
 * Which installer operations need an elevated (administrator) process.
 */
module AdminHelper {

  datatype AdminOperation =
    | CreatePartition
    | FormatDisk
    | ModifyBootloader
    | InstallSystem
    | InstallWsl
    | CreateVirtualMachine
    | ReadSystemInfo
    | BrowseFiles
    | Undeclared(code: int)  // an integer cast to the enum that names no member

  /** The operations that write to disks, boot configuration or Windows features. */
  predicate TouchesSystem(op: AdminOperation) {
    op in {CreatePartition, FormatDisk, ModifyBootloader, InstallSystem, InstallWsl}
  }

  /** `RequiresAdmin`: exactly the five system-modifying operations need elevation;
      creating a VM, reading system information, browsing and any undeclared value
      fall to the default and do not. */
  function RequiresAdmin(op: AdminOperation): (r: bool)
    ensures r <==> TouchesSystem(op)
  {
    match op
    case CreatePartition | FormatDisk | ModifyBootloader | InstallSystem | InstallWsl => true
    case CreateVirtualMachine | ReadSystemInfo | BrowseFiles | Undeclared(_) => false
  }

  lemma NonSystemOperationsNeedNoAdmin(code: int)
    ensures !RequiresAdmin(CreateVirtualMachine)
    ensures !RequiresAdmin(ReadSystemInfo) && !RequiresAdmin(BrowseFiles)
    ensures !RequiresAdmin(Undeclared(code))
  {
  }
}

=== FILE: bootloader_service.dfy ===
/**
 * The decision logic of the boot-configuration service (BootloaderService):
 * how bcdedit/bootsect/bcdboot output is judged, the order in which the
 * commands that create or update a boot entry are issued, and the guards and
 * fallbacks around them. Every command goes through a runner, a function from
 * the command to what the process answered.
 */
module BootloaderService {
  import opened Wrappers
  import opened Text
  import opened Process

  /** `BootEntryInfo`. A null id is `None`; the other strings identify null with "". */
  datatype BootEntry = BootEntry(
    id: Option<string>,
    displayName: string,
    path: string,
    device: string,
    isDefault: bool,
    order: int,
    options: string,
    isCreatedByUs: bool)

  /** The boot-entry settings the service writes. */
  datatype Field = Description | PathField | SystemRoot | DeviceField

  /** The commands the service issues. */
  datatype Command =
    | SetField(entryId: string, field: Field, value: string)
    | CopyCurrent(displayName: string)
    | DisplayOrderAddLast(entryId: string)
    | Delete(entryId: string)
    | SetDefault(entryId: string)
    | SetTimeout(seconds: int)
    | Export(path: string)
    | Import(path: string)
    | EnumBootManager
    | Bootsect
    | Bcdboot(windowsDir: string, target: string)

  function FieldName(f: Field): string
  {
    match f
    case Description => "description"
    case PathField => "path"
    case SystemRoot => "systemroot"
    case DeviceField => "device"
  }

  /** The command line handed to `cmd.exe /c`. */
  function Render(c: Command): string
  {
    match c
    case SetField(id, f, v) => "bcdedit /set {" + id + "} " + FieldName(f) + " \"" + v + "\""
    case CopyCurrent(name) => "bcdedit /copy {current} /d \"" + name + "\""
    case DisplayOrderAddLast(id) => "bcdedit /displayorder {" + id + "} /addlast"
    case Delete(id) => "bcdedit /delete {" + id + "}"
    case SetDefault(id) => "bcdedit /default {" + id + "}"
    case SetTimeout(s) => "bcdedit /timeout " + IntToDecimal(s)
    case Export(p) => "bcdedit /export \"" + p + "\""
    case Import(p) => "bcdedit /import \"" + p + "\""
    case EnumBootManager => "bcdedit /enum {bootmgr}"
    case Bootsect => "bootsect /nt60 all /force"
    case Bcdboot(dir, target) => "bcdboot " + dir + " /s " + target
  }

  /** `ExecuteCommandAsync`: standard output, followed by a newline and the error
      stream when the error stream is not blank. The exit code is not consulted. */
  function CommandOutput(r: ProcessResult): (output: string)
    ensures StartsWith(output, r.stdout)
    ensures IsBlank(r.stderr) ==> output == r.stdout
    ensures !IsBlank(r.stderr) ==> output[|r.stdout|..] == "\n" + r.stderr
  {
    var output := r.stdout + (if IsBlank(r.stderr) then "" else "\n" + r.stderr);
    assert output[..|r.stdout|] == r.stdout;
    output
  }

  /** What running a command printed, as the service reads it. */
  function Output(run: Runner, c: Command): string
  {
    CommandOutput(run(Render(c)))
  }

  /** The verdict on a bcdedit command: the output mentions neither "erreur" nor
      "error" (lower case, case-sensitive). */
  predicate BcdOk(output: string) {
    !Contains(output, "erreur") && !Contains(output, "error")
  }

  /** The verdict on bootsect and bcdboot: neither "ERREUR" nor "ERROR" (upper case). */
  predicate ToolOk(output: string) {
    !Contains(output, "ERREUR") && !Contains(output, "ERROR")
  }

  /** A failure a command reports only on its error stream is still seen, because
      the runner appends a non-blank error stream to the output. */
  lemma ErrorStreamIsSeen(r: ProcessResult)
    requires Contains(r.stderr, "error")
    ensures !BcdOk(CommandOutput(r))
  {
    ContainsIff(r.stderr, "error");
    var i :| OccursAt(r.stderr, "error", i);
    assert !IsWhiteSpace(r.stderr[i]);
    ContainsInSuffix(r.stdout + "\n", r.stderr, "error");
    assert CommandOutput(r) == (r.stdout + "\n") + r.stderr;
  }

  /** `RemoveBootEntryAsync`, `SetDefaultOSAsync`, `SetBootTimeoutAsync` and
      `BackupBootConfigurationAsync`: one bcdedit command each, judged by `BcdOk`. */
  function RunBcd(run: Runner, c: Command): (ok: bool)
    requires c.Delete? || c.SetDefault? || c.SetTimeout? || c.Export?
    ensures ok <==> !Contains(Output(run, c), "erreur") && !Contains(Output(run, c), "error")
  {
    BcdOk(Output(run, c))
  }

  /** `RestoreBootConfigurationAsync`: without the backup file nothing is run. */
  function Restore(run: Runner, backupExists: bool, backupPath: string): (r: (bool, seq<Command>))
    ensures !backupExists ==> r == (false, [])
    ensures backupExists ==> r.1 == [Import(backupPath)] && (r.0 <==> BcdOk(Output(run, Import(backupPath))))
  {
    if !backupExists then (false, [])
    else (BcdOk(Output(run, Import(backupPath))), [Import(backupPath)])
  }

  const DEFAULT_BOOT_TIMEOUT: int := 30

  /** `GetBootTimeoutAsync`. The value the `timeout\s+(\d+)` pattern captured from
      `bcdedit /enum {bootmgr}` is an input ("" when it did not match); `None`
      stands for a failure to run the command. Anything that does not parse gives
      the default of 30 seconds. */
  function GetBootTimeout(captured: Option<string>): (t: int)
    ensures captured.None? ==> t == DEFAULT_BOOT_TIMEOUT
    ensures captured.Some? && ParseInt32(captured.value).Some? ==> t == ParseInt32(captured.value).value
    ensures captured.Some? && ParseInt32(captured.value).None? ==> t == DEFAULT_BOOT_TIMEOUT
  {
    match captured
    case None => DEFAULT_BOOT_TIMEOUT
    case Some(s) => ParseInt32(s).GetOr(DEFAULT_BOOT_TIMEOUT)
  }

  /** A timeout that bcdedit printed in decimal is read back exactly. */
  lemma GetBootTimeoutReadsPrinted(t: nat)
    requires t <= 0x7FFF_FFFF
    ensures GetBootTimeout(Some(NatToDecimal(t))) == t
  {
    ParseRendered(t);
  }

  // ---------------------------------------------------------------------------
  // The `\{([^}]+)\}` search for the id of a copied entry

  /** The match of `\{([^}]+)\}` that starts at `i`, if any: a '{', a non-empty run
      without '}', and the closing '}'. */
  function BraceIdAt(s: string, i: nat): (r: Option<string>)
    requires i < |s|
    ensures r.Some? ==> |r.value| > 0 && '}' !in r.value
    ensures r.Some? ==> OccursAt(s, "{" + r.value + "}", i)
  {
    if s[i] != '{' then None
    else
      var n := RunLength(s[i + 1..], {'}'});
      if n == 0 || i + 1 + n >= |s| then None
      else
        var id := s[i + 1..i + 1 + n];
        assert s[i..i + n + 2] == "{" + id + "}";
        Some(id)
  }

  /** `Regex.Match(output, @"\{([^}]+)\}")` with its first group: the leftmost
      match at or after `from`. */
  function FindBraceId(s: string, from: nat := 0): (r: Option<string>)
    requires from <= |s|
    ensures r.Some? ==> |r.value| > 0 && '}' !in r.value
    ensures r.Some? ==> exists i :: from <= i && OccursAt(s, "{" + r.value + "}", i)
    ensures r.None? ==> forall i :: from <= i < |s| ==> BraceIdAt(s, i).None?
    ensures r.Some? ==> exists i :: from <= i < |s| && BraceIdAt(s, i) == r &&
                                    forall j :: from <= j < i ==> BraceIdAt(s, j).None?
    decreases |s| - from
  {
    if from == |s| then None
    else if BraceIdAt(s, from).Some? then BraceIdAt(s, from)
    else FindBraceId(s, from + 1)
  }

  /** The id is found in the usual bcdedit answer: text without braces, then the id
      in braces, then anything. */
  lemma {:induction false} FindBraceIdReadsCopiedId(prefix: string, id: string, rest: string, from: nat)
    requires '{' !in prefix && '}' !in id && |id| > 0
    requires from <= |prefix|
    ensures FindBraceId(prefix + "{" + id + "}" + rest, from) == Some(id)
    decreases |prefix| - from
  {
    var s := prefix + "{" + id + "}" + rest;
    if from < |prefix| {
      assert s[from] == prefix[from];
      FindBraceIdReadsCopiedId(prefix, id, rest, from + 1);
    } else {
      var tail := s[from + 1..];
      assert s[from] == '{';
      assert tail == id + ("}" + rest);
      RunLengthOfFree(id, "}" + rest, {'}'});
      assert from + 1 + |id| < |s|;
      assert s[from + 1..from + 1 + |id|] == id;
      assert BraceIdAt(s, from) == Some(id);
    }
  }

  lemma {:induction false} RunLengthOfFree(a: string, b: string, seps: set<char>)
    requires forall c :: c in a ==> c !in seps
    requires |b| > 0 && b[0] in seps
    ensures RunLength(a + b, seps) == |a|
    decreases |a|
  {
    if |a| > 0 {
      assert (a + b)[1..] == a[1..] + b;
      RunLengthOfFree(a[1..], b, seps);
    } else {
      assert a + b == b;
    }
  }

  // ---------------------------------------------------------------------------
  // ConfigureBootEntryAsync

  /** The outcome of configuring a boot entry: the verdict, the commands issued in
      order, and the id written back into the entry (for a newly created one). */
  datatype Configured = Configured(ok: bool, issued: seq<Command>, assignedId: Option<string>)

  /** `FirstOrDefault(e => e.Id == entry.Id)` on the listed entries. */
  function FindById(entries: seq<BootEntry>, id: Option<string>): (r: Option<BootEntry>)
    ensures r.Some? <==> exists i :: 0 <= i < |entries| && entries[i].id == id
    ensures r.Some? ==> r.value in entries && r.value.id == id
  {
    if |entries| == 0 then None
    else if entries[0].id == id then Some(entries[0])
    else
      var r := FindById(entries[1..], id);
      assert forall i :: 0 <= i < |entries| - 1 ==> entries[1..][i] == entries[i + 1];
      r
  }

  /** One conditional step: while the verdict still holds and the value is set, issue
      the command and take its verdict. */
  function Then(run: Runner, acc: (bool, seq<Command>), cond: bool, c: Command): (r: (bool, seq<Command>))
    ensures acc.0 && cond ==> r == (BcdOk(Output(run, c)), acc.1 + [c])
    ensures !(acc.0 && cond) ==> r == acc
    ensures r.1 == acc.1 + (if acc.0 && cond then [c] else [])
    ensures r.0 == (acc.0 && (cond ==> BcdOk(Output(run, c))))
  {
    if acc.0 && cond then (BcdOk(Output(run, c)), acc.1 + [c]) else acc
  }

  /** Every command of the list was judged successful. */
  predicate AllOk(run: Runner, cs: seq<Command>) {
    forall k :: 0 <= k < |cs| ==> BcdOk(Output(run, cs[k]))
  }

  /** A conditional step keeps the verdict equal to "every command issued since
      `from` succeeded". */
  lemma ThenKeepsVerdict(run: Runner, acc: (bool, seq<Command>), cond: bool, c: Command, from: nat)
    requires from <= |acc.1|
    requires acc.0 <==> AllOk(run, acc.1[from..])
    ensures from <= |Then(run, acc, cond, c).1|
    ensures Then(run, acc, cond, c).0 <==> AllOk(run, Then(run, acc, cond, c).1[from..])
  {
    if acc.0 && cond {
      var t := acc.1[from..];
      assert (acc.1 + [c])[from..] == t + [c];
      assert (t + [c])[|t|] == c;
      assert forall k :: 0 <= k < |t| ==> (t + [c])[k] == t[k];
    }
  }

  /** The update branch of `ConfigureBootEntryAsync`: description always, then path,
      then system root, each only while the previous steps succeeded and the value is
      set; the verdict is the conjunction of the steps. */
  function UpdateEntry(run: Runner, entry: BootEntry): (r: Configured)
    ensures var id := entry.id.GetOr("");
      var describe := SetField(id, Description, entry.displayName);
      var path := SetField(id, PathField, entry.path);
      var root := SetField(id, SystemRoot, entry.options);
      var pathIssued := BcdOk(Output(run, describe)) && entry.path != "";
      var rootIssued := BcdOk(Output(run, describe)) && (pathIssued ==> BcdOk(Output(run, path))) && entry.options != "";
      && r.assignedId.None?
      && r.issued == [describe] + (if pathIssued then [path] else []) + (if rootIssued then [root] else [])
      && (r.ok <==> AllOk(run, r.issued))
  {
    var id := entry.id.GetOr("");
    var first := SetField(id, Description, entry.displayName);
    var s1 := (BcdOk(Output(run, first)), [first]);
    assert [first][0] == first;
    var s2 := Then(run, s1, entry.path != "", SetField(id, PathField, entry.path));
    var s3 := Then(run, s2, entry.options != "", SetField(id, SystemRoot, entry.options));
    assert s1.1[0..] == s1.1;
    ThenKeepsVerdict(run, s1, entry.path != "", SetField(id, PathField, entry.path), 0);
    ThenKeepsVerdict(run, s2, entry.options != "", SetField(id, SystemRoot, entry.options), 0);
    assert s3.1[0..] == s3.1;
    Configured(s3.0, s3.1, None)
  }

  /** A successful update wrote every value that was set, each to the entry's own
      id, and nothing else; a failed description stops the update there. */
  lemma UpdateWritesEverySetValue(run: Runner, entry: BootEntry)
    ensures var id := entry.id.GetOr("");
      var r := UpdateEntry(run, entry);
      && (r.ok ==> (SetField(id, PathField, entry.path) in r.issued <==> entry.path != ""))
      && (r.ok ==> (SetField(id, SystemRoot, entry.options) in r.issued <==> entry.options != ""))
      && (forall k :: 0 <= k < |r.issued| ==> r.issued[k].SetField? && r.issued[k].entryId == id && r.issued[k].field != DeviceField)
      && (!BcdOk(Output(run, SetField(id, Description, entry.displayName))) ==> !r.ok && |r.issued| == 1)
  {
    var id := entry.id.GetOr("");
    var r := UpdateEntry(run, entry);
    var describe := SetField(id, Description, entry.displayName);
    var path := SetField(id, PathField, entry.path);
    var root := SetField(id, SystemRoot, entry.options);
    if r.ok {
      assert r.issued[0] == describe;
      if entry.path != "" {
        assert r.issued[1] == path;
      }
      if entry.options != "" {
        assert r.issued[|r.issued| - 1] == root;
      }
    }
  }

  /** Three conditional steps from a successful start: each is issued while every
      earlier issued step succeeded and its own value is set. */
  lemma ThenChain(run: Runner, acc: (bool, seq<Command>), b1: bool, c1: Command, b2: bool, c2: Command, b3: bool, c3: Command)
    requires acc.0
    ensures var ok1 := b1 ==> BcdOk(Output(run, c1));
      var ok2 := b2 ==> BcdOk(Output(run, c2));
      Then(run, Then(run, Then(run, acc, b1, c1), b2, c2), b3, c3).1 ==
        acc.1 + (if b1 then [c1] else []) + (if ok1 && b2 then [c2] else []) + (if ok1 && ok2 && b3 then [c3] else [])
  {
    var t1 := Then(run, acc, b1, c1);
    var t2 := Then(run, t1, b2, c2);
    assert t2.0 == ((b1 ==> BcdOk(Output(run, c1))) && (b2 ==> BcdOk(Output(run, c2))));
  }

  /** Three conditional steps from a successful one-command start keep the verdict
      equal to "every command issued after the first succeeded". */
  lemma ThenChainVerdict(run: Runner, acc: (bool, seq<Command>), b1: bool, c1: Command, b2: bool, c2: Command, b3: bool, c3: Command)
    requires acc.0 && |acc.1| == 1
    ensures var t := Then(run, Then(run, Then(run, acc, b1, c1), b2, c2), b3, c3);
      1 <= |t.1| && (t.0 <==> AllOk(run, t.1[1..]))
  {
    assert acc.1[1..] == [];
    var t1 := Then(run, acc, b1, c1);
    ThenKeepsVerdict(run, acc, b1, c1, 1);
    var t2 := Then(run, t1, b2, c2);
    ThenKeepsVerdict(run, t1, b2, c2, 1);
    ThenKeepsVerdict(run, t2, b3, c3, 1);
  }

  /** The steps after a copy whose id was read: path, system root and device while
      the steps succeed, then the display order, always. */
  function SetUpCopy(run: Runner, copy: Command, newId: string, entry: BootEntry): (r: (bool, seq<Command>))
    ensures var path := SetField(newId, PathField, entry.path);
      var root := SetField(newId, SystemRoot, entry.options);
      var device := SetField(newId, DeviceField, entry.device);
      var pathOk := entry.path != "" ==> BcdOk(Output(run, path));
      var rootOk := entry.options != "" ==> BcdOk(Output(run, root));
      r.1 == [copy] + (if entry.path != "" then [path] else []) +
             (if pathOk && entry.options != "" then [root] else []) +
             (if pathOk && rootOk && entry.device != "" then [device] else []) +
             [DisplayOrderAddLast(newId)]
    ensures r.0 <==> AllOk(run, r.1[1..])
  {
    var path := SetField(newId, PathField, entry.path);
    var root := SetField(newId, SystemRoot, entry.options);
    var device := SetField(newId, DeviceField, entry.device);
    var last := DisplayOrderAddLast(newId);
    var s1 := (true, [copy]);
    var s4 := Then(run, Then(run, Then(run, s1, entry.path != "", path), entry.options != "", root), entry.device != "", device);
    ThenChain(run, s1, entry.path != "", path, entry.options != "", root, entry.device != "", device);
    ThenChainVerdict(run, s1, entry.path != "", path, entry.options != "", root, entry.device != "", device);
    AllOkAppend(run, s4.1[1..], last);
    assert (s4.1 + [last])[1..] == s4.1[1..] + [last];
    (s4.0 && BcdOk(Output(run, last)), s4.1 + [last])
  }

  lemma AllOkAppend(run: Runner, cs: seq<Command>, c: Command)
    ensures AllOk(run, cs + [c]) <==> AllOk(run, cs) && BcdOk(Output(run, c))
  {
    assert (cs + [c])[|cs|] == c;
    assert forall k :: 0 <= k < |cs| ==> (cs + [c])[k] == cs[k];
  }

  /** The creation branch of `ConfigureBootEntryAsync`: copy the current entry, read
      the copy's id from bcdedit's answer (failing when there is none), set path,
      system root and device while the steps succeed, and always append the entry to
      the display order. The copy command's own output is not judged. */
  function CreateEntry(run: Runner, entry: BootEntry): (r: Configured)
    ensures |r.issued| >= 1 && r.issued[0] == CopyCurrent(entry.displayName)
    ensures FindBraceId(Output(run, CopyCurrent(entry.displayName))).None? ==>
      r == Configured(false, [CopyCurrent(entry.displayName)], None)
    ensures FindBraceId(Output(run, CopyCurrent(entry.displayName))).Some? ==>
      var newId := FindBraceId(Output(run, CopyCurrent(entry.displayName))).value;
      var path := SetField(newId, PathField, entry.path);
      var root := SetField(newId, SystemRoot, entry.options);
      var device := SetField(newId, DeviceField, entry.device);
      var pathOk := entry.path != "" ==> BcdOk(Output(run, path));
      var rootOk := entry.options != "" ==> BcdOk(Output(run, root));
      && r.assignedId == Some(newId)
      && r.issued == [CopyCurrent(entry.displayName)] + (if entry.path != "" then [path] else []) +
                     (if pathOk && entry.options != "" then [root] else []) +
                     (if pathOk && rootOk && entry.device != "" then [device] else []) +
                     [DisplayOrderAddLast(newId)]
      && (r.ok <==> AllOk(run, r.issued[1..]))
  {
    var copy := CopyCurrent(entry.displayName);
    match FindBraceId(Output(run, copy))
    case None => Configured(false, [copy], None)
    case Some(newId) =>
      var s := SetUpCopy(run, copy, newId, entry);
      Configured(s.0, s.1, Some(newId))
  }

  /** The commands between the first and the last of `[first] + p + q + d + [last]`
      are those of `p`, `q` and `d`. */
  lemma MiddleCommands(cs: seq<Command>, first: Command, p: seq<Command>, q: seq<Command>, d: seq<Command>, last: Command)
    requires cs == [first] + p + q + d + [last]
    ensures forall k :: 1 <= k < |cs| - 1 ==> cs[k] in p + q + d
  {
    assert cs[1..|cs| - 1] == p + q + d;
    assert forall k :: 1 <= k < |cs| - 1 ==> cs[k] == cs[1..|cs| - 1][k - 1];
  }

  /** In a chain of three conditional steps after a first command, all of them
      passing, each step appears exactly when its value is set. */
  lemma PassingChainIssuesSetSteps(cs: seq<Command>, first: Command, last: Command,
                                   b1: bool, c1: Command, b2: bool, c2: Command, b3: bool, c3: Command,
                                   pass: Command -> bool)
    requires c1 != c2 && c1 != c3 && c2 != c3
    requires first !in [c1, c2, c3] && last !in [c1, c2, c3]
    requires cs == [first] + (if b1 then [c1] else []) +
                   (if (b1 ==> pass(c1)) && b2 then [c2] else []) +
                   (if (b1 ==> pass(c1)) && (b2 ==> pass(c2)) && b3 then [c3] else []) + [last]
    requires forall k :: 1 <= k < |cs| ==> pass(cs[k])
    ensures (c1 in cs <==> b1) && (c2 in cs <==> b2) && (c3 in cs <==> b3)
  {
    if b1 {
      assert cs[1] == c1;
    }
    if b2 && (b1 ==> pass(c1)) {
      assert cs[1 + (if b1 then 1 else 0)] == c2;
    }
  }

  /** The settings between the copy and the append all write to the copy's id. */
  lemma SetUpCopyWritesCopy(run: Runner, copy: Command, newId: string, entry: BootEntry)
    ensures var cs := SetUpCopy(run, copy, newId, entry).1;
      forall k :: 1 <= k < |cs| - 1 ==> cs[k].SetField? && cs[k].entryId == newId && cs[k].field != Description
  {
    var cs := SetUpCopy(run, copy, newId, entry).1;
    var path := SetField(newId, PathField, entry.path);
    var root := SetField(newId, SystemRoot, entry.options);
    var device := SetField(newId, DeviceField, entry.device);
    var pathOk := entry.path != "" ==> BcdOk(Output(run, path));
    var rootOk := entry.options != "" ==> BcdOk(Output(run, root));
    var p := if entry.path != "" then [path] else [];
    var q := if pathOk && entry.options != "" then [root] else [];
    var d := if pathOk && rootOk && entry.device != "" then [device] else [];
    MiddleCommands(cs, copy, p, q, d, DisplayOrderAddLast(newId));
  }

  /** When every setting succeeded, each value that was set was written. */
  lemma SetUpCopyWritesSetValues(run: Runner, copy: Command, newId: string, entry: BootEntry)
    requires !copy.SetField?
    requires SetUpCopy(run, copy, newId, entry).0
    ensures var cs := SetUpCopy(run, copy, newId, entry).1;
      && (SetField(newId, PathField, entry.path) in cs <==> entry.path != "")
      && (SetField(newId, SystemRoot, entry.options) in cs <==> entry.options != "")
      && (SetField(newId, DeviceField, entry.device) in cs <==> entry.device != "")
  {
    var cs := SetUpCopy(run, copy, newId, entry).1;
    var pass := (c: Command) => BcdOk(Output(run, c));
    assert forall k :: 1 <= k < |cs| ==> pass(cs[k]) by {
      assert forall k :: 1 <= k < |cs| ==> cs[k] == cs[1..][k - 1];
    }
    PassingChainIssuesSetSteps(cs, copy, DisplayOrderAddLast(newId),
      entry.path != "", SetField(newId, PathField, entry.path),
      entry.options != "", SetField(newId, SystemRoot, entry.options),
      entry.device != "", SetField(newId, DeviceField, entry.device), pass);
  }

  /** A created entry is always appended to the display order, even after a failed
      setting, and every command between the copy and that append writes a setting
      other than the description to the copy's id. */
  lemma CreateAlwaysAppends(run: Runner, entry: BootEntry, newId: string)
    requires FindBraceId(Output(run, CopyCurrent(entry.displayName))) == Some(newId)
    ensures var r := CreateEntry(run, entry);
      && r.issued[|r.issued| - 1] == DisplayOrderAddLast(newId)
      && (forall k :: 1 <= k < |r.issued| - 1 ==>
            r.issued[k].SetField? && r.issued[k].entryId == newId && r.issued[k].field != Description)
  {
    SetUpCopyWritesCopy(run, CopyCurrent(entry.displayName), newId, entry);
  }

  /** A successful creation wrote every value that was set, and only those. */
  lemma CreateWritesEverySetValue(run: Runner, entry: BootEntry, newId: string)
    requires FindBraceId(Output(run, CopyCurrent(entry.displayName))) == Some(newId)
    requires CreateEntry(run, entry).ok
    ensures var r := CreateEntry(run, entry);
      && (SetField(newId, PathField, entry.path) in r.issued <==> entry.path != "")
      && (SetField(newId, SystemRoot, entry.options) in r.issued <==> entry.options != "")
      && (SetField(newId, DeviceField, entry.device) in r.issued <==> entry.device != "")
  {
    SetUpCopyWritesSetValues(run, CopyCurrent(entry.displayName), newId, entry);
  }

  /** `ConfigureBootEntryAsync`. `entries` is the boot configuration as
      `GetBootEntriesAsync` returns it; that listing swallows its own failures and
      returns what it had built so far (possibly nothing), so there is no failure
      case here. An entry whose id equals the given entry's id is updated; otherwise
      a new entry is created. */
  function ConfigureBootEntry(run: Runner, entries: seq<BootEntry>, entry: BootEntry): (r: Configured)
    ensures (exists i :: 0 <= i < |entries| && entries[i].id == entry.id) ==> r == UpdateEntry(run, entry)
    ensures (forall i :: 0 <= i < |entries| ==> entries[i].id != entry.id) ==> r == CreateEntry(run, entry)
  {
    if FindById(entries, entry.id).Some? then UpdateEntry(run, entry) else CreateEntry(run, entry)
  }

  /** A listing that failed before reading any entry leaves nothing to match, so the
      entry is created by copying the current one, even when it already exists; a
      listed entry is never copied. */
  lemma EmptyListingCreatesCopy(run: Runner, entries: seq<BootEntry>, entry: BootEntry)
    ensures ConfigureBootEntry(run, [], entry).issued[0] == CopyCurrent(entry.displayName)
    ensures ConfigureBootEntry(run, entries, entry).issued[0] == CopyCurrent(entry.displayName) <==>
      forall i :: 0 <= i < |entries| ==> entries[i].id != entry.id
  {
    if exists i :: 0 <= i < |entries| && entries[i].id == entry.id {
      assert UpdateEntry(run, entry).issued[0].SetField?;
    }
  }

  // ---------------------------------------------------------------------------
  // InstallBootloaderAsync

  /** The bcdboot command as written: the system drive ("C:" once the root's trailing
      backslash is trimmed) followed by another colon. */
  function BcdbootAsWritten(systemRoot: string): Command
  {
    var drive := TrimEndChar(systemRoot, '\\');
    Bcdboot(drive + "\\Windows", drive + ":")
  }

  /** The bcdboot command as intended: the Windows directory of the system drive, and
      the system drive itself as the target of `/s`. */
  function BcdbootCorrected(systemRoot: string): (c: Command)
    ensures c.Bcdboot? && c.target == TrimEndChar(systemRoot, '\\')
    ensures c.windowsDir == c.target + "\\Windows"
  {
    var drive := TrimEndChar(systemRoot, '\\');
    Bcdboot(drive + "\\Windows", drive)
  }

  /** On the usual system root "C:\" the command as written targets "C::", which is
      not a drive; the corrected one targets "C:". */
  lemma BcdbootTargetsDoubledColon()
    ensures BcdbootAsWritten("C:\\").target == "C::"
    ensures BcdbootCorrected("C:\\").target == "C:"
  {
    assert TrimEndChar("C:\\", '\\') == "C:" by {
      var r := TrimEndChar("C:\\", '\\');
      assert |r| <= 2;
      assert "C:"[1] != '\\';
    }
  }

  /** `InstallBootloaderAsync`: dispatch on the lower-cased type. Windows Boot
      Manager runs bootsect, then bcdboot only if bootsect reported no error; "grub2"
      and unknown types fail without running anything. `bcdboot` is the command the
      second step uses. */
  function InstallBootloaderWith(run: Runner, bootloaderType: string, bcdboot: Command): (r: (bool, seq<Command>))
    requires bcdboot.Bcdboot?
    ensures ToLower(bootloaderType) != "windows boot manager" ==> r == (false, [])
    ensures ToLower(bootloaderType) == "windows boot manager" ==>
      && |r.1| >= 1 && r.1[0] == Bootsect
      && (bcdboot in r.1 <==> ToolOk(Output(run, Bootsect)))
      && (r.0 <==> forall k :: 0 <= k < |r.1| ==> ToolOk(Output(run, r.1[k])))
  {
    if ToLower(bootloaderType) == "windows boot manager" then
      if !ToolOk(Output(run, Bootsect)) then (false, [Bootsect])
      else (ToolOk(Output(run, bcdboot)), [Bootsect, bcdboot])
    else (false, [])
  }

  /** The service as written: once bootsect succeeds, bcdboot is pointed at the
      trimmed system drive with one more colon appended. */
  function InstallBootloaderAsWritten(run: Runner, bootloaderType: string, systemRoot: string): (r: (bool, seq<Command>))
    ensures ToLower(bootloaderType) == "windows boot manager" && ToolOk(Output(run, Bootsect)) ==>
      |r.1| == 2 && r.1[1].Bcdboot? && r.1[1].target == TrimEndChar(systemRoot, '\\') + ":"
    ensures r.0 ==> ToLower(bootloaderType) == "windows boot manager"
  {
    InstallBootloaderWith(run, bootloaderType, BcdbootAsWritten(systemRoot))
  }

  /** The service with the bcdboot target corrected. */
  function InstallBootloader(run: Runner, bootloaderType: string, systemRoot: string): (r: (bool, seq<Command>))
    ensures ToLower(bootloaderType) == "windows boot manager" && ToolOk(Output(run, Bootsect)) ==>
      r.1 == [Bootsect, BcdbootCorrected(systemRoot)]
    ensures r.0 ==> ToLower(bootloaderType) == "windows boot manager"
  {
    InstallBootloaderWith(run, bootloaderType, BcdbootCorrected(systemRoot))
  }

  /** Two strings that agree up to ASCII case lower-case to the same string; the
      second one is already lower case. */
  lemma SameLetters(a: string, b: string)
    requires |a| == |b|
    requires forall i :: 0 <= i < |b| ==> !('A' <= b[i] <= 'Z')
    requires forall i :: 0 <= i < |a| ==> a[i] == b[i] || ('A' <= a[i] <= 'Z' && a[i] as int + 32 == b[i] as int)
    ensures ToLower(a) == b
  {
    assert forall i :: 0 <= i < |a| ==> ToLower(a)[i] == b[i];
  }

  /** The type is matched without regard to case: commands are issued exactly for
      the types that lower-case to "windows boot manager", so "grub2" in any case
      fails without running anything. */
  lemma InstallBootloaderDispatch(run: Runner, bootloaderType: string, systemRoot: string)
    ensures InstallBootloader(run, bootloaderType, systemRoot).1 != [] <==>
      ToLower(bootloaderType) == "windows boot manager"
    ensures ToLower(bootloaderType) == "grub2" ==> InstallBootloader(run, bootloaderType, systemRoot) == (false, [])
  {
    if ToLower(bootloaderType) == "grub2" {
      assert ToLower(bootloaderType)[0] == 'g';
    }
  }

  /** The type the application passes, in its usual capitalisation, is accepted. */
  lemma WindowsBootManagerAccepted()
    ensures ToLower("Windows Boot Manager") == "windows boot manager"
  {
    SameLetters("Windows Boot Manager", "windows boot manager");
  }
}

=== FILE: converters.dfy ===
/**
 * The two WPF value converters: booleans to a background brush and booleans to a
 * `Visibility`. Values cross the binding as untyped objects.
 */
module Converters {
  import opened Wrappers
  import opened Text

  datatype Visibility = Visible | Hidden | Collapsed

  /** The three brushes the background converter holds. */
  datatype Brush = SuccessBrush | ErrorBrush | DefaultBrush

  /** An object passing through a binding. */
  datatype Value =
    | Null
    | Bool(b: bool)
    | VisibilityValue(v: Visibility)
    | BrushValue(brush: Brush)
    | DoNothing          // `Binding.DoNothing`
    | OtherValue(text: string)

  /** The converter parameter asks for inversion: its text is "Invert", ignoring case.
      `None` is a null parameter; otherwise the parameter's `ToString()`. */
  predicate IsInvert(parameter: Option<string>) {
    parameter.Some? && EqualsIgnoreCase(parameter.value, "Invert")
  }

  /** `value is bool val && val`. */
  predicate IsTrue(value: Value) {
    value.Bool? && value.b
  }

  /** BooleanToVisibilityConverter.Convert. */
  function ToVisibility(value: Value, parameter: Option<string>): (r: Value)
    ensures r == VisibilityValue(Visible) || r == VisibilityValue(Collapsed)
    ensures r == VisibilityValue(Visible) <==> IsTrue(value) != IsInvert(parameter)
  {
    var shown := if IsInvert(parameter) then !IsTrue(value) else IsTrue(value);
    VisibilityValue(if shown then Visible else Collapsed)
  }

  /** BooleanToVisibilityConverter.ConvertBack. */
  function FromVisibility(value: Value, parameter: Option<string>): (r: bool)
    ensures !value.VisibilityValue? ==> !r
    ensures value.VisibilityValue? ==> (r <==> (value.v == Visible) != IsInvert(parameter))
  {
    if !value.VisibilityValue? then false
    else
      var result := value.v == Visible;
      if IsInvert(parameter) then !result else result
  }

  /** Converting a boolean to a visibility and back gives the boolean again, for every
      parameter. */
  lemma VisibilityRoundTrip(b: bool, parameter: Option<string>)
    ensures FromVisibility(ToVisibility(Bool(b), parameter), parameter) == b
  {
  }

  /** A value that is not a boolean converts like `false`. */
  lemma NonBoolIsFalse(value: Value, parameter: Option<string>)
    requires !value.Bool?
    ensures ToVisibility(value, parameter) == ToVisibility(Bool(false), parameter)
    ensures value != Null ==> ToBackground(value, parameter) == ToBackground(Bool(false), parameter)
  {
  }

  /** BooleanToBackgroundConverter.Convert. */
  function ToBackground(value: Value, parameter: Option<string>): (r: Value)
    ensures value == Null ==> r == BrushValue(DefaultBrush)
    ensures value != Null ==> r == BrushValue(SuccessBrush) || r == BrushValue(ErrorBrush)
    ensures value != Null ==> (r == BrushValue(SuccessBrush) <==> IsTrue(value) != IsInvert(parameter))
  {
    if value == Null then BrushValue(DefaultBrush)
    else
      var ok := if IsInvert(parameter) then !IsTrue(value) else IsTrue(value);
      BrushValue(if ok then SuccessBrush else ErrorBrush)
  }

  /** BooleanToBackgroundConverter.ConvertBack: never converts anything. */
  function FromBackground(value: Value, parameter: Option<string>): (r: Value)
    ensures r == DoNothing
  {
    DoNothing
  }

  /** The inversion parameter swaps the two brushes and leaves the null case alone. */
  lemma InvertSwapsBrushes(b: bool)
    ensures ToBackground(Bool(b), Some("invert")) == ToBackground(Bool(!b), None)
    ensures ToBackground(Null, Some("INVERT")) == ToBackground(Null, None)
  {
    assert IsInvert(Some("invert"));
  }
}

=== FILE: disk_configuration_view_model.dfy ===
/**
 * The disk-configuration screen (DiskConfigurationViewModel): the choice between
 * a new partition and an existing one, the partitions offered for reuse, the
 * default disk, and the configuration handed on to the installation. The disk
 * listing is the disk service's answer, passed in (`None` when it threw).
 */
module DiskConfiguration {
  import opened Wrappers
  import opened Text
  import opened Partitions
  import opened InstallationConfig
  import opened SystemSelection

  /** The screen's state. `requiredSpaceMB` is that of the option selected when the
      screen was built. */
  datatype DiskScreen = DiskScreen(
    disks: seq<Disk>,
    selectedDisk: Option<Disk>,
    createNewPartition: bool,
    useExistingPartition: bool,
    partitions: seq<Partition>,
    selectedPartition: Option<Partition>,
    requestedPartitionSize: int,
    isLoading: bool,
    statusMessage: string,
    requiredSpaceMB: int)

  const DEFAULT_PARTITION_SIZE: int := 30000
  const MINIMUM_PARTITION_SIZE: int := 20000

  /** The initial requested size: 30000 MB, raised or lowered to the larger of
      20000 MB and the option's requirement when that requirement is positive. */
  function InitialPartitionSize(requiredSpaceMB: int): (size: int)
    ensures requiredSpaceMB <= 0 ==> size == DEFAULT_PARTITION_SIZE
    ensures requiredSpaceMB > 0 ==> size >= MINIMUM_PARTITION_SIZE && size >= requiredSpaceMB
    ensures requiredSpaceMB > 0 ==> size == MINIMUM_PARTITION_SIZE || size == requiredSpaceMB
  {
    if requiredSpaceMB > 0 then
      if requiredSpaceMB > MINIMUM_PARTITION_SIZE then requiredSpaceMB else MINIMUM_PARTITION_SIZE
    else DEFAULT_PARTITION_SIZE
  }

  // ---------------------------------------------------------------------------
  // The two mode flags

  /** The `CreateNewPartition` setter: when the value changes to true, the
      `UseExistingPartition` setter is called with false (which, being false, calls
      nothing further). */
  function SetCreateNewPartition(s: DiskScreen, value: bool): (r: DiskScreen)
    ensures r.createNewPartition == value
    ensures value && !s.createNewPartition ==> !r.useExistingPartition
    ensures !(value && !s.createNewPartition) ==> r.useExistingPartition == s.useExistingPartition
    ensures r.(createNewPartition := s.createNewPartition, useExistingPartition := s.useExistingPartition) == s
  {
    if s.createNewPartition == value then s
    else if value then s.(createNewPartition := true, useExistingPartition := false)
    else s.(createNewPartition := false)
  }

  /** The `UseExistingPartition` setter, symmetrically. */
  function SetUseExistingPartition(s: DiskScreen, value: bool): (r: DiskScreen)
    ensures r.useExistingPartition == value
    ensures value && !s.useExistingPartition ==> !r.createNewPartition
    ensures !(value && !s.useExistingPartition) ==> r.createNewPartition == s.createNewPartition
    ensures r.(createNewPartition := s.createNewPartition, useExistingPartition := s.useExistingPartition) == s
  {
    if s.useExistingPartition == value then s
    else if value then s.(useExistingPartition := true, createNewPartition := false)
    else s.(useExistingPartition := false)
  }

  /** The two modes are never both on. */
  predicate ModesExclusive(s: DiskScreen) {
    !(s.createNewPartition && s.useExistingPartition)
  }

  /** Either setter, with either value, keeps the modes exclusive; setting one to
      false may leave neither on. */
  lemma SettersKeepModesExclusive(s: DiskScreen, value: bool)
    requires ModesExclusive(s)
    ensures ModesExclusive(SetCreateNewPartition(s, value))
    ensures ModesExclusive(SetUseExistingPartition(s, value))
    ensures s.createNewPartition && !s.useExistingPartition ==>
      var r := SetCreateNewPartition(s, false); !r.createNewPartition && !r.useExistingPartition
  {
  }

  // ---------------------------------------------------------------------------
  // UpdateAvailablePartitions

  /** NTFS, compared as `OrdinalIgnoreCase` does on ASCII letters. */
  predicate IsNtfs(fileSystem: string) {
    ToLower(fileSystem) == "ntfs"
  }

  /** `IsNtfs` is the case-insensitive comparison with "NTFS". */
  lemma IsNtfsIgnoresCase(fileSystem: string)
    ensures IsNtfs(fileSystem) <==> EqualsIgnoreCase(fileSystem, "NTFS")
  {
    var upper := "NTFS";
    assert ToLower(upper) == "ntfs" by {
      assert forall i :: 0 <= i < |upper| ==> ToLower(upper)[i] == "ntfs"[i];
    }
  }

  /** A partition offered for reuse: it has a drive letter, an NTFS file system, and
      at least the required number of whole mebibytes. */
  predicate Suitable(p: Partition, requiredSpaceMB: int) {
    |p.driveLetter| > 0 && |p.fileSystem| > 0 && IsNtfs(p.fileSystem) && p.SizeMB() >= requiredSpaceMB
  }

  /** The `Where` of `UpdateAvailablePartitions`. */
  function SuitablePartitions(ps: seq<Partition>, requiredSpaceMB: int): (r: seq<Partition>)
    ensures forall p :: p in r <==> p in ps && Suitable(p, requiredSpaceMB)
    ensures forall k ::
      (0 <= k < |ps| && Suitable(ps[k], requiredSpaceMB) && forall j :: 0 <= j < k ==> !Suitable(ps[j], requiredSpaceMB))
      ==> |r| > 0 && r[0] == ps[k]
  {
    FilterKeeps(ps, p => Suitable(p, requiredSpaceMB));
    Filter(ps, p => Suitable(p, requiredSpaceMB))
  }

  /** `UpdateAvailablePartitions`. Without a selected disk the list is emptied;
      otherwise it holds the disk's suitable partitions and the first of them is
      selected, or, when there is none, the selection is cleared and the mode
      forced to a new partition. */
  function UpdateAvailablePartitions(s: DiskScreen): (r: DiskScreen)
    ensures s.selectedDisk.None? ==> r == s.(partitions := [])
    ensures s.selectedDisk.Some? ==>
      r.partitions == SuitablePartitions(s.selectedDisk.value.partitions, s.requiredSpaceMB)
    ensures s.selectedDisk.Some? && |r.partitions| > 0 ==>
      r.selectedPartition == Some(r.partitions[0]) &&
      r.createNewPartition == s.createNewPartition && r.useExistingPartition == s.useExistingPartition
    ensures s.selectedDisk.Some? && |r.partitions| == 0 ==>
      r.selectedPartition.None? && r.createNewPartition && !r.useExistingPartition
    ensures r.(partitions := s.partitions, selectedPartition := s.selectedPartition,
               createNewPartition := s.createNewPartition, useExistingPartition := s.useExistingPartition) == s
  {
    match s.selectedDisk
    case None => s.(partitions := [])
    case Some(d) =>
      var ps := SuitablePartitions(d.partitions, s.requiredSpaceMB);
      if |ps| > 0 then s.(partitions := ps, selectedPartition := Some(ps[0]))
      else
        var cleared := s.(partitions := ps, selectedPartition := None);
        SetUseExistingPartition(SetCreateNewPartition(cleared, true), false)
  }

  // ---------------------------------------------------------------------------
  // Disks

  /** The disk selected after a listing: the first fixed disk, or else the first. */
  function DefaultDisk(disks: seq<Disk>): (d: Disk)
    requires |disks| > 0
    ensures d in disks
    ensures forall k ::
      (0 <= k < |disks| && !disks[k].isRemovable && forall j :: 0 <= j < k ==> disks[j].isRemovable) ==> d == disks[k]
    ensures (forall j :: 0 <= j < |disks| ==> disks[j].isRemovable) ==> d == disks[0]
  {
    if !disks[0].isRemovable || |disks| == 1 then disks[0]
    else
      var d := DefaultDisk(disks[1..]);
      assert forall k :: 1 <= k < |disks| ==> disks[k] == disks[1..][k - 1];
      if d.isRemovable then disks[0] else d
  }

  /** The `SelectedDisk` setter: a different disk is stored and, unless it is null,
      the partitions are updated. */
  function SelectDisk(s: DiskScreen, d: Option<Disk>): (r: DiskScreen)
    ensures r.selectedDisk == d
    ensures d.Some? && d != s.selectedDisk ==> r == UpdateAvailablePartitions(s.(selectedDisk := d))
    ensures d.None? || d == s.selectedDisk ==> r == s.(selectedDisk := d)
  {
    if d == s.selectedDisk then s
    else if d.None? then s.(selectedDisk := None)
    else UpdateAvailablePartitions(s.(selectedDisk := d))
  }

  /** `LoadDisksAsync`. A listing that throws only changes the status; otherwise the
      listed disks are shown and, when there are any, the default one is selected.
      The disk objects of a fresh listing are never the ones already held, so the
      selection always counts as a change and the partitions are recomputed. The
      loading flag is always cleared. */
  function LoadDisks(s: DiskScreen, listing: Option<seq<Disk>>): (r: DiskScreen)
    ensures !r.isLoading
    ensures listing.None? ==> r == s.(isLoading := false, statusMessage := "Erreur lors du chargement des disques")
    ensures listing.Some? ==> r.disks == listing.value
    ensures listing.Some? && |listing.value| == 0 ==>
      r == s.(disks := [], isLoading := false, statusMessage := "Aucun disque disponible")
    ensures listing.Some? && |listing.value| > 0 ==>
      var ps := SuitablePartitions(DefaultDisk(listing.value).partitions, s.requiredSpaceMB);
      && r.selectedDisk == Some(DefaultDisk(listing.value))
      && r.partitions == ps
      && r.selectedPartition == (if |ps| > 0 then Some(ps[0]) else None)
      && (|ps| > 0 ==> r.createNewPartition == s.createNewPartition && r.useExistingPartition == s.useExistingPartition)
      && (|ps| == 0 ==> r.createNewPartition && !r.useExistingPartition)
      && r.statusMessage == IntToDecimal(|listing.value|) + " disques disponibles"
    ensures r.requestedPartitionSize == s.requestedPartitionSize && r.requiredSpaceMB == s.requiredSpaceMB
  {
    match listing
    case None => s.(isLoading := false, statusMessage := "Erreur lors du chargement des disques")
    case Some(ds) =>
      if |ds| == 0 then s.(disks := [], isLoading := false, statusMessage := "Aucun disque disponible")
      else
        var t := UpdateAvailablePartitions(s.(disks := ds, selectedDisk := Some(DefaultDisk(ds))));
        t.(isLoading := false, statusMessage := IntToDecimal(|ds|) + " disques disponibles")
  }

  /** The constructor: new-partition mode, the initial size for the selected option,
      then a first listing. */
  function NewDiskScreen(option: SystemOption, listing: Option<seq<Disk>>): (r: DiskScreen)
    ensures r.requiredSpaceMB == option.requiredSpaceMB
    ensures r.requestedPartitionSize == InitialPartitionSize(option.requiredSpaceMB)
    ensures r.createNewPartition && !r.useExistingPartition
    ensures r.disks == listing.GetOr([]) && !r.isLoading
  {
    var s := DiskScreen([], None, true, false, [], None, InitialPartitionSize(option.requiredSpaceMB),
                        true, "Chargement des disques...", option.requiredSpaceMB);
    LoadDisks(s, listing)
  }

  /** Every operation of the screen keeps the modes exclusive. */
  lemma OperationsKeepModesExclusive(s: DiskScreen, listing: Option<seq<Disk>>, d: Option<Disk>)
    requires ModesExclusive(s)
    ensures ModesExclusive(UpdateAvailablePartitions(s))
    ensures ModesExclusive(SelectDisk(s, d))
    ensures ModesExclusive(LoadDisks(s, listing))
  {
  }

  /** The reuse choices offered are always suitable partitions of the selected disk. */
  lemma OfferedPartitionsAreSuitable(s: DiskScreen, listing: Option<seq<Disk>>)
    requires listing.Some? && |listing.value| > 0
    ensures var r := LoadDisks(s, listing);
      forall p :: p in r.partitions ==>
        p in r.selectedDisk.value.partitions && Suitable(p, s.requiredSpaceMB)
  {
  }

  // ---------------------------------------------------------------------------
  // GetDiskConfiguration

  /** `GetDiskConfiguration`: nothing without a disk; in new-partition mode the disk
      and the requested size; in reuse mode with a selected partition, its letter and
      number; nothing otherwise. Every other field keeps its default. */
  function GetDiskConfiguration(s: DiskScreen): (c: Option<Config>)
    ensures s.selectedDisk.None? ==> c.None?
    ensures c.Some? <==> (s.selectedDisk.Some? &&
      (s.createNewPartition || (s.useExistingPartition && s.selectedPartition.Some?)))
    ensures c.Some? ==> c.value.diskNumber == s.selectedDisk.value.diskNumber
    ensures c.Some? ==> c.value.createNewPartition == s.createNewPartition
    ensures c.Some? && s.createNewPartition ==>
      c.value == DefaultConfig.(diskNumber := c.value.diskNumber, createNewPartition := true,
                                partitionSize := s.requestedPartitionSize)
    ensures c.Some? && !s.createNewPartition ==>
      c.value == DefaultConfig.(diskNumber := c.value.diskNumber,
                                partitionLetter := s.selectedPartition.value.driveLetter,
                                existingPartitionNumber := s.selectedPartition.value.partitionNumber)
  {
    match s.selectedDisk
    case None => None
    case Some(d) =>
      var base := DefaultConfig.(diskNumber := d.diskNumber);
      if s.createNewPartition then Some(base.(createNewPartition := true, partitionSize := s.requestedPartitionSize))
      else if s.useExistingPartition && s.selectedPartition.Some? then
        var p := s.selectedPartition.value;
        Some(base.(createNewPartition := false, partitionLetter := p.driveLetter,
                   existingPartitionNumber := p.partitionNumber))
      else None
  }

  /** Switching new-partition mode off without switching reuse on leaves no
      configuration to hand on. */
  lemma NeitherModeGivesNoConfiguration(s: DiskScreen)
    requires s.createNewPartition && !s.useExistingPartition
    ensures GetDiskConfiguration(SetCreateNewPartition(s, false)).None?
  {
  }

  /** A new-partition configuration built with the initial size, once named, passes
      the dual-boot size check of `Validate`. */
  lemma InitialSizeValidates(s: DiskScreen, option: SystemOption, name: string)
    requires s.requestedPartitionSize == InitialPartitionSize(option.requiredSpaceMB)
    requires s.createNewPartition && s.selectedDisk.Some? && !IsBlank(name)
    ensures Validate(GetDiskConfiguration(s).value.(systemName := name)).None?
  {
  }
}

=== FILE: disk_service.dfy ===
/**
 * The decision logic of the disk service (DiskService): free-space arithmetic,
 * the space check that guards partition creation, the format command and how
 * diskpart/format output is read, and the partition-type and partition-style
 * lookups. WMI queries and process launches are inputs.
 */
module DiskService {
  import opened Wrappers
  import opened Numeric
  import opened Text
  import opened Process
  import opened Partitions

  // ---------------------------------------------------------------------------
  // Unchecked `long` sums

  /** Adding whole multiples of 2^64 does not change the wrapped value. */
  lemma WrapInt64Shift(x: int, k: int)
    ensures WrapInt64(x + k * TWO_64) == WrapInt64(x)
  {
    var a := x - INT64_MIN;
    var q, r := a / TWO_64, a % TWO_64;
    assert a == q * TWO_64 + r;
    assert a + k * TWO_64 == (q + k) * TWO_64 + r;
    ModOfDecomposition(a + k * TWO_64, q + k, r);
  }

  lemma ModOfDecomposition(a: int, q: int, r: int)
    requires 0 <= r < TWO_64
    requires a == q * TWO_64 + r
    ensures a % TWO_64 == r
  {
  }

  /** Wrapping an intermediate sum and wrapping only the final sum agree. */
  lemma WrapInt64Add(a: int, b: int)
    ensures WrapInt64(WrapInt64(a) + b) == WrapInt64(a + b)
  {
    var w := WrapInt64(a);
    var k := (a - w) / TWO_64;
    assert a - w == k * TWO_64;
    assert w + b == (a + b) + (-k) * TWO_64;
    WrapInt64Shift(a + b, -k);
  }

  function TotalSize(ps: seq<Partition>): int
  {
    if |ps| == 0 then 0 else TotalSize(ps[..|ps| - 1]) + ps[|ps| - 1].size
  }

  function TotalFree(ps: seq<Partition>): int
  {
    if |ps| == 0 then 0 else TotalFree(ps[..|ps| - 1]) + ps[|ps| - 1].freeSpace
  }

  /** The partitions' sizes summed in `long`, each addition wrapping. */
  method SumSizes(ps: seq<Partition>) returns (total: int)
    ensures total == WrapInt64(TotalSize(ps))
  {
    total := 0;
    var i := 0;
    while i < |ps|
      invariant 0 <= i <= |ps|
      invariant total == WrapInt64(TotalSize(ps[..i]))
    {
      assert ps[..i + 1][..i] == ps[..i];
      WrapInt64Add(TotalSize(ps[..i]), ps[i].size);
      total := WrapInt64(total + ps[i].size);
      i := i + 1;
    }
    assert ps[..|ps|] == ps;
  }

  /** The partitions' free bytes summed in `long`, each addition wrapping. */
  method SumFree(ps: seq<Partition>) returns (total: int)
    ensures total == WrapInt64(TotalFree(ps))
  {
    total := 0;
    var i := 0;
    while i < |ps|
      invariant 0 <= i <= |ps|
      invariant total == WrapInt64(TotalFree(ps[..i]))
    {
      assert ps[..i + 1][..i] == ps[..i];
      WrapInt64Add(TotalFree(ps[..i]), ps[i].freeSpace);
      total := WrapInt64(total + ps[i].freeSpace);
      i := i + 1;
    }
    assert ps[..|ps|] == ps;
  }

  /** `CalculateFreeSpace`: the unallocated bytes (disk size minus every partition's
      size) plus the free bytes inside the partitions, summed in `long` as the code
      does. The wrapping of the intermediate sums never changes the final answer,
      and with no overflow the answer is the exact sum. */
  method CalculateFreeSpace(disk: Disk) returns (free: int)
    ensures free == WrapInt64(disk.size - TotalSize(disk.partitions) + TotalFree(disk.partitions))
    ensures IsInt64(disk.size - TotalSize(disk.partitions) + TotalFree(disk.partitions)) ==>
      free == disk.size - TotalSize(disk.partitions) + TotalFree(disk.partitions)
  {
    var allocatedBytes := SumSizes(disk.partitions);
    var unallocated := WrapInt64(disk.size - allocatedBytes);
    var inPartitions := SumFree(disk.partitions);
    free := WrapInt64(unallocated + inPartitions);
    // Each wrapped intermediate is its exact value plus a multiple of 2^64.
    var used, spare := TotalSize(disk.partitions), TotalFree(disk.partitions);
    var k1 := WrapOffset(used);
    var k2 := WrapOffset(disk.size - allocatedBytes);
    var k3 := WrapOffset(spare);
    var total := disk.size - used + spare;
    assert unallocated + inPartitions == total + (k2 - k1 + k3) * TWO_64;
    WrapInt64Shift(total, k2 - k1 + k3);
  }

  /** A wrapped value is the exact value shifted by a whole multiple of 2^64. */
  lemma WrapOffset(x: int) returns (k: int)
    ensures WrapInt64(x) == x + k * TWO_64
  {
    var d := x - WrapInt64(x);
    k := -(d / TWO_64);
    assert d == (d / TWO_64) * TWO_64;
  }

  // ---------------------------------------------------------------------------
  // Disk lookup and the space check

  /** `disks.Find(d => d.DiskNumber == n)`: the first disk with that number. */
  function FindDisk(disks: seq<Disk>, n: int): (r: Option<Disk>)
    ensures r.Some? <==> exists i :: 0 <= i < |disks| && disks[i].diskNumber == n
    ensures r.Some? ==> r.value.diskNumber == n
    ensures r.Some? ==> exists i :: (0 <= i < |disks| && disks[i] == r.value &&
      forall j :: 0 <= j < i ==> disks[j].diskNumber != n)
  {
    if |disks| == 0 then None
    else if disks[0].diskNumber == n then Some(disks[0])
    else
      var r := FindDisk(disks[1..], n);
      assert forall i :: 0 <= i < |disks| - 1 ==> disks[1..][i] == disks[i + 1];
      r
  }

  /** `HasEnoughFreeSpaceAsync(n, mb)`: the listed disk's free space covers `mb` MiB,
      computed as an unchecked `long` product. `disks` is `None` when listing the
      disks throws; then, as for an unknown disk number, the answer is false. */
  function HasEnoughFreeSpace(disks: Option<seq<Disk>>, diskNumber: int, requiredMB: int): (ok: bool)
    ensures disks.None? ==> !ok
    ensures disks.Some? && FindDisk(disks.value, diskNumber).None? ==> !ok
    ensures disks.Some? && FindDisk(disks.value, diskNumber).Some? ==>
      (ok <==> FindDisk(disks.value, diskNumber).value.freeSpace >= WrapInt64(requiredMB * BYTES_PER_MB))
  {
    match disks
    case None => false
    case Some(ds) =>
      match FindDisk(ds, diskNumber)
      case None => false
      case Some(d) => d.freeSpace >= WrapInt64(requiredMB * BYTES_PER_MB)
  }

  /** What creating a partition did: refused for lack of space without launching
      diskpart, or launched it and got a partition (or none). */
  datatype CreateOutcome =
    | NotEnoughSpace
    | Launched(partition: Option<Partition>)

  /** `Find(p => p.DriveLetter == letter)` over a partition list: the first
      partition with that letter. */
  function FindByLetter(ps: seq<Partition>, letter: string): (r: Option<Partition>)
    ensures r.Some? <==> exists i :: 0 <= i < |ps| && ps[i].driveLetter == letter
    ensures r.Some? ==> r.value in ps && r.value.driveLetter == letter
    ensures r.Some? ==> exists i :: (0 <= i < |ps| && ps[i] == r.value &&
      forall j :: 0 <= j < i ==> ps[j].driveLetter != letter)
  {
    if |ps| == 0 then None
    else if ps[0].driveLetter == letter then Some(ps[0])
    else
      var r := FindByLetter(ps[1..], letter);
      assert forall i :: 0 <= i < |ps| - 1 ==> ps[1..][i] == ps[i + 1];
      r
  }

  /** `CreatePartitionAsync`. The space check comes first; diskpart's answer, the
      drive letter read from its output and the disk's partitions afterwards are
      inputs. A non-zero exit code yields no partition. */
  function CreatePartition(enoughSpace: bool, diskpart: ProcessResult, assignedLetter: string,
                           partitionsAfter: seq<Partition>): (r: CreateOutcome)
    ensures !enoughSpace <==> r.NotEnoughSpace?
    ensures r.Launched? && r.partition.Some? ==>
      diskpart.exitCode == 0 && r.partition.value in partitionsAfter &&
      r.partition.value.driveLetter == assignedLetter
    ensures r.Launched? && diskpart.exitCode == 0 ==>
      (r.partition.Some? <==> exists i :: 0 <= i < |partitionsAfter| && partitionsAfter[i].driveLetter == assignedLetter)
  {
    if !enoughSpace then NotEnoughSpace
    else if diskpart.exitCode != 0 then Launched(None)
    else Launched(FindByLetter(partitionsAfter, assignedLetter))
  }

  // ---------------------------------------------------------------------------
  // Formatting and diskpart results

  const FORMAT_DONE_FR: string := "Le formatage s'est terminé avec succès"
  const FORMAT_DONE_EN: string := "Format completed successfully"

  /** The head of the format command: "format L: /fs:FS /q". */
  function FormatHead(letter: char, fileSystem: string): string
  {
    "format " + [letter] + ": /fs:" + fileSystem + " /q"
  }

  /** The command `FormatPartitionAsync` runs: the head, a volume-label switch only
      for a label that is not blank, and the confirmation switch last. */
  function FormatCommand(letter: char, fileSystem: string, volumeLabel: string): (cmd: string)
    ensures StartsWith(cmd, FormatHead(letter, fileSystem))
    ensures |cmd| >= |FormatHead(letter, fileSystem)| + 3
    ensures cmd[|cmd| - 3..] == " /y"
    ensures IsBlank(volumeLabel) ==> |cmd| == |FormatHead(letter, fileSystem)| + 3
    ensures !IsBlank(volumeLabel) ==>
      cmd[|FormatHead(letter, fileSystem)|..|cmd| - 3] == " /v:" + volumeLabel
  {
    var head := FormatHead(letter, fileSystem);
    var cmd := head + (if IsBlank(volumeLabel) then "" else " /v:" + volumeLabel) + " /y";
    assert cmd[..|head|] == head;
    cmd
  }

  /** Different non-blank labels give different commands. */
  lemma FormatCommandKeepsLabel(letter: char, fileSystem: string, a: string, b: string)
    requires !IsBlank(a) && !IsBlank(b)
    requires FormatCommand(letter, fileSystem, a) == FormatCommand(letter, fileSystem, b)
    ensures a == b
  {
    var cmd := FormatCommand(letter, fileSystem, a);
    var h := |FormatHead(letter, fileSystem)|;
    assert " /v:" + a == cmd[h..|cmd| - 3] == " /v:" + b;
    assert a == (" /v:" + a)[4..];
  }

  /** `FormatPartitionAsync`'s verdict: exit code 0 and one of the two success
      phrases in the output. */
  function FormatSucceeded(r: ProcessResult): (ok: bool)
    ensures ok ==> r.exitCode == 0
    ensures ok <==> (r.exitCode == 0 &&
      ((exists i :: OccursAt(r.stdout, FORMAT_DONE_FR, i)) || (exists i :: OccursAt(r.stdout, FORMAT_DONE_EN, i))))
  {
    ContainsIff(r.stdout, FORMAT_DONE_FR);
    ContainsIff(r.stdout, FORMAT_DONE_EN);
    r.exitCode == 0 && (Contains(r.stdout, FORMAT_DONE_FR) || Contains(r.stdout, FORMAT_DONE_EN))
  }

  /** The verdict of `ResizePartitionAsync` and `SetPartitionActiveAsync`: failure
      iff a non-zero exit code or an "ERREUR:" line in the output. */
  function DiskpartSucceeded(r: ProcessResult): (ok: bool)
    ensures !ok <==> r.exitCode != 0 || exists i :: OccursAt(r.stdout, "ERREUR:", i)
  {
    ContainsIff(r.stdout, "ERREUR:");
    r.exitCode == 0 && !Contains(r.stdout, "ERREUR:")
  }

  // ---------------------------------------------------------------------------
  // Lookups

  /** The partition-type codes `GetPartitionTypeString` names. */
  const KnownPartitionTypes: map<nat, string> := map[
    0x01 := "FAT12 Primary",
    0x04 := "FAT16 Primary",
    0x05 := "Extended",
    0x06 := "FAT16 Primary",
    0x07 := "NTFS Primary",
    0x0B := "FAT32 Primary",
    0x0C := "FAT32 Primary (LBA)",
    0x0E := "FAT16 Primary (LBA)",
    0x0F := "Extended (LBA)",
    0x11 := "Hidden FAT12",
    0x14 := "Hidden FAT16",
    0x16 := "Hidden FAT16",
    0x17 := "Hidden NTFS",
    0x1B := "Hidden FAT32",
    0x1C := "Hidden FAT32 (LBA)",
    0x1E := "Hidden FAT16 (LBA)",
    0x27 := "Hidden NTFS (Recovery)",
    0x42 := "Dynamic Disk",
    0x80 := "MBR Protective",
    0x82 := "Linux Swap",
    0x83 := "Linux Native",
    0x84 := "Hibernation",
    0x85 := "Linux Extended",
    0x86 := "NTFS Volume Set",
    0x87 := "NTFS Volume Set",
    0xA0 := "Hibernation",
    0xEE := "GPT Protective",
    0xEF := "EFI System Partition"
  ]

  /** `GetPartitionTypeString`: total over every code; a code outside the table is
      shown as "Unknown (n)". */
  function PartitionTypeString(code: nat): (s: string)
    ensures code in KnownPartitionTypes ==> s == KnownPartitionTypes[code]
    ensures code !in KnownPartitionTypes ==>
      StartsWith(s, "Unknown (") && s[|s| - 1] == ')' &&
      s[9..|s| - 1] == NatToDecimal(code)
  {
    if code in KnownPartitionTypes then KnownPartitionTypes[code]
    else
      var s := "Unknown (" + NatToDecimal(code) + ")";
      assert s[..9] == "Unknown (";
      s
  }

  /** An unknown code is never shown like a listed one, and two different unknown
      codes are never shown alike: the displayed string determines the code. */
  lemma PartitionTypeStringSeparatesUnknown(a: nat, b: nat)
    requires a !in KnownPartitionTypes
    requires PartitionTypeString(a) == PartitionTypeString(b)
    ensures a == b
  {
    var s := PartitionTypeString(a);
    if b !in KnownPartitionTypes {
      assert NatToDecimal(a) == s[9..|s| - 1] == NatToDecimal(b);
    }
  }

  /** The partition style read from `detail disk`: MBR phrases are looked for before
      GPT ones; `None` (the command could not be run) and no match give "Unknown". */
  function PartitionStyle(output: Option<string>): (style: string)
    ensures style in {"MBR", "GPT", "Unknown"}
    ensures style == "MBR" <==> output.Some? && NamesMbr(output.value)
    ensures style == "GPT" <==> output.Some? && !NamesMbr(output.value) && NamesGpt(output.value)
  {
    match output
    case None => "Unknown"
    case Some(o) =>
      if Contains(o, "Style de partition : MBR") || Contains(o, "Partition Style: MBR") then "MBR"
      else if Contains(o, "Style de partition : GPT") || Contains(o, "Partition Style: GPT") then "GPT"
      else "Unknown"
  }

  /** The output names the MBR style, in the French or the English wording. */
  predicate NamesMbr(o: string) {
    Contains(o, "Style de partition : MBR") || Contains(o, "Partition Style: MBR")
  }

  /** The output names the GPT style, in the French or the English wording. */
  predicate NamesGpt(o: string) {
    Contains(o, "Style de partition : GPT") || Contains(o, "Partition Style: GPT")
  }

  /** A GPT disk is read as GPT in either wording, and "Unknown" means the command
      failed or neither style was named. */
  lemma GptDiskReadsGpt(o: string)
    requires !NamesMbr(o)
    ensures Contains(o, "Partition Style: GPT") ==> PartitionStyle(Some(o)) == "GPT"
    ensures Contains(o, "Style de partition : GPT") ==> PartitionStyle(Some(o)) == "GPT"
    ensures PartitionStyle(Some(o)) == "Unknown" <==> !NamesGpt(o)
  {
  }

  /** An output naming both styles is read as MBR. */
  lemma MbrWinsOverGpt(o: string)
    requires Contains(o, "Partition Style: MBR") && Contains(o, "Partition Style: GPT")
    ensures PartitionStyle(Some(o)) == "MBR"
  {
  }
}

=== FILE: installation_config.dfy ===
/**
 * What the wizard hands to the installation engine (InstallationConfig), its
 * WSL sub-configuration, and the configuration check `Validate`.
 *
 * A null string field is identified with "" here: every test the code makes on
 * these fields (`IsNullOrWhiteSpace`, `IsNullOrEmpty`) treats the two alike.
 */
module InstallationConfig {
  import opened Wrappers
  import opened Text

  /** `InstallationConfig.InstallType`; a C# enum may also hold an undeclared value. */
  datatype InstallType = DualBoot | Wsl | VirtualMachine | Undeclared(code: int)

  /** `WSLConfig`. */
  datatype WslConfig = WslConfig(
    distroName: string,
    version: string,
    installPath: string,
    defaultUser: string,
    password: string,
    setAsDefault: bool,
    useWsl2: bool)

  /** `new WSLConfig { DistroName = .., Version = .., InstallPath = .. }` with the
      class's initialisers for the other fields. */
  function NewWslConfig(distroName: string, version: string, installPath: string): (w: WslConfig)
    ensures w.distroName == distroName && w.version == version && w.installPath == installPath
    ensures w.defaultUser == "user" && w.useWsl2 && !w.setAsDefault
  {
    WslConfig(distroName, version, installPath, "user", "", false, true)
  }

  /** Extra named options; a present key may map to a null value. */
  type Options = map<string, Option<string>>

  datatype Config = Config(
    installationType: InstallType,
    systemName: string,
    systemVersion: string,
    sourcePath: string,
    installationPath: string,
    diskNumber: int,
    partitionSize: int,            // MB
    partitionLetter: string,
    createNewPartition: bool,
    existingPartitionNumber: int,
    vmRamSize: int,                // MB
    vmProcessorCount: int,
    additionalOptions: Option<Options>,
    distroName: string,
    version: string,
    wslCache: Option<WslConfig>)   // the private backing field of WslConfiguration
  {
    /** The `WslConfiguration` getter: the cached value, or one built from the config's
        own fields, which is then cached. Returns the value and the updated config. */
    function GetWsl(): (r: (WslConfig, Config))
      ensures wslCache.Some? ==> r.0 == wslCache.value && r.1 == this
      ensures wslCache.None? ==>
        r.0.distroName == distroName && r.0.version == version &&
        r.0.installPath == installationPath
      ensures r.1 == this.(wslCache := Some(r.0))
    {
      match wslCache
      case Some(w) => (w, this)
      case None =>
        var w := NewWslConfig(distroName, version, installationPath);
        (w, this.(wslCache := Some(w)))
    }

    /** The `WslConfiguration` setter: stores the value and, unless it is null, copies
        its distribution name, version and install path into the config. */
    function SetWsl(value: Option<WslConfig>): (c: Config)
      ensures c.wslCache == value
      ensures value.None? ==> c == this.(wslCache := None)
      ensures value.Some? ==>
        c.distroName == value.value.distroName && c.version == value.value.version &&
        c.installationPath == value.value.installPath
      ensures c.(wslCache := wslCache, distroName := distroName, version := version,
                 installationPath := installationPath) == this
    {
      match value
      case None => this.(wslCache := None)
      case Some(w) =>
        this.(wslCache := value, distroName := w.distroName, version := w.version,
              installationPath := w.installPath)
    }
  }

  /** A configuration with every field at its C# default. */
  const DefaultConfig: Config :=
    Config(DualBoot, "", "", "", "", 0, 0, "", false, 0, 0, 0, Some(map[]), "", "", None)

  /** The reasons `Validate` gives, in the order it checks them. */
  datatype ValidationError =
    | NameRequired            // "Le nom du système est requis."
    | PartitionTooSmall       // at least 10 GB for a new partition
    | NoExistingPartition     // reuse mode without a partition number
    | WslPathRequired
    | VmPathRequired
    | VmRamTooSmall           // at least 1 GB

  /** The configuration is acceptable: a declarative reading of the rules, one
      strategy at a time. */
  predicate Acceptable(c: Config) {
    && !IsBlank(c.systemName)
    && (c.installationType == DualBoot ==>
          (c.createNewPartition ==> c.partitionSize >= 10000) &&
          (!c.createNewPartition ==> c.existingPartitionNumber >= 0))
    && (c.installationType == Wsl ==> !IsBlank(c.installationPath))
    && (c.installationType == VirtualMachine ==>
          !IsBlank(c.installationPath) && c.vmRamSize >= 1024)
  }

  /** `InstallationConfig.Validate`: the first broken rule, or `None` when valid. The
      name is checked first for every strategy; within a strategy the path comes
      before the RAM size. */
  function Validate(c: Config): (r: Option<ValidationError>)
    ensures r.None? <==> Acceptable(c)
    ensures r == Some(NameRequired) <==> IsBlank(c.systemName)
    ensures r == Some(PartitionTooSmall) <==>
      !IsBlank(c.systemName) && c.installationType == DualBoot &&
      c.createNewPartition && c.partitionSize < 10000
    ensures r == Some(NoExistingPartition) <==>
      !IsBlank(c.systemName) && c.installationType == DualBoot &&
      !c.createNewPartition && c.existingPartitionNumber < 0
    ensures r == Some(WslPathRequired) <==>
      !IsBlank(c.systemName) && c.installationType == Wsl && IsBlank(c.installationPath)
    ensures r == Some(VmPathRequired) <==>
      !IsBlank(c.systemName) && c.installationType == VirtualMachine && IsBlank(c.installationPath)
    ensures r == Some(VmRamTooSmall) <==>
      !IsBlank(c.systemName) && c.installationType == VirtualMachine &&
      !IsBlank(c.installationPath) && c.vmRamSize < 1024
  {
    if IsBlank(c.systemName) then Some(NameRequired)
    else
      match c.installationType
      case DualBoot =>
        if c.createNewPartition && c.partitionSize < 10000 then Some(PartitionTooSmall)
        else if !c.createNewPartition && c.existingPartitionNumber < 0 then Some(NoExistingPartition)
        else None
      case Wsl =>
        if IsBlank(c.installationPath) then Some(WslPathRequired) else None
      case VirtualMachine =>
        if IsBlank(c.installationPath) then Some(VmPathRequired)
        else if c.vmRamSize < 1024 then Some(VmRamTooSmall)
        else None
      case Undeclared(_) => None
  }

  /** The fields `Validate` reads for the configuration's own strategy agree. */
  predicate SameValidatedFields(a: Config, b: Config) {
    && a.installationType == b.installationType
    && a.systemName == b.systemName
    && (a.installationType == DualBoot ==>
          a.createNewPartition == b.createNewPartition && a.partitionSize == b.partitionSize &&
          a.existingPartitionNumber == b.existingPartitionNumber)
    && (a.installationType == Wsl ==> a.installationPath == b.installationPath)
    && (a.installationType == VirtualMachine ==>
          a.installationPath == b.installationPath && a.vmRamSize == b.vmRamSize)
  }

  /** Fields that belong to another strategy are never examined: changing them does
      not change the verdict. */
  lemma ValidateReadsOnlyOwnStrategy(a: Config, b: Config)
    requires SameValidatedFields(a, b)
    ensures Validate(a) == Validate(b)
  {
  }

  /** Reading `WslConfiguration` twice gives the same value, and the second read
      changes nothing. */
  lemma GetWslIdempotent(c: Config)
    ensures c.GetWsl().1.GetWsl() == (c.GetWsl().0, c.GetWsl().1)
  {
  }

  /** Once read, the getter keeps answering its cached value even after the config's
      own distribution fields change: the cache is not refreshed. */
  lemma GetWslCacheIsStale(c: Config, newName: string)
    ensures c.GetWsl().1.(distroName := newName).GetWsl().0 == c.GetWsl().0
  {
  }

  /** Storing a non-null WSL configuration and reading it back returns it unchanged,
      and the config now carries its distribution name, version and path. */
  lemma SetThenGetWsl(c: Config, w: WslConfig)
    ensures c.SetWsl(Some(w)).GetWsl().0 == w
    ensures c.SetWsl(Some(w)).distroName == w.distroName
    ensures c.SetWsl(Some(w)).installationPath == w.installPath
  {
  }

  /** Clearing the WSL configuration makes the next read rebuild it from the fields. */
  lemma ClearThenGetWsl(c: Config)
    ensures c.SetWsl(None).GetWsl().0 == NewWslConfig(c.distroName, c.version, c.installationPath)
  {
  }
}

=== FILE: installation_progress.dfy ===
/**
 * The progress record the installation engine publishes (InstallationProgress)
 * and the per-step record the installation screen shows (InstallationStep).
 * Clock readings are integer timestamps passed in as `now`.
 */
module InstallationProgress {
  import opened Wrappers

  datatype Progress = Progress(
    currentStep: int,
    totalSteps: int,
    percentComplete: int,
    currentOperation: string,
    detailedStatus: Option<string>,
    isCompleted: bool,
    isSuccessful: bool,
    errorMessage: Option<string>)

  datatype StepStatus = Pending | InProgress | Completed | Failed | Skipped

  /** `SetProperty(ref storage, value)`: whether the value differs from the stored
      one (and so a change notification is raised), and what is stored afterwards. */
  function SetProperty<T(==)>(storage: T, value: T): (r: (bool, T))
    ensures r.1 == value
    ensures r.0 <==> storage != value
    ensures !r.0 ==> r.1 == storage
  {
    if storage == value then (false, storage) else (true, value)
  }

  datatype Step = Step(
    stepNumber: int,
    description: string,
    status: StepStatus,
    progressPercentage: int,
    detailedStatus: Option<string>,
    startTime: int,
    endTime: int)
  {
    /** `Duration`: end minus start for a completed step, otherwise the time elapsed
        since the start, even for a failed step that has an end time. */
    function Duration(now: int): (d: int)
      ensures status == Completed ==> d + startTime == endTime
      ensures status != Completed ==> d + startTime == now
    {
      if status == Completed then endTime - startTime else now - startTime
    }

    /** `Start(detail)`: in progress from `now`; the detail replaces the old one even
        when it is null. Percentage and end time are kept. */
    function Start(detail: Option<string>, now: int): (s: Step)
      ensures s.status == InProgress && s.detailedStatus == detail && s.startTime == now
      ensures s.(status := status, detailedStatus := detailedStatus, startTime := startTime) == this
    {
      this.(status := InProgress, detailedStatus := detail, startTime := now)
    }

    /** `Complete(detail)`: completed at 100 % and ended at `now`, with the detail or
        "Terminé" when none is given. The prior status is not consulted. */
    function Complete(detail: Option<string>, now: int): (s: Step)
      ensures s.status == Completed && s.progressPercentage == 100 && s.endTime == now
      ensures s.detailedStatus == Some(detail.GetOr("Terminé"))
      ensures s.(status := status, progressPercentage := progressPercentage,
                 detailedStatus := detailedStatus, endTime := endTime) == this
    {
      this.(status := Completed, progressPercentage := 100,
            detailedStatus := Some(detail.GetOr("Terminé")), endTime := now)
    }

    /** `Fail(error)`: failed and ended at `now`, the error as detail; the
        percentage is left where it was. */
    function Fail(error: Option<string>, now: int): (s: Step)
      ensures s.status == Failed && s.detailedStatus == error && s.endTime == now
      ensures s.progressPercentage == progressPercentage
      ensures s.(status := status, detailedStatus := detailedStatus, endTime := endTime) == this
    {
      this.(status := Failed, detailedStatus := error, endTime := now)
    }

    /** `UpdateProgress(percentage, detail)`: sets the percentage and, when a detail is
        given, the detail; the status is untouched. */
    function UpdateProgress(percentage: int, detail: Option<string>): (s: Step)
      ensures s.progressPercentage == percentage && s.status == status
      ensures detail.Some? ==> s.detailedStatus == detail
      ensures detail.None? ==> s.detailedStatus == detailedStatus
      ensures s.(progressPercentage := progressPercentage, detailedStatus := detailedStatus) == this
    {
      this.(progressPercentage := percentage,
            detailedStatus := if detail.Some? then detail else detailedStatus)
    }
  }

  /** No transition checks the prior status: completing a failed step overwrites the
      failure, and failing a completed step keeps its 100 %. */
  lemma TransitionsIgnorePriorStatus(s: Step, e: Option<string>, t1: int, t2: int)
    ensures s.Fail(e, t1).Complete(None, t2).status == Completed
    ensures s.Fail(e, t1).Complete(None, t2).detailedStatus == Some("Terminé")
    ensures s.Complete(None, t1).Fail(e, t2).status == Failed
    ensures s.Complete(None, t1).Fail(e, t2).progressPercentage == 100
    ensures s.Complete(None, t1).Start(e, t2).status == InProgress
  {
  }

  /** A failed step's duration keeps running with the clock although its end time is
      recorded; a completed step's duration is frozen at end minus start. */
  lemma DurationAfterFinish(s: Step, e: Option<string>, t: int, now: int)
    ensures s.Fail(e, t).Duration(now) == now - s.startTime
    ensures s.Complete(e, t).Duration(now) == t - s.startTime
  {
  }
}

=== FILE: installation_service.dfy ===
/**
 * The installation engine (InstallationService): the prerequisite check, the three
 * five-step installation pipelines, progress reporting, completion and cancellation.
 *
 * The collaborating services are oracles: what they answer is a parameter (a
 * "world" record), and what the engine asks of them is recorded as a list of calls,
 * each tagged with the step during which it was made (0 for the prerequisite
 * check). The cancellation token is the oracle `cancel`: `cancel(k)` is what the
 * pipeline reads at the check that follows the progress report of step `k`.
 * Published progress values are recorded as snapshots.
 */
module InstallationService {
  import opened Wrappers
  import opened Numeric
  import opened Text
  import opened InstallationConfig
  import opened InstallationProgress
  import opened Partitions
  import DiskService
  import BootloaderService
  import VmService

  // ---------------------------------------------------------------------------
  // Events, calls and the engine state
  // ---------------------------------------------------------------------------

  datatype Event =
    | ProgressChanged(progress: Progress)
    | InstallationCompleted(success: bool, errorMessage: Option<string>, finalProgress: Progress)

  /** The collaborator operations the engine invokes. */
  datatype Call =
    | HasEnoughFreeSpace(diskNumber: int, sizeMB: int)
    | IsWslInstalled
    | IsVirtualizationSupported
    | CreatePartition(diskNumber: int, sizeMB: int)
    | GetAvailableDisks
    | FormatPartition(letter: char, fileSystem: string, volumeLabel: string)
    | BackupBootConfiguration
    | ConfigureBootEntry(entry: BootloaderService.BootEntry)
    | SetBootTimeout(seconds: int)
    | SetPartitionActive(diskNumber: int, partitionNumber: int)
    | InstallWsl
    | InstallDistribution(distroName: string, version: string, installPath: string)
    | SetDefaultDistribution(distroName: string)
    | CreateVirtualDisk(path: string, sizeGB: int, isDynamic: bool)
    | CreateVirtualMachine(machine: VmService.VmConfig, isoPath: string)
    | AttachIso(vmId: string, isoPath: string)

  /** A call and the step during which it was made. */
  datatype Issued = Issued(step: int, call: Call)

  /** The `CancellationTokenSource` field: null until a run creates one, then
      cancelled or not. */
  datatype TokenSource = NoSource | Source(cancelled: bool)

  /** `_cancellationTokenSource?.Cancel()`: nothing without a source. */
  function CancelSource(s: TokenSource): (r: TokenSource)
    ensures r.Source? <==> s.Source?
    ensures r.Source? ==> r.cancelled
  {
    if s.NoSource? then s else Source(true)
  }

  /** The service's private state: the in-progress flag, the current progress record,
      the cancellation source of the last run, and the stored configuration. */
  datatype Engine = Engine(inProgress: bool, progress: Progress, source: TokenSource, config: Option<Config>)

  const IDLE_OPERATION: string := "Pas d'installation en cours"
  const START_OPERATION: string := "Démarrage de l'installation"
  const CHECK_OPERATION: string := "Vérification des prérequis"
  const NO_CONFIGURATION: string := "Configuration d'installation non définie"
  const CANCELLED_OPERATION: string := "Installation annulée"
  const CANCELLED_MESSAGE: string := "Installation annulée par l'utilisateur"
  const DONE_OPERATION: string := "Installation terminée avec succès"
  const FINALISING_OPERATION: string := "Finalisation de l'installation"

  /** The state the constructor leaves: idle, step 0 of 5, nothing configured. */
  const InitialEngine: Engine :=
    Engine(false, Progress(0, 5, 0, IDLE_OPERATION, None, false, false, None), NoSource, None)

  /** `GetTotalSteps`: five steps for each of the three supported strategies, three
      for any other value of the enumeration. */
  function GetTotalSteps(t: InstallType): (n: int)
    ensures n == 3 || n == 5
    ensures n == 5 <==> !t.Undeclared?
  {
    match t
    case DualBoot => 5
    case Wsl => 5
    case VirtualMachine => 5
    case Undeclared(_) => 3
  }

  /** `UpdateProgress(step, operation, percent)`: the step and operation are replaced;
      the percentage is the given one or, when none is given, the share of the steps
      before this one, in truncating integer division. Nothing else changes. */
  function UpdateProgress(p: Progress, step: int, operation: string, percent: Option<int>): (q: Progress)
    requires percent.Some? || p.totalSteps != 0
    ensures q.currentStep == step && q.currentOperation == operation
    ensures percent.Some? ==> q.percentComplete == percent.value
    ensures percent.None? && p.totalSteps > 0 && 1 <= step <= p.totalSteps + 1 ==>
      0 <= q.percentComplete <= 100 &&
      q.percentComplete * p.totalSteps <= (step - 1) * 100 < (q.percentComplete + 1) * p.totalSteps
    ensures q.(currentStep := p.currentStep, currentOperation := p.currentOperation,
               percentComplete := p.percentComplete) == p
  {
    var pct := match percent
      case Some(v) => v
      case None => StepShare(step, p.totalSteps);
    p.(currentStep := step, currentOperation := operation, percentComplete := pct)
  }

  /** The share of `total` steps done on entering `step`, as a percentage truncated
      toward zero. */
  function StepShare(step: int, total: int): (pct: int)
    requires total != 0
    ensures total > 0 && 1 <= step <= total + 1 ==>
      0 <= pct <= 100 && pct * total <= (step - 1) * 100 < (pct + 1) * total
  {
    var n := (step - 1) * 100;
    var q := TruncDiv(n, total);
    if total > 0 && 1 <= step <= total + 1 then
      ShareBounds(n, total, q);
      q
    else q
  }

  /** A quotient whose product with a positive divisor lies within one divisor below
      a dividend between 0 and 100 divisors is itself between 0 and 100. */
  lemma ShareBounds(n: int, t: int, q: int)
    requires t > 0 && 0 <= n <= 100 * t
    requires 0 <= n - q * t < t
    ensures 0 <= q <= 100 && q * t <= n < (q + 1) * t
  {
    assert (q + 1) * t == q * t + t;
  }

  /** The first report of every run (step 1, no explicit percentage) reads 0 %. */
  lemma FirstStepReadsZero(p: Progress, operation: string)
    requires p.totalSteps > 0
    ensures UpdateProgress(p, 1, operation, None).percentComplete == 0
  {
  }

  /** The percentages published by the progress events of a list, in order. */
  function Percents(es: seq<Event>): (ps: seq<int>)
    ensures |ps| <= |es|
  {
    if |es| == 0 then []
    else (if es[0].ProgressChanged? then [es[0].progress.percentComplete] else []) + Percents(es[1..])
  }

  lemma {:induction false} PercentsAppend(a: seq<Event>, b: seq<Event>)
    ensures Percents(a + b) == Percents(a) + Percents(b)
  {
    if |a| == 0 {
      assert a + b == b;
    } else {
      var h := if a[0].ProgressChanged? then [a[0].progress.percentComplete] else [];
      assert (a + b)[0] == a[0];
      assert (a + b)[1..] == a[1..] + b;
      assert Percents(a) == h + Percents(a[1..]);
      assert Percents(a + b) == h + Percents(a[1..] + b);
      PercentsAppend(a[1..], b);
      assert h + (Percents(a[1..]) + Percents(b)) == (h + Percents(a[1..])) + Percents(b);
    }
  }

  predicate NonDecreasing(s: seq<int>) {
    forall i, j :: 0 <= i <= j < |s| ==> s[i] <= s[j]
  }

  /** The percentage the pipeline of `t` reports on entering step `k`: 10, 20, 30,
      70 and 90 for a dual boot, 10, 30, 50, 80 and 95 for WSL and for a machine. */
  function StepPercent(t: InstallType, k: int): (pct: int)
    ensures 0 < pct < 100
  {
    if t.DualBoot? then
      if k <= 1 then 10 else if k == 2 then 20 else if k == 3 then 30 else if k == 4 then 70 else 90
    else
      if k <= 1 then 10 else if k == 2 then 30 else if k == 3 then 50 else if k == 4 then 80 else 95
  }

  /** The percentages a successful pipeline publishes from step `k` on: each step's
      own (step 2 only when it runs, that is when a new partition is formatted),
      then 100 from the last step's success report. */
  function PercentsFrom(t: InstallType, formats: bool, k: int): (ps: seq<int>)
    requires 1 <= k
    decreases 6 - k
  {
    if k > 5 then [100]
    else if k == 2 && !formats then PercentsFrom(t, formats, 3)
    else [StepPercent(t, k)] + PercentsFrom(t, formats, k + 1)
  }

  /** Later steps report no lower percentage. */
  lemma StepPercentRises(t: InstallType, k: int)
    ensures StepPercent(t, k) <= StepPercent(t, k + 1)
  {
  }

  /** Putting a value no larger than any element in front keeps a list sorted. */
  lemma PrependSorted(x: int, rest: seq<int>)
    requires NonDecreasing(rest) && forall i :: 0 <= i < |rest| ==> x <= rest[i]
    ensures NonDecreasing([x] + rest)
  {
    var ps := [x] + rest;
    forall i, j | 0 <= i <= j < |ps| ensures ps[i] <= ps[j] {
      if i > 0 { assert ps[i] == rest[i - 1]; }
      if j > 0 { assert ps[j] == rest[j - 1]; }
    }
  }

  /** From any step on, the published percentages lie between that step's own and
      100, and the last of them is 100. */
  lemma {:induction false} PercentsFromBounded(t: InstallType, formats: bool, k: int)
    requires 1 <= k
    ensures forall i :: 0 <= i < |PercentsFrom(t, formats, k)| ==>
      StepPercent(t, k) <= PercentsFrom(t, formats, k)[i] <= 100
    ensures PercentsFrom(t, formats, k)[|PercentsFrom(t, formats, k)| - 1] == 100
    decreases 6 - k
  {
    if k <= 5 {
      PercentsFromBounded(t, formats, k + 1);
      StepPercentRises(t, k);
    }
  }

  /** From any step on, the published percentages never go backwards. */
  lemma {:induction false} PercentsFromSorted(t: InstallType, formats: bool, k: int)
    requires 1 <= k
    ensures NonDecreasing(PercentsFrom(t, formats, k))
    decreases 6 - k
  {
    if k <= 5 {
      PercentsFromSorted(t, formats, k + 1);
      if !(k == 2 && !formats) {
        var rest := PercentsFrom(t, formats, k + 1);
        PercentsFromBounded(t, formats, k + 1);
        StepPercentRises(t, k);
        PrependSorted(StepPercent(t, k), rest);
      }
    }
  }

  /** Every call of the list was made during a step between `lo` and `hi`. */
  predicate TaggedWithin(calls: seq<Issued>, lo: int, hi: int) {
    forall i :: 0 <= i < |calls| ==> lo <= calls[i].step <= hi
  }

  function Tag(step: int, cs: seq<Call>): (r: seq<Issued>)
    ensures |r| == |cs| && TaggedWithin(r, step, step)
    ensures forall i :: 0 <= i < |cs| ==> r[i].call == cs[i]
  {
    seq(|cs|, i requires 0 <= i < |cs| => Issued(step, cs[i]))
  }

  // ---------------------------------------------------------------------------
  // Completion
  // ---------------------------------------------------------------------------

  /** The progress record as `CompleteInstallation` leaves it: completed, with the
      verdict, the message as operation and detail, and 100 % only on success (a
      failure keeps the percentage reached). Step, total and error are untouched. */
  function Finalize(p: Progress, success: bool, message: string): (q: Progress)
    ensures q.isCompleted && q.isSuccessful == success
    ensures q.currentOperation == message && q.detailedStatus == Some(message)
    ensures q.percentComplete == (if success then 100 else p.percentComplete)
    ensures q.currentStep == p.currentStep && q.totalSteps == p.totalSteps
    ensures q.errorMessage == p.errorMessage
  {
    p.(isCompleted := true, isSuccessful := success, currentOperation := message,
       detailedStatus := Some(message), percentComplete := if success then 100 else p.percentComplete)
  }

  /** `OnInstallationCompleted`: the error message is carried only by a failure. */
  function CompletionEvent(success: bool, message: string, p: Progress): (e: Event)
    ensures e.InstallationCompleted? && e.success == success && e.finalProgress == p
    ensures e.errorMessage.Some? <==> !success
    ensures !success ==> e.errorMessage.value == message
  {
    InstallationCompleted(success, if success then None else Some(message), p)
  }

  // ---------------------------------------------------------------------------
  // Cancellation checks
  // ---------------------------------------------------------------------------

  /** The first step, from `from` on, whose cancellation check sees a request; step 2
      has a check only when `formats` (a new partition is being formatted). */
  function FirstCancel(cancel: int -> bool, from: int, formats: bool): (k: Option<int>)
    requires 1 <= from
    decreases 6 - from
    ensures k.Some? ==> from <= k.value <= 5 && cancel(k.value) && (k.value != 2 || formats)
    ensures k.None? <==> Uncancelled(cancel, from, formats)
  {
    if from > 5 then None
    else if cancel(from) && (from != 2 || formats) then Some(from)
    else FirstCancel(cancel, from + 1, formats)
  }

  /** No check from step `from` to step 5 sees a cancellation request. */
  predicate Uncancelled(cancel: int -> bool, from: int, formats: bool) {
    forall k :: from <= k <= 5 && (k != 2 || formats) ==> !cancel(k)
  }

  /** When the check of step `k` sees a request, every call belongs to a step
      before `k`. */
  predicate StopsBefore(cancel: int -> bool, from: int, formats: bool, calls: seq<Issued>) {
    forall k :: from <= k <= 5 && (k != 2 || formats) && cancel(k) ==> TaggedWithin(calls, from, k - 1)
  }

  /** What a pipeline (or its tail from some step on) produces: its verdict, the
      progress record it leaves, its events and calls, and the configuration as it
      leaves it (the dual-boot pipeline writes the new partition's letter into it). */
  datatype Run = Run(ok: bool, progress: Progress, events: seq<Event>, calls: seq<Issued>, config: Config)

  /** A step that reported `p` and made `own` calls, followed by the tail `r`. */
  function Then(p: Progress, own: seq<Issued>, r: Run): (s: Run)
    ensures s.ok == r.ok && s.progress == r.progress && s.config == r.config
    ensures s.events == [ProgressChanged(p)] + r.events && s.calls == own + r.calls
    ensures Percents(s.events) == [p.percentComplete] + Percents(r.events)
  {
    PercentsAppend([ProgressChanged(p)], r.events);
    Run(r.ok, r.progress, [ProgressChanged(p)] + r.events, own + r.calls, r.config)
  }

  /** A step that reported `p`, made `own` calls and returned false. */
  function Stop(p: Progress, own: seq<Issued>, c: Config): (s: Run)
    ensures !s.ok && s.progress == p && s.events == [ProgressChanged(p)] && s.calls == own && s.config == c
  {
    Run(false, p, [ProgressChanged(p)], own, c)
  }

  /** The last step's success ending: the step-5 report at 100 % with `message`. */
  function Done(p: Progress, own: seq<Issued>, message: string, c: Config): (s: Run)
    ensures s.ok && s.config == c && s.calls == own
    ensures s.progress.percentComplete == 100 && s.progress.currentOperation == message
    ensures Percents(s.events) == [p.percentComplete] + [100]
  {
    var q := UpdateProgress(p, 5, message, Some(100));
    assert Percents([ProgressChanged(q)]) == [100];
    PercentsAppend([ProgressChanged(p)], [ProgressChanged(q)]);
    assert [ProgressChanged(p)] + [ProgressChanged(q)] == [ProgressChanged(p), ProgressChanged(q)];
    Run(true, q, [ProgressChanged(p), ProgressChanged(q)], own, c)
  }

  // ---------------------------------------------------------------------------
  // Prerequisites
  // ---------------------------------------------------------------------------

  /** What `new DriveInfo(root).AvailableFreeSpace` gives: a byte count, or an
      exception with its message. */
  datatype DriveProbe = FreeBytes(bytes: int) | ProbeFailed(message: string)

  /** The answers the prerequisite check receives: the disk service's free-space
      verdict, the WSL and virtualisation probes, and the target drive. */
  datatype Checks = Checks(enoughDiskSpace: bool, wslInstalled: bool, virtualizationSupported: bool,
                           driveRoot: string, drive: DriveProbe)

  /** The problems `CheckPrerequisitesAsync` reports. */
  datatype Issue =
    | MissingConfiguration
    | MissingSystemName
    | DiskTooFull(diskNumber: int, sizeMB: int)
    | NoPartitionSelected
    | WslMissing
    | VirtualizationMissing
    | DriveTooFull(drive: string, forVm: bool)
    | NoInstallPath(forVm: bool)
    | CheckError(message: string)

  /** The text each issue is reported with. */
  function Describe(i: Issue): (s: string)
    ensures |s| > 0
  {
    match i
    case MissingConfiguration => NO_CONFIGURATION
    case MissingSystemName => "Nom du système non spécifié"
    case DiskTooFull(d, s) =>
      "Espace insuffisant sur le disque " + IntToDecimal(d) + " pour créer une partition de " +
      IntToDecimal(s) + " MB"
    case NoPartitionSelected => "Aucune partition existante sélectionnée"
    case WslMissing => "Windows Subsystem for Linux n'est pas installé"
    case VirtualizationMissing => "La virtualisation n'est pas supportée ou activée sur ce système"
    case DriveTooFull(d, forVm) =>
      "Espace insuffisant sur le lecteur " + d +
      (if forVm then " pour la machine virtuelle" else " pour l'installation WSL")
    case NoInstallPath(forVm) =>
      "Chemin d'installation non spécifié pour " + (if forVm then "la machine virtuelle" else "WSL")
    case CheckError(m) => "Erreur lors de la vérification des prérequis: " + m
  }

  /** The target drive has room: a path is given, its drive could be probed, and it
      has at least the partition size free (the byte count is a `long` product). */
  predicate DriveRoomy(c: Config, env: Checks) {
    && |c.installationPath| > 0
    && env.drive.FreeBytes?
    && env.drive.bytes >= WrapInt64(c.partitionSize * BYTES_PER_MB)
  }

  /** The prerequisites, stated declaratively strategy by strategy. */
  predicate PrerequisitesMet(c: Config, env: Checks) {
    && !IsBlank(c.systemName)
    && (c.installationType == DualBoot ==>
          if c.createNewPartition then env.enoughDiskSpace else !IsBlank(c.partitionLetter))
    && (c.installationType == Wsl ==> env.wslInstalled && DriveRoomy(c, env))
    && (c.installationType == VirtualMachine ==> env.virtualizationSupported && DriveRoomy(c, env))
  }

  /** The drive part of the WSL and VM checks. A missing path is tested with
      `IsNullOrEmpty`, so a blank path reaches the drive probe. */
  function DriveIssues(c: Config, env: Checks, forVm: bool): (r: seq<Issue>)
    ensures |r| <= 1
    ensures |r| == 0 <==> DriveRoomy(c, env)
    ensures |c.installationPath| == 0 ==> r == [NoInstallPath(forVm)]
  {
    if |c.installationPath| == 0 then [NoInstallPath(forVm)]
    else match env.drive
      case ProbeFailed(m) => [CheckError(m)]
      case FreeBytes(b) =>
        if b < WrapInt64(c.partitionSize * BYTES_PER_MB) then [DriveTooFull(env.driveRoot, forVm)] else []
  }

  /** The strategy-specific part: the issues found and the queries made. */
  function StrategyIssues(c: Config, env: Checks): (r: (seq<Issue>, seq<Call>))
    ensures |r.0| <= 2 && |r.1| <= 1
  {
    match c.installationType
    case DualBoot =>
      if c.createNewPartition then
        (if env.enoughDiskSpace then [] else [DiskTooFull(c.diskNumber, c.partitionSize)],
         [HasEnoughFreeSpace(c.diskNumber, c.partitionSize)])
      else if IsBlank(c.partitionLetter) then ([NoPartitionSelected], [])
      else ([], [])
    case Wsl =>
      ((if env.wslInstalled then [] else [WslMissing]) + DriveIssues(c, env, false), [IsWslInstalled])
    case VirtualMachine =>
      ((if env.virtualizationSupported then [] else [VirtualizationMissing]) + DriveIssues(c, env, true),
       [IsVirtualizationSupported])
    case Undeclared(_) => ([], [])
  }

  /** `CheckPrerequisitesAsync`: every issue is collected (the check does not stop at
      the first), and no issue is found exactly when the prerequisites hold. */
  function CheckPrerequisites(config: Option<Config>, env: Checks): (r: (seq<Issue>, seq<Call>))
    ensures config.None? ==> r == ([MissingConfiguration], [])
    ensures config.Some? ==> (|r.0| == 0 <==> PrerequisitesMet(config.value, env))
    ensures config.Some? ==> (MissingSystemName in r.0 <==> IsBlank(config.value.systemName))
    ensures config.Some? && IsBlank(config.value.systemName) ==> r.0[0] == MissingSystemName
    ensures |r.0| <= 3 && |r.1| <= 1
    ensures forall i :: 0 <= i < |r.1| ==>
      r.1[i].HasEnoughFreeSpace? || r.1[i].IsWslInstalled? || r.1[i].IsVirtualizationSupported?
  {
    match config
    case None => ([MissingConfiguration], [])
    case Some(c) =>
      var s := StrategyIssues(c, env);
      ((if IsBlank(c.systemName) then [MissingSystemName] else []) + s.0, s.1)
  }

  /** Issues accumulate: a nameless reuse of no partition reports both problems. */
  lemma IssuesAccumulate(c: Config, env: Checks)
    requires c.installationType == DualBoot && !c.createNewPartition
    requires IsBlank(c.systemName) && IsBlank(c.partitionLetter)
    ensures CheckPrerequisites(Some(c), env).0 == [MissingSystemName, NoPartitionSelected]
  {
  }

  /** A failed drive probe is reported after the WSL verdict found before it, which
      is kept. */
  lemma ProbeFailureKeepsEarlierIssues(c: Config, env: Checks, m: string)
    requires c.installationType == Wsl && !IsBlank(c.systemName) && |c.installationPath| > 0
    requires !env.wslInstalled && env.drive == ProbeFailed(m)
    ensures CheckPrerequisites(Some(c), env).0 == [WslMissing, CheckError(m)]
  {
  }

  /** `InstallationConfig.Validate` is not consulted: a new partition that it rejects
      as too small passes the prerequisite check whenever the disk has room. */
  lemma UndersizedPartitionPassesPrerequisites(c: Config, env: Checks)
    requires c.installationType == DualBoot && c.createNewPartition && c.partitionSize < 10000
    requires !IsBlank(c.systemName) && env.enoughDiskSpace
    ensures Validate(c) == Some(PartitionTooSmall)
    ensures CheckPrerequisites(Some(c), env).0 == []
  {
  }

  /** `string.Join(", ", issues)` over the issue texts. */
  function IssueList(issues: seq<Issue>): (s: string)
    ensures |issues| > 0 ==> |s| > 0
  {
    if |issues| == 0 then ""
    else if |issues| == 1 then Describe(issues[0])
    else Describe(issues[0]) + ", " + IssueList(issues[1..])
  }

  // ---------------------------------------------------------------------------
  // The dual-boot pipeline
  // ---------------------------------------------------------------------------

  /** The dual-boot collaborators' answers: the partition `CreatePartitionAsync`
      returns (None for null), the disks `GetAvailableDisksAsync` lists, and the
      verdicts of the format and of the boot-entry configuration. */
  datatype DualBootWorld = DualBootWorld(created: Option<Partition>, disks: seq<Disk>, formatOk: bool, entryOk: bool)

  /** The partition the pipeline installs on: the new one, or the first one with
      the configured letter on the first disk with the configured number. */
  function DualBootTarget(c: Config, w: DualBootWorld): (t: Option<Partition>)
    ensures c.createNewPartition ==> t == w.created
    ensures !c.createNewPartition && t.Some? ==>
      t.value.driveLetter == c.partitionLetter &&
      exists d :: d in w.disks && d.diskNumber == c.diskNumber && t.value in d.partitions
    ensures !c.createNewPartition && (forall d :: d in w.disks ==> d.diskNumber != c.diskNumber) ==> t.None?
    ensures !c.createNewPartition && DiskService.FindDisk(w.disks, c.diskNumber).Some? ==>
      var ps := DiskService.FindDisk(w.disks, c.diskNumber).value.partitions;
      (t.Some? <==> exists i :: 0 <= i < |ps| && ps[i].driveLetter == c.partitionLetter) &&
      (t.Some? ==> exists i :: (0 <= i < |ps| && ps[i] == t.value &&
        forall j :: 0 <= j < i ==> ps[j].driveLetter != c.partitionLetter))
  {
    if c.createNewPartition then w.created
    else match DiskService.FindDisk(w.disks, c.diskNumber)
      case None => None
      case Some(d) => DiskService.FindByLetter(d.partitions, c.partitionLetter)
  }

  /** The boot entry the pipeline asks for: named after the system, loading Windows
      from the target letter, marked as ours. */
  function BootEntryFor(c: Config): (b: BootloaderService.BootEntry)
    ensures b.displayName == c.systemName && b.isCreatedByUs && b.id.None?
    ensures b.device == "partition=" + c.partitionLetter + ":"
    ensures StartsWith(b.path, c.partitionLetter + ":")
  {
    var path := c.partitionLetter + ":" + "\\Windows\\System32\\winload.exe";
    assert path[..|c.partitionLetter + ":"|] == c.partitionLetter + ":";
    BootloaderService.BootEntry(None, c.systemName, path, "partition=" + c.partitionLetter + ":",
                                false, 0, "", true)
  }

  /** The calls that touch the disk layout (create, format, activate) are only made
      for a new partition. */
  predicate OnlyWhenCreating(c: Config, calls: seq<Issued>) {
    forall i :: 0 <= i < |calls| ==>
      (calls[i].call.CreatePartition? || calls[i].call.FormatPartition? || calls[i].call.SetPartitionActive?) ==>
        c.createNewPartition
  }

  lemma LayoutConcat(c: Config, a: seq<Issued>, b: seq<Issued>)
    requires OnlyWhenCreating(c, a) && OnlyWhenCreating(c, b)
    ensures OnlyWhenCreating(c, a + b)
  {
    forall i | 0 <= i < |a + b| ensures (a + b)[i] == if i < |a| then a[i] else b[i - |a|] {
    }
  }

  /** The dual-boot pipeline runs to the end. */
  predicate DualBootSucceeds(c: Config, w: DualBootWorld, cancel: int -> bool) {
    && Uncancelled(cancel, 1, c.createNewPartition)
    && DualBootTarget(c, w).Some?
    && (c.createNewPartition ==> |DualBootTarget(c, w).value.driveLetter| > 0 && w.formatOk)
    && w.entryOk
  }

  /** A step whose check passed and which stops after its own calls. */
  lemma StoppedAt(cancel: int -> bool, j: int, formats: bool, own: seq<Issued>)
    requires j <= 5 && !cancel(j) && TaggedWithin(own, j, j)
    ensures TaggedWithin(own, j, 5) && StopsBefore(cancel, j, formats, own)
  {
  }

  /** A step whose check passed, followed by the tail that starts at step `next`:
      the next step, or step 3 after step 1 when step 2 has no check. */
  lemma ContinuedAt(cancel: int -> bool, j: int, next: int, formats: bool, own: seq<Issued>, rest: seq<Issued>)
    requires 1 <= j && next <= 5 && (next == j + 1 || (j == 1 && next == 3 && !formats)) && !cancel(j)
    requires TaggedWithin(own, j, j) && TaggedWithin(rest, next, 5) && StopsBefore(cancel, next, formats, rest)
    ensures TaggedWithin(own + rest, j, 5) && StopsBefore(cancel, j, formats, own + rest)
    ensures Uncancelled(cancel, j, formats) <==> Uncancelled(cancel, next, formats)
  {
    TaggedConcat(own, rest, j, 5);
    forall k | j <= k <= 5 && (k != 2 || formats) && cancel(k)
      ensures TaggedWithin(own + rest, j, k - 1)
    {
      assert k >= next;
      TaggedConcat(own, rest, j, k - 1);
    }
  }

  lemma TaggedConcat(a: seq<Issued>, b: seq<Issued>, lo: int, hi: int)
    requires TaggedWithin(a, lo, hi) && TaggedWithin(b, lo, hi)
    ensures TaggedWithin(a + b, lo, hi)
  {
    forall i | 0 <= i < |a + b| ensures lo <= (a + b)[i].step <= hi {
      if i >= |a| { assert (a + b)[i] == b[i - |a|]; }
    }
  }

  /** Step 5: final report, then activation of a new partition. */
  method DualBootFinish(c: Config, p: Progress, target: Partition, cancel: int -> bool) returns (r: Run)
    ensures r.ok <==> !cancel(5)
    ensures r.config == c && TaggedWithin(r.calls, 5, 5) && StopsBefore(cancel, 5, c.createNewPartition, r.calls)
    ensures r.ok ==> Percents(r.events) == PercentsFrom(DualBoot, c.createNewPartition, 5)
    ensures OnlyWhenCreating(c, r.calls)
    ensures r.ok && c.createNewPartition ==> Issued(5, SetPartitionActive(c.diskNumber, target.partitionNumber)) in r.calls
  {
    var p5 := UpdateProgress(p, 5, FINALISING_OPERATION, Some(90));
    if cancel(5) {
      return Stop(p5, [], c);
    }
    var own := if c.createNewPartition then [Issued(5, SetPartitionActive(c.diskNumber, target.partitionNumber))] else [];
    r := Done(p5, own, DONE_OPERATION, c);
  }

  /** Step 4: backup, boot entry, timeout. A failed entry ends the run; the backup's
      and the timeout's verdicts are ignored. */
  method DualBootBoot(c: Config, p: Progress, target: Partition, w: DualBootWorld, cancel: int -> bool) returns (r: Run)
    ensures r.ok <==> Uncancelled(cancel, 4, c.createNewPartition) && w.entryOk
    ensures r.config == c && TaggedWithin(r.calls, 4, 5) && StopsBefore(cancel, 4, c.createNewPartition, r.calls)
    ensures r.ok ==> Percents(r.events) == PercentsFrom(DualBoot, c.createNewPartition, 4)
    ensures OnlyWhenCreating(c, r.calls)
    ensures !cancel(4) ==> Issued(4, ConfigureBootEntry(BootEntryFor(c))) in r.calls
    ensures r.ok && c.createNewPartition ==> Issued(5, SetPartitionActive(c.diskNumber, target.partitionNumber)) in r.calls
  {
    var p4 := UpdateProgress(p, 4, "Configuration du gestionnaire de démarrage", Some(70));
    if cancel(4) {
      return Stop(p4, [], c);
    }
    var entry := Issued(4, ConfigureBootEntry(BootEntryFor(c)));
    if !w.entryOk {
      var own := [Issued(4, BackupBootConfiguration), entry];
      StoppedAt(cancel, 4, c.createNewPartition, own);
      return Stop(p4, own, c);
    }
    var own := [Issued(4, BackupBootConfiguration), entry, Issued(4, SetBootTimeout(10))];
    var rest := DualBootFinish(c, p4, target, cancel);
    r := Then(p4, own, rest);
    ContinuedAt(cancel, 4, 5, c.createNewPartition, own, rest.calls);
    LayoutConcat(c, own, rest.calls);
  }

  /** Step 3: preparing the installation medium (no collaborator call). */
  method DualBootCopy(c: Config, p: Progress, target: Partition, w: DualBootWorld, cancel: int -> bool) returns (r: Run)
    ensures r.ok <==> Uncancelled(cancel, 3, c.createNewPartition) && w.entryOk
    ensures r.config == c && TaggedWithin(r.calls, 3, 5) && StopsBefore(cancel, 3, c.createNewPartition, r.calls)
    ensures r.ok ==> Percents(r.events) == PercentsFrom(DualBoot, c.createNewPartition, 3)
    ensures OnlyWhenCreating(c, r.calls)
    ensures r.ok ==> Issued(4, ConfigureBootEntry(BootEntryFor(c))) in r.calls
    ensures r.ok && c.createNewPartition ==> Issued(5, SetPartitionActive(c.diskNumber, target.partitionNumber)) in r.calls
  {
    var p3 := UpdateProgress(p, 3, "Préparation du support d'installation pour " + c.systemName, Some(30));
    if cancel(3) {
      return Stop(p3, [], c);
    }
    var rest := DualBootBoot(c, p3, target, w, cancel);
    r := Then(p3, [], rest);
    ContinuedAt(cancel, 3, 4, c.createNewPartition, [], rest.calls);
  }

  /** Step 2, for a new partition: formatting it in NTFS under the system's name. An
      empty letter makes `PartitionLetter[0]` throw, which fails the run. */
  method DualBootFormat(c: Config, p: Progress, target: Partition, w: DualBootWorld, cancel: int -> bool) returns (r: Run)
    requires c.createNewPartition
    ensures r.ok <==> Uncancelled(cancel, 2, true) && |c.partitionLetter| > 0 && w.formatOk && w.entryOk
    ensures r.config == c && TaggedWithin(r.calls, 2, 5) && StopsBefore(cancel, 2, true, r.calls)
    ensures r.ok ==> Percents(r.events) == PercentsFrom(DualBoot, true, 2)
    ensures r.ok ==> Issued(4, ConfigureBootEntry(BootEntryFor(c))) in r.calls
    ensures r.ok ==> Issued(2, FormatPartition(c.partitionLetter[0], "NTFS", c.systemName)) in r.calls
    ensures r.ok ==> Issued(5, SetPartitionActive(c.diskNumber, target.partitionNumber)) in r.calls
  {
    var p2 := UpdateProgress(p, 2, "Formatage de la partition " + c.partitionLetter + ":", Some(20));
    if cancel(2) || |c.partitionLetter| == 0 {
      return Stop(p2, [], c);
    }
    var own := [Issued(2, FormatPartition(c.partitionLetter[0], "NTFS", c.systemName))];
    if !w.formatOk {
      StoppedAt(cancel, 2, true, own);
      return Stop(p2, own, c);
    }
    var rest := DualBootCopy(c, p2, target, w, cancel);
    r := Then(p2, own, rest);
    ContinuedAt(cancel, 2, 3, true, own, rest.calls);
  }

  /** Step 1 for a new partition: it is created, and its letter is written into the
      configuration the later steps read. */
  method DualBootNew(c: Config, p: Progress, w: DualBootWorld, cancel: int -> bool) returns (r: Run)
    requires c.createNewPartition
    ensures r.ok <==> DualBootSucceeds(c, w, cancel)
    ensures r.config == c.(partitionLetter := r.config.partitionLetter)
    ensures !cancel(1) && w.created.Some? ==> r.config.partitionLetter == w.created.value.driveLetter
    ensures TaggedWithin(r.calls, 1, 5) && StopsBefore(cancel, 1, true, r.calls)
    ensures r.ok ==> Percents(r.events) == PercentsFrom(DualBoot, true, 1)
    ensures r.ok ==> Issued(4, ConfigureBootEntry(BootEntryFor(r.config))) in r.calls
    ensures r.ok ==> Issued(5, SetPartitionActive(c.diskNumber, w.created.value.partitionNumber)) in r.calls
  {
    var p1 := UpdateProgress(p, 1, "Préparation de la partition", Some(10));
    if cancel(1) {
      return Stop(p1, [], c);
    }
    var own := [Issued(1, CreatePartition(c.diskNumber, c.partitionSize))];
    if w.created.None? {
      StoppedAt(cancel, 1, true, own);
      return Stop(p1, own, c);
    }
    var q := w.created.value;
    var rest := DualBootFormat(c.(partitionLetter := q.driveLetter), p1, q, w, cancel);
    r := Then(p1, own, rest);
    ContinuedAt(cancel, 1, 2, true, own, rest.calls);
  }

  /** Step 1 for an existing partition: it is looked up by disk number and letter,
      and the format step is skipped; the configuration is left as it is. */
  method DualBootExisting(c: Config, p: Progress, w: DualBootWorld, cancel: int -> bool) returns (r: Run)
    requires !c.createNewPartition
    ensures r.ok <==> DualBootSucceeds(c, w, cancel)
    ensures r.config == c
    ensures TaggedWithin(r.calls, 1, 5) && StopsBefore(cancel, 1, false, r.calls)
    ensures r.ok ==> Percents(r.events) == PercentsFrom(DualBoot, false, 1)
    ensures OnlyWhenCreating(c, r.calls)
    ensures r.ok ==> Issued(4, ConfigureBootEntry(BootEntryFor(c))) in r.calls
  {
    var p1 := UpdateProgress(p, 1, "Préparation de la partition", Some(10));
    if cancel(1) {
      return Stop(p1, [], c);
    }
    var own := [Issued(1, GetAvailableDisks)];
    var target := DualBootTarget(c, w);
    if target.None? {
      StoppedAt(cancel, 1, false, own);
      return Stop(p1, own, c);
    }
    var rest := DualBootCopy(c, p1, target.value, w, cancel);
    r := Then(p1, own, rest);
    ContinuedAt(cancel, 1, 3, false, own, rest.calls);
  }

  /** `PerformDualBootInstallationAsync`: step 1 creates or finds the target, the
      later steps are the methods above. It succeeds exactly when no check sees a
      cancellation, the target exists, a new partition has a letter and formats, and
      the boot entry is configured; the disk layout is only touched for a new
      partition. */
  method DualBootInstall(c: Config, p: Progress, w: DualBootWorld, cancel: int -> bool) returns (r: Run)
    ensures r.ok <==> DualBootSucceeds(c, w, cancel)
    ensures r.config == c.(partitionLetter := r.config.partitionLetter)
    ensures TaggedWithin(r.calls, 1, 5) && StopsBefore(cancel, 1, c.createNewPartition, r.calls)
    ensures r.ok ==> Percents(r.events) == PercentsFrom(DualBoot, c.createNewPartition, 1)
    ensures OnlyWhenCreating(c, r.calls)
    ensures r.ok ==> Issued(4, ConfigureBootEntry(BootEntryFor(r.config))) in r.calls
  {
    if c.createNewPartition {
      r := DualBootNew(c, p, w, cancel);
    } else {
      r := DualBootExisting(c, p, w, cancel);
    }
  }

  // ---------------------------------------------------------------------------
  // The WSL pipeline
  // ---------------------------------------------------------------------------

  /** The WSL service's answers during the pipeline: whether WSL is installed (asked
      again, independently of the prerequisite check), and the verdicts of installing
      WSL and the distribution. */
  datatype WslWorld = WslWorld(installed: bool, installWslOk: bool, installDistroOk: bool)

  /** How the "SetAsDefault" option reads: present with a value equal to "true"
      ignoring case (whose lower-case form is "true" itself), absent or different, or
      present with a null value, which makes the comparison throw. */
  datatype DefaultRequest = SetDefault | KeepDefault | OptionThrows

  function DefaultRequested(options: Option<Options>): (d: DefaultRequest)
    ensures d == OptionThrows <==>
      options.Some? && "SetAsDefault" in options.value && options.value["SetAsDefault"].None?
    ensures d == SetDefault <==>
      options.Some? && "SetAsDefault" in options.value && options.value["SetAsDefault"].Some? &&
      ToLower(options.value["SetAsDefault"].value) == "true"
  {
    if options.None? || "SetAsDefault" !in options.value then KeepDefault
    else match options.value["SetAsDefault"]
      case None => OptionThrows
      case Some(v) => if ToLower(v) == "true" then SetDefault else KeepDefault
  }

  /** The WSL pipeline runs to the end. */
  predicate WslSucceeds(c: Config, w: WslWorld, cancel: int -> bool) {
    && Uncancelled(cancel, 1, true)
    && (w.installed || w.installWslOk)
    && w.installDistroOk
    && DefaultRequested(c.additionalOptions) != OptionThrows
  }

  /** Step 5: final report, then the default distribution when asked for. */
  method WslFinish(c: Config, p: Progress, cancel: int -> bool) returns (r: Run)
    ensures r.ok <==> !cancel(5) && DefaultRequested(c.additionalOptions) != OptionThrows
    ensures r.config == c && TaggedWithin(r.calls, 5, 5) && StopsBefore(cancel, 5, true, r.calls)
    ensures r.ok ==> Percents(r.events) == PercentsFrom(Wsl, true, 5)
    ensures forall i :: 0 <= i < |r.calls| ==> !r.calls[i].call.InstallWsl?
    ensures r.ok ==> (Issued(5, SetDefaultDistribution(c.distroName)) in r.calls <==>
                      DefaultRequested(c.additionalOptions) == SetDefault)
  {
    var p5 := UpdateProgress(p, 5, FINALISING_OPERATION, Some(95));
    if cancel(5) || DefaultRequested(c.additionalOptions) == OptionThrows {
      return Stop(p5, [], c);
    }
    var own := if DefaultRequested(c.additionalOptions) == SetDefault
      then [Issued(5, SetDefaultDistribution(c.distroName))] else [];
    r := Done(p5, own, DONE_OPERATION, c);
  }

  /** Step 4: configuring the distribution (no collaborator call). */
  method WslConfigure(c: Config, p: Progress, cancel: int -> bool) returns (r: Run)
    ensures r.ok <==> Uncancelled(cancel, 4, true) && DefaultRequested(c.additionalOptions) != OptionThrows
    ensures r.config == c && TaggedWithin(r.calls, 4, 5) && StopsBefore(cancel, 4, true, r.calls)
    ensures r.ok ==> Percents(r.events) == PercentsFrom(Wsl, true, 4)
    ensures forall i :: 0 <= i < |r.calls| ==> !r.calls[i].call.InstallWsl?
    ensures r.ok ==> (Issued(5, SetDefaultDistribution(c.distroName)) in r.calls <==>
                      DefaultRequested(c.additionalOptions) == SetDefault)
  {
    var p4 := UpdateProgress(p, 4, "Configuration de la distribution", Some(80));
    if cancel(4) {
      return Stop(p4, [], c);
    }
    var rest := WslFinish(c, p4, cancel);
    r := Then(p4, [], rest);
    ContinuedAt(cancel, 4, 5, true, [], rest.calls);
  }

  /** Step 3: installing the distribution under its configured name, version and path. */
  method WslInstallDistro(c: Config, p: Progress, w: WslWorld, cancel: int -> bool) returns (r: Run)
    ensures r.ok <==> Uncancelled(cancel, 3, true) && w.installDistroOk &&
                      DefaultRequested(c.additionalOptions) != OptionThrows
    ensures r.config == c && TaggedWithin(r.calls, 3, 5) && StopsBefore(cancel, 3, true, r.calls)
    ensures r.ok ==> Percents(r.events) == PercentsFrom(Wsl, true, 3)
    ensures forall i :: 0 <= i < |r.calls| ==> !r.calls[i].call.InstallWsl?
    ensures r.ok ==> Issued(3, InstallDistribution(c.distroName, c.version, c.installationPath)) in r.calls
    ensures r.ok ==> (Issued(5, SetDefaultDistribution(c.distroName)) in r.calls <==>
                      DefaultRequested(c.additionalOptions) == SetDefault)
  {
    var p3 := UpdateProgress(p, 3, "Installation de la distribution " + c.systemName, Some(50));
    if cancel(3) {
      return Stop(p3, [], c);
    }
    var own := [Issued(3, InstallDistribution(c.distroName, c.version, c.installationPath))];
    if !w.installDistroOk {
      StoppedAt(cancel, 3, true, own);
      return Stop(p3, own, c);
    }
    var rest := WslConfigure(c, p3, cancel);
    r := Then(p3, own, rest);
    ContinuedAt(cancel, 3, 4, true, own, rest.calls);
  }

  /** Step 2: preparing the distribution (no collaborator call). */
  method WslPrepare(c: Config, p: Progress, w: WslWorld, cancel: int -> bool) returns (r: Run)
    ensures r.ok <==> Uncancelled(cancel, 2, true) && w.installDistroOk &&
                      DefaultRequested(c.additionalOptions) != OptionThrows
    ensures r.config == c && TaggedWithin(r.calls, 2, 5) && StopsBefore(cancel, 2, true, r.calls)
    ensures r.ok ==> Percents(r.events) == PercentsFrom(Wsl, true, 2)
    ensures forall i :: 0 <= i < |r.calls| ==> !r.calls[i].call.InstallWsl?
    ensures r.ok ==> Issued(3, InstallDistribution(c.distroName, c.version, c.installationPath)) in r.calls
    ensures r.ok ==> (Issued(5, SetDefaultDistribution(c.distroName)) in r.calls <==>
                      DefaultRequested(c.additionalOptions) == SetDefault)
  {
    var p2 := UpdateProgress(p, 2, "Préparation de la distribution " + c.systemName, Some(30));
    if cancel(2) {
      return Stop(p2, [], c);
    }
    var rest := WslInstallDistro(c, p2, w, cancel);
    r := Then(p2, [], rest);
    ContinuedAt(cancel, 2, 3, true, [], rest.calls);
  }

  /** `PerformWSLInstallationAsync`: step 1 asks whether WSL is installed and
      installs it when it is not, a failed installation ending the run; then the
      distribution is installed and, when the options ask for it, made the default.
      It succeeds exactly when no check sees a cancellation, WSL is or becomes
      installed, the distribution installs and the option can be read. */
  method WslInstall(c: Config, p: Progress, w: WslWorld, cancel: int -> bool) returns (r: Run)
    ensures r.ok <==> WslSucceeds(c, w, cancel)
    ensures r.config == c && TaggedWithin(r.calls, 1, 5) && StopsBefore(cancel, 1, true, r.calls)
    ensures r.ok ==> Percents(r.events) == PercentsFrom(Wsl, true, 1)
    ensures w.installed ==> forall i :: 0 <= i < |r.calls| ==> !r.calls[i].call.InstallWsl?
    ensures !w.installed && !cancel(1) ==> Issued(1, InstallWsl) in r.calls
    ensures r.ok ==> Issued(3, InstallDistribution(c.distroName, c.version, c.installationPath)) in r.calls
    ensures r.ok ==> (Issued(5, SetDefaultDistribution(c.distroName)) in r.calls <==>
                      DefaultRequested(c.additionalOptions) == SetDefault)
  {
    var p1 := UpdateProgress(p, 1, "Vérification de WSL", Some(10));
    if cancel(1) {
      return Stop(p1, [], c);
    }
    var own := if w.installed then [Issued(1, IsWslInstalled)] else [Issued(1, IsWslInstalled), Issued(1, InstallWsl)];
    if !w.installed && !w.installWslOk {
      StoppedAt(cancel, 1, true, own);
      return Stop(p1, own, c);
    }
    var rest := WslPrepare(c, p1, w, cancel);
    r := Then(p1, own, rest);
    ContinuedAt(cancel, 1, 2, true, own, rest.calls);
    assert !w.installed ==> r.calls[1] == Issued(1, InstallWsl);
  }

  // ---------------------------------------------------------------------------
  // The virtual-machine pipeline
  // ---------------------------------------------------------------------------

  /** The VM service's answers during the pipeline: virtualisation support (asked
      again), the path `CreateVirtualDiskAsync` returns and the id
      `CreateVirtualMachineAsync` returns (None for null), whether the ISO file
      exists, and the user's documents folder. */
  datatype VmWorld = VmWorld(supported: bool, createdVhd: Option<string>, vmId: Option<string>,
                             isoExists: bool, documentsFolder: string)

  /** `Path.Combine(a, b)` for a relative `b`: a backslash is inserted unless `a` is
      empty or already ends with one. */
  function Combine(a: string, b: string): (r: string)
    ensures |a| == 0 ==> r == b
    ensures |a| > 0 ==> StartsWith(r, a) && |r| >= |a| + |b|
  {
    if |a| == 0 then b
    else
      var r := if a[|a| - 1] == '\\' then a + b else a + "\\" + b;
      assert r[..|a|] == a;
      r
  }

  /** The machine's folder: the installation path, or "Virtual Machines\<name>" under
      the documents folder when no path is configured. */
  function VmFolder(c: Config, documents: string): (d: string)
    ensures |c.installationPath| > 0 ==> d == c.installationPath
    ensures |c.installationPath| == 0 ==> StartsWith(d, documents)
  {
    if |c.installationPath| == 0 then
      var inner := Combine(documents, "Virtual Machines");
      var d := Combine(inner, c.systemName);
      assert StartsWith(inner, documents);
      assert |documents| > 0 ==> d[..|documents|] == inner[..|documents|];
      d
    else c.installationPath
  }

  /** `(int)(PartitionSize / 1024)`: the size in GB, truncated, in an unchecked cast. */
  function DiskSizeGB(partitionSizeMB: int): (gb: int)
    ensures IsInt32(gb)
    ensures 0 <= partitionSizeMB <= 1024 * INT32_MAX ==>
      0 <= gb && gb * 1024 <= partitionSizeMB < gb * 1024 + 1024
  {
    WrapInt32(TruncDiv(partitionSizeMB, 1024))
  }

  /** A partition size under one GB asks for a disk of zero GB: nothing checks the
      size of a virtual-machine installation. */
  lemma SmallPartitionAsksForEmptyDisk(c: Config, env: Checks)
    requires c.installationType == VirtualMachine && 0 <= c.partitionSize < 1024
    requires !IsBlank(c.systemName) && env.virtualizationSupported
    requires |c.installationPath| > 0 && env.drive.FreeBytes? && env.drive.bytes >= c.partitionSize * BYTES_PER_MB
    ensures CheckPrerequisites(Some(c), env).0 == []
    ensures DiskSizeGB(c.partitionSize) == 0
  {
    assert WrapInt64(c.partitionSize * BYTES_PER_MB) == c.partitionSize * BYTES_PER_MB;
  }

  /** The machine requested: defaults of 4096 MB and 2 processors replace values that
      are not positive; the disk is dynamic. */
  function VmRequest(c: Config, folder: string): (m: VmService.VmConfig)
    ensures m.name == c.systemName && m.storagePath == folder && m.isDynamicDisk
    ensures m.memoryMB > 0 && m.processorCount > 0
    ensures c.vmRamSize > 0 ==> m.memoryMB == c.vmRamSize
    ensures c.vmProcessorCount > 0 ==> m.processorCount == c.vmProcessorCount
    ensures m.diskSizeGB == DiskSizeGB(c.partitionSize)
  {
    VmService.VmConfig(c.systemName,
                       if c.vmProcessorCount > 0 then c.vmProcessorCount else 2,
                       if c.vmRamSize > 0 then c.vmRamSize else 4096,
                       DiskSizeGB(c.partitionSize), folder, true)
  }

  /** The VM pipeline runs to the end. */
  predicate VmSucceeds(w: VmWorld, cancel: int -> bool) {
    && Uncancelled(cancel, 1, true)
    && w.supported
    && !IsNullOrEmpty(w.createdVhd)
    && !IsNullOrEmpty(w.vmId)
  }

  /** Step 5: final report. */
  method VmFinish(c: Config, p: Progress, cancel: int -> bool) returns (r: Run)
    ensures r.ok <==> !cancel(5)
    ensures r.config == c && r.calls == [] && StopsBefore(cancel, 5, true, r.calls)
    ensures r.ok ==> Percents(r.events) == PercentsFrom(VirtualMachine, true, 5)
  {
    var p5 := UpdateProgress(p, 5, FINALISING_OPERATION, Some(95));
    if cancel(5) {
      return Stop(p5, [], c);
    }
    r := Done(p5, [], "Machine virtuelle créée avec succès", c);
  }

  /** Step 4: the ISO is attached when a source path is given and the file exists;
      the verdict is ignored. */
  method VmConfigure(c: Config, p: Progress, vmId: string, w: VmWorld, cancel: int -> bool) returns (r: Run)
    ensures r.ok <==> Uncancelled(cancel, 4, true)
    ensures r.config == c && TaggedWithin(r.calls, 4, 5) && StopsBefore(cancel, 4, true, r.calls)
    ensures r.ok ==> Percents(r.events) == PercentsFrom(VirtualMachine, true, 4)
    ensures !cancel(4) ==> (Issued(4, AttachIso(vmId, c.sourcePath)) in r.calls <==> |c.sourcePath| > 0 && w.isoExists)
  {
    var p4 := UpdateProgress(p, 4, "Configuration de la machine virtuelle", Some(80));
    if cancel(4) {
      return Stop(p4, [], c);
    }
    var own := if |c.sourcePath| > 0 && w.isoExists then [Issued(4, AttachIso(vmId, c.sourcePath))] else [];
    var rest := VmFinish(c, p4, cancel);
    r := Then(p4, own, rest);
    ContinuedAt(cancel, 4, 5, true, own, rest.calls);
  }

  /** Step 3: the machine is created; an empty or null id fails the run. */
  method VmCreate(c: Config, p: Progress, folder: string, w: VmWorld, cancel: int -> bool) returns (r: Run)
    ensures r.ok <==> Uncancelled(cancel, 3, true) && !IsNullOrEmpty(w.vmId)
    ensures r.config == c && TaggedWithin(r.calls, 3, 5) && StopsBefore(cancel, 3, true, r.calls)
    ensures r.ok ==> Percents(r.events) == PercentsFrom(VirtualMachine, true, 3)
    ensures !cancel(3) ==> |r.calls| > 0 && r.calls[0] == Issued(3, CreateVirtualMachine(VmRequest(c, folder), c.sourcePath))
  {
    var p3 := UpdateProgress(p, 3, "Création de la machine virtuelle", Some(50));
    if cancel(3) {
      return Stop(p3, [], c);
    }
    var own := [Issued(3, CreateVirtualMachine(VmRequest(c, folder), c.sourcePath))];
    if IsNullOrEmpty(w.vmId) {
      StoppedAt(cancel, 3, true, own);
      return Stop(p3, own, c);
    }
    var rest := VmConfigure(c, p3, w.vmId.value, w, cancel);
    r := Then(p3, own, rest);
    ContinuedAt(cancel, 3, 4, true, own, rest.calls);
  }

  /** Step 2: the virtual disk "<name>.vhdx" is created in the machine's folder; an
      empty or null path fails the run. */
  method VmDisk(c: Config, p: Progress, w: VmWorld, cancel: int -> bool) returns (r: Run)
    ensures r.ok <==> Uncancelled(cancel, 2, true) && !IsNullOrEmpty(w.createdVhd) && !IsNullOrEmpty(w.vmId)
    ensures r.config == c && TaggedWithin(r.calls, 2, 5) && StopsBefore(cancel, 2, true, r.calls)
    ensures r.ok ==> Percents(r.events) == PercentsFrom(VirtualMachine, true, 2)
    ensures !cancel(2) ==> |r.calls| > 0 && r.calls[0] == Issued(2, CreateVirtualDisk(
      Combine(VmFolder(c, w.documentsFolder), c.systemName + ".vhdx"), DiskSizeGB(c.partitionSize), true))
  {
    var p2 := UpdateProgress(p, 2, "Création du disque virtuel", Some(30));
    if cancel(2) {
      return Stop(p2, [], c);
    }
    var folder := VmFolder(c, w.documentsFolder);
    var own := [Issued(2, CreateVirtualDisk(Combine(folder, c.systemName + ".vhdx"), DiskSizeGB(c.partitionSize), true))];
    if IsNullOrEmpty(w.createdVhd) {
      StoppedAt(cancel, 2, true, own);
      return Stop(p2, own, c);
    }
    var rest := VmCreate(c, p2, folder, w, cancel);
    r := Then(p2, own, rest);
    ContinuedAt(cancel, 2, 3, true, own, rest.calls);
  }

  /** `PerformVMInstallationAsync`: step 1 asks for virtualisation support; the later
      steps are the methods above. It succeeds exactly when no check sees a
      cancellation, virtualisation is supported, and both the disk and the machine
      are created. */
  method VmInstall(c: Config, p: Progress, w: VmWorld, cancel: int -> bool) returns (r: Run)
    ensures r.ok <==> VmSucceeds(w, cancel)
    ensures r.config == c && TaggedWithin(r.calls, 1, 5) && StopsBefore(cancel, 1, true, r.calls)
    ensures r.ok ==> Percents(r.events) == PercentsFrom(VirtualMachine, true, 1)
  {
    var p1 := UpdateProgress(p, 1, "Vérification du support de virtualisation", Some(10));
    if cancel(1) {
      return Stop(p1, [], c);
    }
    var own := [Issued(1, IsVirtualizationSupported)];
    if !w.supported {
      StoppedAt(cancel, 1, true, own);
      return Stop(p1, own, c);
    }
    var rest := VmDisk(c, p1, w, cancel);
    r := Then(p1, own, rest);
    ContinuedAt(cancel, 1, 2, true, own, rest.calls);
  }

  // ---------------------------------------------------------------------------
  // Starting a run
  // ---------------------------------------------------------------------------

  /** Everything the collaborators answer during one call to `StartInstallationAsync`. */
  datatype World = World(checks: Checks, dualBoot: DualBootWorld, wsl: WslWorld, vm: VmWorld, cancel: int -> bool)

  /** What `StartInstallationAsync` leaves: the engine state, the progress it
      returns, and the events and calls of the call. */
  datatype Outcome = Outcome(engine: Engine, result: Progress, events: seq<Event>, calls: seq<Issued>)

  /** The progress record published first by a run. */
  function StartProgress(c: Config): (p: Progress)
    ensures p.currentStep == 0 && p.percentComplete == 0 && p.totalSteps == GetTotalSteps(c.installationType)
    ensures !p.isCompleted && !p.isSuccessful && p.errorMessage.None? && p.detailedStatus.None?
  {
    Progress(0, GetTotalSteps(c.installationType), 0, START_OPERATION, None, false, false, None)
  }

  /** The record returned for a null configuration: completed, failed, with the error. */
  const NoConfigurationProgress: Progress := Progress(0, 0, 0, "", None, true, false, Some(NO_CONFIGURATION))

  /** Step 2 has a cancellation check unless a dual boot reuses a partition. */
  predicate Formats(c: Config) {
    c.installationType != DualBoot || c.createNewPartition
  }

  /** The pipeline of a supported strategy succeeds. */
  predicate Succeeds(c: Config, w: World) {
    match c.installationType
    case DualBoot => DualBootSucceeds(c, w.dualBoot, w.cancel)
    case Wsl => WslSucceeds(c, w.wsl, w.cancel)
    case VirtualMachine => VmSucceeds(w.vm, w.cancel)
    case Undeclared(_) => false
  }

  /** The explicit percentages of a successful pipeline. */
  function ExpectedPercents(c: Config): (ps: seq<int>)
  {
    if c.installationType.Undeclared? then [] else PercentsFrom(c.installationType, Formats(c), 1)
  }

  /** The percentages of each pipeline, written out. */
  lemma ExpectedPercentsListed(c: Config)
    ensures c.installationType == DualBoot && c.createNewPartition ==> ExpectedPercents(c) == [10, 20, 30, 70, 90, 100]
    ensures c.installationType == DualBoot && !c.createNewPartition ==> ExpectedPercents(c) == [10, 30, 70, 90, 100]
    ensures c.installationType == Wsl ==> ExpectedPercents(c) == [10, 30, 50, 80, 95, 100]
    ensures c.installationType == VirtualMachine ==> ExpectedPercents(c) == [10, 30, 50, 80, 95, 100]
  {
  }

  /** The percentages of a successful run never go backwards. */
  lemma SuccessfulPercentsRise(c: Config)
    requires !c.installationType.Undeclared?
    ensures NonDecreasing([0, 0] + ExpectedPercents(c) + [100])
  {
    var es := ExpectedPercents(c);
    PercentsFromSorted(c.installationType, Formats(c), 1);
    PercentsFromBounded(c.installationType, Formats(c), 1);
    var ps := [0, 0] + es + [100];
    forall i, j | 0 <= i <= j < |ps| ensures ps[i] <= ps[j] {
      if 2 <= i && j < |ps| - 1 {
        assert ps[i] == es[i - 2] && ps[j] == es[j - 2];
      } else if 2 <= j < |ps| - 1 {
        assert ps[j] == es[j - 2];
      } else if 2 <= i < |ps| - 1 {
        assert ps[i] == es[i - 2];
      }
    }
  }

  function FinalMessage(name: string, success: bool): (m: string)
    ensures |m| > 0
  {
    if success then "Installation de " + name + " terminée avec succès"
    else "L'installation de " + name + " a échoué"
  }

  /** `CompleteInstallation` after a run that published `events` and made `calls`. */
  function Finish(c: Config, p: Progress, events: seq<Event>, calls: seq<Issued>, success: bool, message: string): (r: Outcome)
    ensures r.result == Finalize(p, success, message) && r.engine.progress == r.result
    ensures !r.engine.inProgress && r.engine.config == Some(c) && r.calls == calls
    ensures r.events == events + [ProgressChanged(r.result), CompletionEvent(success, message, r.result)]
    ensures Percents(r.events) == Percents(events) + [r.result.percentComplete]
  {
    var q := Finalize(p, success, message);
    var tail := [ProgressChanged(q), CompletionEvent(success, message, q)];
    PercentsAppend(events, tail);
    assert tail[1..] == [CompletionEvent(success, message, q)];
    Outcome(Engine(false, q, Source(false), Some(c)), q, events + tail, calls)
  }

  /** The head of every run: the start record, then step 1 at 0 %. */
  function Opening(c: Config): (es: seq<Event>)
    ensures Percents(es) == [0, 0]
    ensures es[0] == ProgressChanged(StartProgress(c))
  {
    var p0 := StartProgress(c);
    var p1 := UpdateProgress(p0, 1, CHECK_OPERATION, None);
    PercentsAppend([ProgressChanged(p0)], [ProgressChanged(p1)]);
    assert [ProgressChanged(p0)] + [ProgressChanged(p1)] == [ProgressChanged(p0), ProgressChanged(p1)];
    [ProgressChanged(p0), ProgressChanged(p1)]
  }

  /** No step before the first cancelled one has seen a request. */
  lemma {:induction false} FirstCancelIsFirst(cancel: int -> bool, from: int, formats: bool, k: int)
    requires 1 <= from <= k <= 5 && cancel(k) && (k != 2 || formats)
    ensures FirstCancel(cancel, from, formats).Some? && FirstCancel(cancel, from, formats).value <= k
    decreases k - from
  {
    if !(cancel(from) && (from != 2 || formats)) {
      FirstCancelIsFirst(cancel, from + 1, formats, k);
    }
  }

  /** The pipeline of a supported strategy. */
  method RunPipeline(c: Config, p: Progress, w: World) returns (r: Run)
    requires !c.installationType.Undeclared?
    ensures r.ok <==> Succeeds(c, w)
    ensures TaggedWithin(r.calls, 1, 5) && StopsBefore(w.cancel, 1, Formats(c), r.calls)
    ensures r.ok ==> Percents(r.events) == ExpectedPercents(c)
    ensures r.config.systemName == c.systemName
    ensures c.installationType == Wsl && w.wsl.installed ==>
      forall i :: 0 <= i < |r.calls| ==> !r.calls[i].call.InstallWsl?
  {
    match c.installationType {
      case DualBoot => r := DualBootInstall(c, p, w.dualBoot, w.cancel);
      case Wsl => r := WslInstall(c, p, w.wsl, w.cancel);
      case VirtualMachine => r := VmInstall(c, p, w.vm, w.cancel);
    }
  }

  /** The prerequisite check of a run, with its probes tagged as step 0. */
  method Prerequisites(c: Config, env: Checks) returns (issues: seq<Issue>, checked: seq<Issued>)
    ensures |issues| == 0 <==> PrerequisitesMet(c, env)
    ensures issues == CheckPrerequisites(Some(c), env).0
    ensures TaggedWithin(checked, 0, 0)
    ensures forall i :: 0 <= i < |checked| ==> !checked[i].call.InstallWsl?
  {
    var pre := CheckPrerequisites(Some(c), env);
    issues := pre.0;
    checked := Tag(0, pre.1);
  }

  /** A run refused before any pipeline: the two opening records, then the final
      failed record and its completion event; only the prerequisite probes were
      called. */
  method Refuse(c: Config, checked: seq<Issued>, message: string) returns (r: Outcome)
    requires TaggedWithin(checked, 0, 0)
    ensures !r.engine.inProgress && r.engine.progress == r.result && r.engine.config == Some(c)
    ensures r.result.isCompleted && !r.result.isSuccessful && r.result.currentOperation == message
    ensures |r.events| == 4 && r.events[0] == ProgressChanged(StartProgress(c))
    ensures r.events[2] == ProgressChanged(r.result) && r.events[3] == CompletionEvent(false, message, r.result)
    ensures r.calls == checked
  {
    var p1 := UpdateProgress(StartProgress(c), 1, CHECK_OPERATION, None);
    r := Finish(c, p1, Opening(c), checked, false, message);
  }

  /** A run whose prerequisites hold, with a supported strategy: the opening
      records, the pipeline, then the final record and its completion event. */
  method Proceed(c: Config, w: World, checked: seq<Issued>) returns (r: Outcome)
    requires !c.installationType.Undeclared? && TaggedWithin(checked, 0, 0)
    requires forall i :: 0 <= i < |checked| ==> !checked[i].call.InstallWsl?
    ensures !r.engine.inProgress && r.engine.progress == r.result && r.result.isCompleted
    ensures r.engine.config.Some? && r.engine.config.value.systemName == c.systemName
    ensures |r.events| >= 4 && r.events[0] == ProgressChanged(StartProgress(c))
    ensures r.events[|r.events| - 2] == ProgressChanged(r.result)
    ensures r.events[|r.events| - 1] == CompletionEvent(r.result.isSuccessful, r.result.currentOperation, r.result)
    ensures r.result.isSuccessful <==> Succeeds(c, w)
    ensures r.result.isSuccessful ==> Percents(r.events) == [0, 0] + ExpectedPercents(c) + [100]
    ensures TaggedWithin(r.calls, 0, 5) && |r.calls| >= |checked| && r.calls[..|checked|] == checked
    ensures forall k :: 1 <= k <= 5 && w.cancel(k) && (k != 2 || Formats(c)) ==>
      !r.result.isSuccessful && TaggedWithin(r.calls, 0, k - 1)
    ensures c.installationType == Wsl && w.wsl.installed ==>
      forall i :: 0 <= i < |r.calls| ==> !r.calls[i].call.InstallWsl?
  {
    var p1 := UpdateProgress(StartProgress(c), 1, CHECK_OPERATION, None);
    var run := RunPipeline(c, p1, w);
    PercentsAppend(Opening(c), run.events);
    r := Finish(run.config, run.progress, Opening(c) + run.events, checked + run.calls, run.ok,
                FinalMessage(c.systemName, run.ok));
  }

  /** Whether a cancellation request reached the run's source before one of the
      five checks. */
  predicate RequestReached(cancel: int -> bool)
  {
    exists k :: 1 <= k <= 5 && cancel(k)
  }

  /** `StartInstallationAsync` on an idle engine with a configuration.
      - The run always ends completed and idle, with one final progress event
        followed by one completion event.
      - It succeeds exactly when the prerequisites hold and the strategy's pipeline
        runs to the end; failed prerequisites stop it before any pipeline call.
      - A successful run publishes 0 % twice, the pipeline's percentages and 100 %.
      - A cancellation seen at the check of step `k` fails the run before any call
        of step `k` or later.
      - When both WSL probes agree, WSL is never installed by the pipeline.
      - The engine keeps the run's fresh source, cancelled exactly when a request
        reached one of the five checks. */
  method Install(c: Config, w: World) returns (r: Outcome)
    ensures !r.engine.inProgress && r.engine.progress == r.result && r.result.isCompleted
    ensures r.engine.config.Some? && r.engine.config.value.systemName == c.systemName
    ensures |r.events| >= 4 && r.events[0] == ProgressChanged(StartProgress(c))
    ensures r.events[|r.events| - 2] == ProgressChanged(r.result)
    ensures r.events[|r.events| - 1] == CompletionEvent(r.result.isSuccessful, r.result.currentOperation, r.result)
    ensures r.result.isSuccessful <==> PrerequisitesMet(c, w.checks) && Succeeds(c, w)
    ensures r.result.isSuccessful ==> Percents(r.events) == [0, 0] + ExpectedPercents(c) + [100]
    ensures TaggedWithin(r.calls, 0, 5)
    ensures !PrerequisitesMet(c, w.checks) ==> TaggedWithin(r.calls, 0, 0)
    ensures forall k :: 1 <= k <= 5 && w.cancel(k) && (k != 2 || Formats(c)) ==>
      !r.result.isSuccessful && TaggedWithin(r.calls, 0, k - 1)
    ensures c.installationType == Wsl && w.checks.wslInstalled == w.wsl.installed ==>
      forall i :: 0 <= i < |r.calls| ==> !r.calls[i].call.InstallWsl?
    ensures r.engine.source == Source(RequestReached(w.cancel))
  {
    var issues, checked := Prerequisites(c, w.checks);
    if |issues| > 0 {
      r := Refuse(c, checked, "Prérequis non satisfaits: " + IssueList(issues));
    } else if c.installationType.Undeclared? {
      r := Refuse(c, checked, "Type d'installation non pris en charge: " + IntToDecimal(c.installationType.code));
    } else {
      r := Proceed(c, w, checked);
    }
    r := r.(engine := r.engine.(source := Source(RequestReached(w.cancel))));
  }

  /** `StartInstallationAsync(config)`. A busy engine returns its current progress
      and does nothing else; a null configuration yields a fresh failed record and
      leaves the engine as it was, with no event; otherwise the run is `Install`,
      whatever configuration or cancellation request the engine held before, and it
      leaves the engine idle with the run's final record. */
  method StartInstallation(e: Engine, config: Option<Config>, w: World) returns (r: Outcome)
    ensures e.inProgress ==> r == Outcome(e, e.progress, [], [])
    ensures !e.inProgress && config.None? ==>
      r.engine == e && r.events == [] && r.calls == [] &&
      r.result.isCompleted && !r.result.isSuccessful && r.result.errorMessage == Some(NO_CONFIGURATION)
    ensures !e.inProgress && config.Some? ==>
      !r.engine.inProgress && r.engine.progress == r.result && r.result.isCompleted &&
      (r.result.isSuccessful <==> PrerequisitesMet(config.value, w.checks) && Succeeds(config.value, w))
    ensures !e.inProgress && config.Some? ==> r.engine.source.Source?
  {
    if e.inProgress {
      return Outcome(e, e.progress, [], []);
    }
    match config {
      case None => r := Outcome(e, NoConfigurationProgress, [], []);
      case Some(c) => r := Install(c, w);
    }
  }

  /** `CancelInstallationAsync`: refused when idle; otherwise the token is cancelled,
      the record is re-published as "Installation annulée" at its step and
      percentage, the engine becomes idle and a failed completion is announced. The
      record is not marked completed. */
  function Cancel(e: Engine): (r: (Engine, bool, seq<Event>))
    ensures !e.inProgress ==> r == (e, false, [])
    ensures e.inProgress ==> r.1 && !r.0.inProgress && r.0.source == CancelSource(e.source) && r.0.config == e.config
    ensures e.inProgress ==>
      r.0.progress == e.progress.(currentOperation := CANCELLED_OPERATION) &&
      r.2 == [ProgressChanged(r.0.progress), CompletionEvent(false, CANCELLED_MESSAGE, r.0.progress)]
  {
    if !e.inProgress then (e, false, [])
    else
      var p := UpdateProgress(e.progress, e.progress.currentStep, CANCELLED_OPERATION, Some(e.progress.percentComplete));
      (e.(inProgress := false, source := CancelSource(e.source), progress := p), true,
       [ProgressChanged(p), CompletionEvent(false, CANCELLED_MESSAGE, p)])
  }

  /** A second cancellation is refused and publishes nothing. */
  lemma CancelTwice(e: Engine)
    ensures !Cancel(Cancel(e).0).1 && Cancel(Cancel(e).0).2 == []
    ensures Cancel(Cancel(e).0).0 == Cancel(e).0
  {
  }

  /** `CancelInstallation`: the last run's source, if there is one, is cancelled;
      before any run there is none and nothing changes. The engine stays busy or
      idle. */
  function RequestCancel(e: Engine): (r: Engine)
    ensures r.source.Source? <==> e.source.Source?
    ensures r.source.Source? ==> r.source.cancelled
    ensures r.(source := e.source) == e
  {
    e.(source := CancelSource(e.source))
  }

  /** A request before any run has nothing to cancel, and a request is idempotent. */
  lemma RequestCancelNeedsRun(e: Engine)
    ensures RequestCancel(InitialEngine) == InitialEngine
    ensures e.source.NoSource? ==> RequestCancel(e) == e
    ensures RequestCancel(RequestCancel(e)) == RequestCancel(e)
  {
  }

  /** `SetConfiguration`: a null configuration throws (None). */
  function SetConfiguration(e: Engine, config: Option<Config>): (r: Option<Engine>)
    ensures r.None? <==> config.None?
    ensures r.Some? ==> r.value.config == config && r.value.(config := e.config) == e
  {
    if config.None? then None else Some(e.(config := config))
  }
}

=== FILE: installation_view_model.dfy ===
/**
 * The installation screen (InstallationViewModel): the five step records it shows,
 * and how it folds the engine's progress and completion events into them. The
 * engine itself keeps no per-step state; the statuses shown are derived here.
 */
module InstallationViewModel {
  import opened Wrappers
  import opened Text
  import opened InstallationProgress
  import opened InstallationConfig
  import opened SystemSelection
  import InstallationService

  /** The screen's state. `errorMessage` is `None` while no error is shown. */
  datatype Screen = Screen(
    isInstalling: bool,
    isCompleted: bool,
    isSuccessful: bool,
    currentOperation: string,
    progressPercentage: int,
    errorMessage: Option<string>,
    steps: seq<Step>)

  /** A freshly constructed step record; time stamps at their default. */
  function NewStep(n: int, description: string): Step
  {
    Step(n, description, Pending, 0, None, 0, 0)
  }

  /** `InitializeInstallationSteps`. */
  function InitialSteps(): (steps: seq<Step>)
    ensures |steps| == 5
    ensures forall i :: 0 <= i < |steps| ==>
      steps[i].stepNumber == i + 1 && steps[i].status == Pending &&
      steps[i].progressPercentage == 0 && steps[i].detailedStatus.None?
  {
    [NewStep(1, "Vérification des prérequis"),
     NewStep(2, "Préparation du disque"),
     NewStep(3, "Copie des fichiers"),
     NewStep(4, "Configuration du démarrage"),
     NewStep(5, "Finalisation")]
  }

  /** One step as `ResetInstallationSteps` leaves it. */
  function Reopened(s: Step): Step
  {
    s.(status := Pending, progressPercentage := 0, detailedStatus := None)
  }

  /** `ResetInstallationSteps`: every step pending at 0 % without detail. */
  function ResetSteps(steps: seq<Step>): (r: seq<Step>)
    ensures |r| == |steps|
    ensures forall i :: 0 <= i < |r| ==>
      r[i].status == Pending && r[i].progressPercentage == 0 && r[i].detailedStatus.None? &&
      r[i].stepNumber == steps[i].stepNumber && r[i].description == steps[i].description
  {
    seq(|steps|, i requires 0 <= i < |steps| => Reopened(steps[i]))
  }

  /** Two step lists that differ at most in status, percentage and detail. */
  predicate SameSteps(a: seq<Step>, b: seq<Step>) {
    |a| == |b| && forall i :: 0 <= i < |a| ==> Reopened(a[i]) == Reopened(b[i])
  }

  /** Resetting the initial steps gives them back, and a second reset changes nothing. */
  lemma ResetRestoresInitial(steps: seq<Step>)
    ensures ResetSteps(InitialSteps()) == InitialSteps()
    ensures ResetSteps(ResetSteps(steps)) == ResetSteps(steps)
  {
    var init := InitialSteps();
    assert forall i :: 0 <= i < |init| ==> Reopened(init[i]) == init[i];
  }

  /** Lists with the same steps reset to the same list. */
  lemma SameStepsResetAlike(a: seq<Step>, b: seq<Step>)
    requires SameSteps(a, b)
    ensures ResetSteps(a) == ResetSteps(b)
  {
  }

  /** The loop that marks the steps before the current one: each that has not failed
      becomes completed at 100 %. */
  function Finished(s: Step): Step
  {
    if s.status == Failed then s else s.(status := Completed, progressPercentage := 100)
  }

  function FinishEarlier(steps: seq<Step>, n: int): (r: seq<Step>)
    requires 0 <= n <= |steps|
    ensures |r| == |steps|
    ensures forall i :: 0 <= i < n ==> r[i] == Finished(steps[i])
    ensures forall i :: n <= i < |steps| ==> r[i] == steps[i]
  {
    seq(|steps|, i requires 0 <= i < |steps| => if i < n then Finished(steps[i]) else steps[i])
  }

  /** Whether a progress event for step `n` updates the step records: `n` is a
      step of the list and that step is neither completed nor failed. */
  predicate Opens(steps: seq<Step>, n: int) {
    0 < n <= |steps| && steps[n - 1].status != Completed && steps[n - 1].status != Failed
  }

  /** `OnInstallationProgressChanged`. A null event changes nothing; otherwise the
      operation and percentage are shown, and when the event opens its step, that
      step is in progress with the event's detail and percentage and every earlier
      one that has not failed is completed. */
  function OnProgress(v: Screen, e: Option<Progress>): (w: Screen)
    ensures e.None? ==> w == v
    ensures e.Some? ==> w == v.(currentOperation := e.value.currentOperation,
                                progressPercentage := e.value.percentComplete, steps := w.steps)
    ensures SameSteps(v.steps, w.steps)
    ensures e.Some? && !Opens(v.steps, e.value.currentStep) ==> w.steps == v.steps
    ensures e.Some? && Opens(v.steps, e.value.currentStep) ==>
      var n := e.value.currentStep;
      && w.steps[n - 1].status == InProgress
      && w.steps[n - 1].progressPercentage == e.value.percentComplete
      && w.steps[n - 1].detailedStatus == e.value.detailedStatus
      && (forall i :: 0 <= i < n - 1 ==> w.steps[i] == Finished(v.steps[i]))
      && (forall i :: n <= i < |v.steps| ==> w.steps[i] == v.steps[i])
  {
    match e
    case None => v
    case Some(p) =>
      var n := p.currentStep;
      var steps :=
        if Opens(v.steps, n) then
          var current := v.steps[n - 1].(status := InProgress, detailedStatus := p.detailedStatus,
                                         progressPercentage := p.percentComplete);
          FinishEarlier(v.steps[n - 1 := current], n - 1)
        else v.steps;
      v.(currentOperation := p.currentOperation, progressPercentage := p.percentComplete, steps := steps)
  }

  /** The error shown after a completion: the event's message on a failure that
      carries a non-empty one, otherwise whatever was shown before. */
  function ShownError(before: Option<string>, success: bool, message: Option<string>): (e: Option<string>)
    ensures success ==> e == before
    ensures !success && message.Some? && |message.value| > 0 ==> e == message
    ensures e != before ==> !success && !IsNullOrEmpty(message) && e == message
  {
    if !success && !IsNullOrEmpty(message) then message else before
  }

  /** `OnInstallationCompleted`. The flags record the outcome. When the final
      progress names a step of the list, every earlier step that has not failed is
      completed, that step is completed ("Terminé", 100 %) on success and failed
      (the error as detail, percentage kept) otherwise, and on success every later
      step is marked skipped, whatever its status. Operation and percentage shown
      are not touched. */
  function OnCompleted(v: Screen, success: bool, message: Option<string>, finalProgress: Option<Progress>): (w: Screen)
    ensures w.isCompleted && !w.isInstalling && w.isSuccessful == success
    ensures w.errorMessage == ShownError(v.errorMessage, success, message)
    ensures w.currentOperation == v.currentOperation && w.progressPercentage == v.progressPercentage
    ensures SameSteps(v.steps, w.steps)
    ensures !(finalProgress.Some? && 0 < finalProgress.value.currentStep <= |v.steps|) ==> w.steps == v.steps
    ensures finalProgress.Some? && 0 < finalProgress.value.currentStep <= |v.steps| ==>
      var n := finalProgress.value.currentStep;
      && (forall i :: 0 <= i < n - 1 ==> w.steps[i] == Finished(v.steps[i]))
      && w.steps[n - 1].status == (if success then Completed else Failed)
      && w.steps[n - 1].detailedStatus == (if success then Some("Terminé") else message)
      && w.steps[n - 1].progressPercentage == (if success then 100 else v.steps[n - 1].progressPercentage)
      && (forall i :: n <= i < |v.steps| ==>
            w.steps[i] == if success then v.steps[i].(status := Skipped) else v.steps[i])
  {
    var steps :=
      if finalProgress.Some? && 0 < finalProgress.value.currentStep <= |v.steps| then
        var n := finalProgress.value.currentStep;
        var earlier := FinishEarlier(v.steps, n - 1);
        var current := earlier[n - 1].(
          status := if success then Completed else Failed,
          detailedStatus := if success then Some("Terminé") else message,
          progressPercentage := if success then 100 else earlier[n - 1].progressPercentage);
        SkipFrom(earlier[n - 1 := current], n, success)
      else v.steps;
    Screen(false, true, success, v.currentOperation, v.progressPercentage,
           ShownError(v.errorMessage, success, message), steps)
  }

  /** The loop over the steps after the current one, run only on success. */
  function SkipFrom(steps: seq<Step>, n: int, success: bool): (r: seq<Step>)
    requires 0 <= n <= |steps|
    ensures |r| == |steps|
    ensures forall i :: 0 <= i < n ==> r[i] == steps[i]
    ensures forall i :: n <= i < |steps| ==> r[i] == if success then steps[i].(status := Skipped) else steps[i]
  {
    seq(|steps|, i requires 0 <= i < |steps| =>
      if success && n <= i then steps[i].(status := Skipped) else steps[i])
  }

  // ---------------------------------------------------------------------------
  // The screen driven by the engine's events

  /** How the screen handles one event of the engine. */
  function Apply(v: Screen, e: InstallationService.Event): (w: Screen)
  {
    match e
    case ProgressChanged(p) => OnProgress(v, Some(p))
    case InstallationCompleted(ok, m, fp) => OnCompleted(v, ok, m, Some(fp))
  }

  function ApplyAll(v: Screen, es: seq<InstallationService.Event>): (w: Screen)
    decreases |es|
  {
    if |es| == 0 then v else ApplyAll(Apply(v, es[0]), es[1..])
  }

  function ApplyProgress(v: Screen, ps: seq<Progress>): (w: Screen)
    decreases |ps|
  {
    if |ps| == 0 then v else ApplyProgress(OnProgress(v, Some(ps[0])), ps[1..])
  }

  predicate NoneFailed(steps: seq<Step>) {
    forall i :: 0 <= i < |steps| ==> steps[i].status != Failed
  }

  /** Progress events never undo a finished step: a completed step stays completed
      and a failed one stays failed. */
  lemma ProgressKeepsFinishedSteps(v: Screen, p: Progress, i: int)
    requires 0 <= i < |v.steps| && v.steps[i].status in {Completed, Failed}
    ensures OnProgress(v, Some(p)).steps[i].status == v.steps[i].status
  {
  }

  /** However many progress events arrive, the step records keep their numbers and
      descriptions, and no step is marked failed that was not failed before. */
  lemma {:induction false} ProgressEventsNeverFail(v: Screen, ps: seq<Progress>)
    requires NoneFailed(v.steps)
    ensures NoneFailed(ApplyProgress(v, ps).steps)
    ensures SameSteps(v.steps, ApplyProgress(v, ps).steps)
    decreases |ps|
  {
    if |ps| > 0 {
      var w := OnProgress(v, Some(ps[0]));
      assert NoneFailed(w.steps) by {
        forall i | 0 <= i < |w.steps| ensures w.steps[i].status != Failed {
        }
      }
      ProgressEventsNeverFail(w, ps[1..]);
    }
  }

  /** A successful completion that names the last step, after any number of progress
      events on freshly reset steps, shows every step completed. */
  lemma SuccessShowsEveryStepCompleted(v: Screen, ps: seq<Progress>, message: Option<string>, fp: Progress)
    requires |v.steps| > 0 && fp.currentStep == |v.steps|
    ensures var w := OnCompleted(ApplyProgress(v.(steps := ResetSteps(v.steps)), ps), true, message, Some(fp));
      w.isSuccessful && forall i :: 0 <= i < |w.steps| ==> w.steps[i].status == Completed
  {
    var start := v.(steps := ResetSteps(v.steps));
    ProgressEventsNeverFail(start, ps);
  }

  /** A failed completion never marks a step skipped that was not skipped, and
      leaves the steps after the failed one as they were. */
  lemma FailureSkipsNothing(v: Screen, message: Option<string>, fp: Progress, i: int)
    requires 0 < fp.currentStep <= |v.steps| && fp.currentStep <= i < |v.steps|
    ensures OnCompleted(v, false, message, Some(fp)).steps[i] == v.steps[i]
  {
  }

  /** On success the steps after the current one are marked skipped even when one of
      them had already failed. */
  lemma SuccessOverwritesLaterFailure(v: Screen, message: Option<string>, fp: Progress)
    requires 0 < fp.currentStep < |v.steps| && v.steps[fp.currentStep].status == Failed
    ensures OnCompleted(v, true, message, Some(fp)).steps[fp.currentStep].status == Skipped
  {
  }

  /** Whatever events arrive, the screen keeps the same step records. */
  lemma {:induction false} EventsKeepSteps(v: Screen, es: seq<InstallationService.Event>)
    ensures SameSteps(v.steps, ApplyAll(v, es).steps)
    decreases |es|
  {
    if |es| > 0 {
      var w := Apply(v, es[0]);
      EventsKeepSteps(w, es[1..]);
    }
  }

  // ---------------------------------------------------------------------------
  // ConvertInstallationType and PrepareInstallation

  /** `ConvertInstallationType`: each option type to the engine's type of the same
      name; an undeclared value falls back to dual boot. */
  function ConvertInstallationType(t: OptionType): (r: InstallType)
    ensures !r.Undeclared?
    ensures r == Wsl <==> t == WslOption
    ensures r == VirtualMachine <==> t == VmOption
    ensures r == DualBoot <==> t == DualBootOption || t.UndeclaredOption?
  {
    match t
    case DualBootOption => DualBoot
    case WslOption => Wsl
    case VmOption => VirtualMachine
    case UndeclaredOption(_) => DualBoot
  }

  /** The option type of an engine type the wizard offers. */
  function OptionTypeOf(t: InstallType): (o: OptionType)
    requires !t.Undeclared?
  {
    match t
    case DualBoot => DualBootOption
    case Wsl => WslOption
    case VirtualMachine => VmOption
  }

  /** Converting back and forth between the two enumerations loses nothing on the
      declared values. */
  lemma ConvertRoundTrip(t: InstallType, o: OptionType)
    requires !t.Undeclared? && !o.UndeclaredOption?
    ensures ConvertInstallationType(OptionTypeOf(t)) == t
    ensures OptionTypeOf(ConvertInstallationType(o)) == o
  {
  }

  /** `PrepareInstallation`: without a selected option or a disk configuration
      nothing is prepared; otherwise the disk configuration is completed with the
      option's name and converted type. */
  function PrepareInstallation(option: Option<SystemOption>, disk: Option<Config>): (c: Option<Config>)
    ensures c.Some? <==> option.Some? && disk.Some?
    ensures c.Some? ==> c.value.systemName == option.value.name
    ensures c.Some? ==> c.value.installationType == ConvertInstallationType(option.value.installationType)
    ensures c.Some? ==>
      c.value.(systemName := disk.value.systemName, installationType := disk.value.installationType) == disk.value
  {
    if option.None? || disk.None? then None
    else Some(disk.value.(systemName := option.value.name,
                          installationType := ConvertInstallationType(option.value.installationType)))
  }
}

=== FILE: main_view_model.dfy ===
/**
 * The wizard's navigation (MainViewModel): a history of visited pages with a
 * current index, and the fixed forward sequence of pages. Whether the service
 * provider yields a view model for a page is an oracle, `resolves`.
 */
module Navigation {
  import opened Wrappers

  /** The view-model types the wizard navigates between. */
  datatype Page = Welcome | SystemSelectionPage | DiskConfigurationPage | InstallationPage | SummaryPage

  /** The navigation state. `index` is -1 before the first navigation. */
  datatype Nav = Nav(
    history: seq<Page>,
    index: int,
    current: Option<Page>,
    pageTitle: string,
    nextButtonText: string,
    statusMessage: Option<string>)

  /** What the class keeps true once constructed: the index points into the history. */
  predicate Valid(n: Nav) {
    0 <= n.index < |n.history|
  }

  predicate CanNavigateBack(n: Nav) {
    n.index > 0
  }

  predicate CanNavigateForward(n: Nav) {
    n.current.Some?
  }

  /** `SetCurrentViewModel`: the page becomes current only when the provider
      resolves it. */
  function SetCurrent(n: Nav, page: Page, resolves: Page -> bool): (m: Nav)
    ensures resolves(page) ==> m.current == Some(page)
    ensures !resolves(page) ==> m.current == n.current
    ensures m.(current := n.current) == n
  {
    if resolves(page) then n.(current := Some(page)) else n
  }

  /** `NavigateTo<T>`: the entries after the current one are dropped, the page is
      appended (whether or not it resolved) and becomes the current index. */
  function NavigateTo(n: Nav, page: Page, resolves: Page -> bool): (m: Nav)
    requires -1 <= n.index < |n.history|
    ensures m.history == n.history[..n.index + 1] + [page]
    ensures m.index == n.index + 1 && Valid(m)
    ensures m.current == (if resolves(page) then Some(page) else n.current)
    ensures m.(history := n.history, index := n.index, current := n.current) == n
  {
    var s := SetCurrent(n, page, resolves);
    var kept := if s.index < |s.history| - 1 then s.history[..s.index + 1] else s.history;
    var history := kept + [page];
    s.(history := history, index := |history| - 1)
  }

  /** The constructor: no history, then a navigation to the welcome page. */
  function NewNav(resolves: Page -> bool): (n: Nav)
    ensures n.history == [Welcome] && n.index == 0 && Valid(n) && !CanNavigateBack(n)
    ensures resolves(Welcome) <==> CanNavigateForward(n)
  {
    NavigateTo(Nav([], -1, None, "Bienvenue", "Suivant", None), Welcome, resolves)
  }

  /** `NavigateBack`: only from a later entry; one entry back, the history kept. */
  function NavigateBack(n: Nav, resolves: Page -> bool): (m: Nav)
    requires Valid(n)
    ensures Valid(m) && m.history == n.history
    ensures CanNavigateBack(n) ==> m.index == n.index - 1
    ensures CanNavigateBack(n) ==>
      m.current == (if resolves(n.history[n.index - 1]) then Some(n.history[n.index - 1]) else n.current)
    ensures m.(index := n.index, current := n.current) == n
    ensures !CanNavigateBack(n) ==> m == n
  {
    if n.index > 0 then
      var back := n.(index := n.index - 1);
      SetCurrent(back, back.history[back.index], resolves)
    else n
  }

  /** The page that follows each page of the wizard; the summary is the last one. */
  function NextPage(p: Page): (q: Option<Page>)
  {
    match p
    case Welcome => Some(SystemSelectionPage)
    case SystemSelectionPage => Some(DiskConfigurationPage)
    case DiskConfigurationPage => Some(InstallationPage)
    case InstallationPage => Some(SummaryPage)
    case SummaryPage => None
  }

  function PageNumber(p: Page): int
  {
    match p
    case Welcome => 0
    case SystemSelectionPage => 1
    case DiskConfigurationPage => 2
    case InstallationPage => 3
    case SummaryPage => 4
  }

  /** The forward order visits every page once, in order. */
  lemma NextPageAdvances(p: Page)
    ensures NextPage(p).Some? <==> p != SummaryPage
    ensures NextPage(p).Some? ==> PageNumber(NextPage(p).value) == PageNumber(p) + 1
  {
  }

  /** The title shown once the wizard has moved forward onto a page. */
  function ForwardTitle(p: Page): string
  {
    match p
    case Welcome => "Bienvenue"
    case SystemSelectionPage => "Sélection du Système"
    case DiskConfigurationPage => "Configuration du Disque"
    case InstallationPage => "Installation"
    case SummaryPage => "Résumé"
  }

  /** The text the forward button takes on when the wizard moves onto a page; the
      first pages leave it as it was. */
  function ForwardButton(p: Page): Option<string>
  {
    match p
    case InstallationPage => Some("Installer")
    case SummaryPage => Some("Terminer")
    case _ => None
  }

  /** `NavigateForward`: from each page, a navigation to the next one with its title
      (and, for the last two, the button text); from the summary only the status
      message changes; with no current view model nothing happens. */
  function NavigateForward(n: Nav, resolves: Page -> bool): (m: Nav)
    requires Valid(n)
    ensures Valid(m)
    ensures n.current.None? ==> m == n
    ensures n.current == Some(SummaryPage) ==> m == n.(statusMessage := Some("Installation terminée"))
    ensures n.current.Some? && NextPage(n.current.value).Some? ==>
      var q := NextPage(n.current.value).value;
      && m.history == n.history[..n.index + 1] + [q]
      && m.index == n.index + 1
      && m.current == (if resolves(q) then Some(q) else n.current)
      && m.pageTitle == ForwardTitle(q)
      && m.nextButtonText == ForwardButton(q).GetOr(n.nextButtonText)
      && m.statusMessage == n.statusMessage
  {
    match n.current
    case None => n
    case Some(SummaryPage) => n.(statusMessage := Some("Installation terminée"))
    case Some(Welcome) =>
      NavigateTo(n, SystemSelectionPage, resolves).(pageTitle := "Sélection du Système")
    case Some(SystemSelectionPage) =>
      NavigateTo(n, DiskConfigurationPage, resolves).(pageTitle := "Configuration du Disque")
    case Some(DiskConfigurationPage) =>
      NavigateTo(n, InstallationPage, resolves).(pageTitle := "Installation", nextButtonText := "Installer")
    case Some(InstallationPage) =>
      NavigateTo(n, SummaryPage, resolves).(pageTitle := "Résumé", nextButtonText := "Terminer")
  }

  /** Going back after a navigation returns to the entry navigated from, and the
      history still ends with the page navigated to. */
  lemma BackUndoesNavigateTo(n: Nav, page: Page, resolves: Page -> bool)
    requires Valid(n)
    ensures var m := NavigateBack(NavigateTo(n, page, resolves), resolves);
      m.index == n.index && m.history[..m.index + 1] == n.history[..n.index + 1] &&
      m.history[|m.history| - 1] == page &&
      (resolves(n.history[n.index]) ==> m.current == Some(n.history[n.index]))
  {
    var t := NavigateTo(n, page, resolves);
    assert t.history[..n.index + 1] == n.history[..n.index + 1];
    assert t.history[n.index] == n.history[n.index];
  }

  /** Navigating after going back discards the entries that were ahead. */
  lemma NavigateAfterBackDropsForwardEntries(n: Nav, page: Page, resolves: Page -> bool)
    requires Valid(n) && CanNavigateBack(n)
    ensures var m := NavigateTo(NavigateBack(n, resolves), page, resolves);
      m.history == n.history[..n.index] + [page] && m.index == n.index
  {
  }

  /** Following the wizard forward from the start, with every page resolving, visits
      the five pages in order and ends on the summary. */
  lemma ForwardThroughWizard()
    ensures var all := (p: Page) => true;
      var n := NavigateForward(NavigateForward(NavigateForward(NavigateForward(NewNav(all), all), all), all), all);
      n.history == [Welcome, SystemSelectionPage, DiskConfigurationPage, InstallationPage, SummaryPage] &&
      n.index == 4 && n.current == Some(SummaryPage) &&
      n.pageTitle == "Résumé" && n.nextButtonText == "Terminer"
  {
    var all := (p: Page) => true;
    var n0 := NewNav(all);
    var n1 := NavigateForward(n0, all);
    assert n1.history == [Welcome, SystemSelectionPage];
    var n2 := NavigateForward(n1, all);
    assert n2.history == [Welcome, SystemSelectionPage, DiskConfigurationPage];
    var n3 := NavigateForward(n2, all);
    assert n3.history == [Welcome, SystemSelectionPage, DiskConfigurationPage, InstallationPage];
  }
}

=== FILE: numeric.dfy ===
/**
 * C#'s integer semantics on top of Dafny's unbounded, Euclidean integers:
 * `/` and `%` truncate toward zero, and `int`/`long` arithmetic in an
 * unchecked context keeps only the low 32 or 64 bits.
 */
module Numeric {

  const TWO_32: int := 0x1_0000_0000
  const TWO_64: int := 0x1_0000_0000_0000_0000
  const INT32_MIN: int := -0x8000_0000
  const INT32_MAX: int := 0x7FFF_FFFF
  const INT64_MIN: int := -0x8000_0000_0000_0000
  const INT64_MAX: int := 0x7FFF_FFFF_FFFF_FFFF

  predicate IsInt32(x: int) { INT32_MIN <= x <= INT32_MAX }
  predicate IsInt64(x: int) { INT64_MIN <= x <= INT64_MAX }

  function Abs(x: int): nat { if x < 0 then -x else x }

  /** C#'s `a / b`: the quotient truncated toward zero. */
  function TruncDiv(a: int, b: int): (q: int)
    requires b != 0
    ensures Abs(q * b) <= Abs(a)
    ensures Abs(a - q * b) < Abs(b)
    ensures a >= 0 ==> a - q * b >= 0
    ensures a <= 0 ==> a - q * b <= 0
  {
    EuclidFacts(Abs(a), Abs(b));
    var k := Abs(a) / Abs(b);
    var q := if (a >= 0) == (b > 0) then k else -k;
    TruncQuotient(a, b, k, q);
    q
  }

  /** The truncated quotient from the quotient of the magnitudes: its product with
      `b` has the sign of `a` and the magnitude `k * |b|`. */
  lemma TruncQuotient(a: int, b: int, k: int, q: int)
    requires b != 0 && k >= 0 && 0 <= Abs(a) - k * Abs(b) < Abs(b)
    requires q == if (a >= 0) == (b > 0) then k else -k
    ensures Abs(q * b) <= Abs(a)
    ensures Abs(a - q * b) < Abs(b)
    ensures a >= 0 ==> a - q * b >= 0
    ensures a <= 0 ==> a - q * b <= 0
  {
    var m := k * Abs(b);
    if b > 0 {
      assert q * b == q * Abs(b);
    } else {
      assert q * b == -(q * Abs(b));
    }
    assert q * Abs(b) == if q == k then m else -m;
    assert q * b == if a >= 0 then m else -m;
  }

  /** Euclidean division of naturals, stated without nonlinear terms left implicit. */
  lemma EuclidFacts(n: nat, d: nat)
    requires d > 0
    ensures n / d >= 0
    ensures 0 <= n - (n / d) * d < d
  {
  }

  /** C#'s `a % b`: the remainder takes the sign of the dividend. */
  function TruncMod(a: int, b: int): (m: int)
    requires b != 0
    ensures Abs(m) < Abs(b)
    ensures a >= 0 ==> m >= 0
    ensures a <= 0 ==> m <= 0
  {
    a - TruncDiv(a, b) * b
  }

  /** An unchecked conversion or product kept to its low 32 bits, read as a signed `int`. */
  function WrapInt32(x: int): (r: int)
    ensures IsInt32(r)
    ensures (x - r) % TWO_32 == 0
    ensures IsInt32(x) ==> r == x
  {
    (x - INT32_MIN) % TWO_32 + INT32_MIN
  }

  /** An unchecked `long` product kept to its low 64 bits, read as a signed `long`. */
  function WrapInt64(x: int): (r: int)
    ensures IsInt64(r)
    ensures (x - r) % TWO_64 == 0
    ensures IsInt64(x) ==> r == x
  {
    (x - INT64_MIN) % TWO_64 + INT64_MIN
  }
}

=== FILE: partition_info.dfy ===
/**
 * The partition and disk records the disk service reports (PartitionInfo,
 * DiskInfo): sizes are `long` byte counts, `SizeMB` is a derived view.
 */
module Partitions {
  import opened Numeric
  import opened Text

  const BYTES_PER_MB: int := 1024 * 1024

  datatype Partition = Partition(
    partitionNumber: int,
    driveLetter: string,
    size: int,
    freeSpace: int,
    fileSystem: string,
    volumeLabel: string,
    isActive: bool,
    partitionType: string,
    offset: int,
    isSystem: bool,
    isBoot: bool)
  {
    /** `SizeMB` getter: whole mebibytes, C#'s truncating `long` division. */
    function SizeMB(): (mb: int)
      ensures IsInt64(size) ==> IsInt64(mb)
      ensures size >= 0 ==> 0 <= mb * BYTES_PER_MB <= size < (mb + 1) * BYTES_PER_MB
      ensures size <= 0 ==> (mb - 1) * BYTES_PER_MB < size <= mb * BYTES_PER_MB <= 0
    {
      TruncDiv(size, BYTES_PER_MB)
    }

    /** `SizeMB` setter: `Size = value * 1024 * 1024` in unchecked `long` arithmetic. */
    function WithSizeMB(value: int): (p: Partition)
      ensures IsInt64(p.size)
      ensures IsInt64(value * BYTES_PER_MB) ==> p.size == value * BYTES_PER_MB
      ensures p == this.(size := p.size)
    {
      this.(size := WrapInt64(value * BYTES_PER_MB))
    }

    /** Which of the two `ToString` forms is used: the numbered form exactly when
        the partition has no drive letter. */
    function Caption(): (c: Caption)
      ensures c.Numbered? <==> |driveLetter| == 0
      ensures c.Numbered? ==> c.number == partitionNumber
      ensures c.Lettered? ==> c.letter == driveLetter && c.volumeLabel == volumeLabel && c.fileSystem == fileSystem
    {
      if |driveLetter| == 0 then Numbered(partitionNumber)
      else Lettered(driveLetter, volumeLabel, fileSystem)
    }
  }

  /** The parts of `PartitionInfo.ToString()` apart from the formatted size:
      "Partition N (size)" or "L: label (size, fs)". */
  datatype Caption =
    | Numbered(number: int)
    | Lettered(letter: string, volumeLabel: string, fileSystem: string)

  datatype Disk = Disk(
    diskNumber: int,
    model: string,
    size: int,
    isRemovable: bool,
    isSystemDisk: bool,
    partitions: seq<Partition>,
    freeSpace: int,
    partitionStyle: string)

  /** Setting `SizeMB = v` and reading it back gives `v` whenever `v` MiB fit in a `long`. */
  lemma SizeMBRoundTrip(p: Partition, v: int)
    requires IsInt64(v * BYTES_PER_MB)
    ensures p.WithSizeMB(v).SizeMB() == v
  {
    var q := p.WithSizeMB(v);
    var mb := q.SizeMB();
    assert q.size == v * BYTES_PER_MB;
    if v >= 0 {
      assert mb * BYTES_PER_MB <= v * BYTES_PER_MB < (mb + 1) * BYTES_PER_MB;
      MulMonotone(mb, v);
      MulMonotone(v, mb + 1);
    } else {
      assert (mb - 1) * BYTES_PER_MB < v * BYTES_PER_MB <= mb * BYTES_PER_MB;
      MulMonotone(mb - 1, v);
      MulMonotone(v, mb);
    }
  }

  /** Multiplying by the (positive) MiB size preserves strict order and its converse. */
  lemma MulMonotone(a: int, b: int)
    ensures a * BYTES_PER_MB < b * BYTES_PER_MB <==> a < b
  {
  }
}

=== FILE: process.dfy ===
/**
 * The outcome of launching an external command (diskpart, bcdedit, wsl.exe,
 * PowerShell, ...). Every service reduces a launch to these three values, so the
 * model passes them in instead of running anything.
 */
module Process {
  import opened Text

  datatype ProcessResult = ProcessResult(exitCode: int, stdout: string, stderr: string)

  /** A process runner: what a command line answers when it is launched. */
  type Runner = string -> ProcessResult

  /** The verdict most commands share: exit code 0 and no "Error" on the error
      stream (standard output is not consulted). */
  predicate ExitedCleanly(r: ProcessResult) {
    r.exitCode == 0 && !Contains(r.stderr, "Error")
  }
}

=== FILE: system_selection_view_model.dfy ===
/**
 * The system-selection screen (SystemSelectionViewModel) and the installation
 * options it offers (SystemOption). Whether WSL and virtualisation are supported
 * are the answers of the WSL and VM services, passed in; `None` stands for a
 * probe that threw.
 */
module SystemSelection {
  import opened Wrappers
  import opened Text

  /** `SystemOption.InstallationType`; a C# enum may also hold an undeclared value. */
  datatype OptionType = DualBootOption | WslOption | VmOption | UndeclaredOption(code: int)

  /** The fields of `SystemOption` the wizard reads. */
  datatype SystemOption = SystemOption(
    id: string,
    name: string,
    installationType: OptionType,
    isAdvanced: bool,
    requiredSpaceMB: int)

  const DUAL_BOOT_OPTION: SystemOption := SystemOption("dualboot-windows", "Dual Boot", DualBootOption, false, 20000)
  const WSL_OPTION: SystemOption := SystemOption("wsl", "Windows Subsystem for Linux (WSL)", WslOption, false, 5000)
  const VM_OPTION: SystemOption := SystemOption("vm", "Machine Virtuelle", VmOption, true, 20000)

  /** The screen's state: the offered options, the selection, the loading flag and
      the status line. */
  datatype Selection = Selection(
    options: seq<SystemOption>,
    selected: Option<SystemOption>,
    isLoading: bool,
    statusMessage: string)

  /** The position of a type in the list: dual boot, then WSL, then the machine. */
  function Rank(t: OptionType): int
  {
    match t
    case DualBootOption => 0
    case WslOption => 1
    case VmOption => 2
    case UndeclaredOption(_) => 3
  }

  predicate Offers(os: seq<SystemOption>, t: OptionType) {
    exists i :: 0 <= i < |os| && os[i].installationType == t
  }

  /** The list `LoadSystemOptionsAsync` builds from the two probe answers. */
  function OptionsFor(wslSupported: bool, vmSupported: bool): (os: seq<SystemOption>)
    ensures |os| == 1 + (if wslSupported then 1 else 0) + (if vmSupported then 1 else 0)
    ensures os[0] == DUAL_BOOT_OPTION
    ensures Offers(os, WslOption) <==> wslSupported
    ensures Offers(os, VmOption) <==> vmSupported
    ensures forall i, j :: 0 <= i < j < |os| ==> Rank(os[i].installationType) < Rank(os[j].installationType)
    ensures forall i :: 0 <= i < |os| && os[i].installationType == WslOption ==> os[i] == WSL_OPTION
    ensures forall i :: 0 <= i < |os| && os[i].installationType == VmOption ==> os[i] == VM_OPTION
  {
    var withWsl := [DUAL_BOOT_OPTION] + (if wslSupported then [WSL_OPTION] else []);
    var os := withWsl + (if vmSupported then [VM_OPTION] else []);
    assert os[0] == DUAL_BOOT_OPTION;
    assert wslSupported ==> os[1] == WSL_OPTION;
    assert vmSupported ==> os[|os| - 1] == VM_OPTION;
    os
  }

  /** `LoadSystemOptionsAsync`. The WSL probe is asked first; when a probe throws,
      the list and the selection are kept and the status reports the error. The
      loading flag is always cleared. */
  function LoadSystemOptions(s: Selection, wslSupported: Option<bool>, vmSupported: Option<bool>): (r: Selection)
    ensures !r.isLoading
    ensures wslSupported.Some? && vmSupported.Some? ==>
      && r.options == OptionsFor(wslSupported.value, vmSupported.value)
      && r.selected == Some(DUAL_BOOT_OPTION)
      && r.statusMessage == IntToDecimal(|r.options|) + " options disponibles"
    ensures wslSupported.None? || vmSupported.None? ==>
      r == s.(isLoading := false, statusMessage := LOAD_FAILED)
  {
    match (wslSupported, vmSupported)
    case (Some(w), Some(v)) =>
      var os := OptionsFor(w, v);
      Selection(os, Some(os[0]), false, IntToDecimal(|os|) + " options disponibles")
    case _ => s.(isLoading := false, statusMessage := LOAD_FAILED)
  }

  const LOAD_FAILED: string := "Erreur lors du chargement des options d'installation"

  /** Whatever the probes answer, the list is non-empty and its first entry, dual
      boot, is the one selected; at most three options are offered. */
  lemma LoadedSelectionIsDualBoot(s: Selection, w: bool, v: bool)
    ensures var r := LoadSystemOptions(s, Some(w), Some(v));
      1 <= |r.options| <= 3 && r.selected == Some(r.options[0]) &&
      r.options[0].installationType == DualBootOption && r.options[0].requiredSpaceMB == 20000
  {
  }

  /** No option is offered twice. */
  lemma OptionsAreDistinct(w: bool, v: bool)
    ensures var os := OptionsFor(w, v);
      forall i, j :: 0 <= i < j < |os| ==> os[i].installationType != os[j].installationType
  {
  }
}

=== FILE: text.dfy ===
/**
 * The .NET string operations the installer's decision logic relies on:
 * `char.IsWhiteSpace`, `string.IsNullOrWhiteSpace`, `Contains`, `Trim`,
 * `Split(..., RemoveEmptyEntries)`, `int.TryParse`, ordinal case-insensitive
 * equality and the decimal rendering of integers in interpolated strings.
 * A null string is identified with the empty string wherever every check the
 * source makes treats the two alike.
 */
module Text {
  import opened Wrappers
  import opened Numeric

  /** `char.IsWhiteSpace`: the Unicode space separators plus the control characters
      TAB..CR, NEL, and the line and paragraph separators. */
  predicate IsWhiteSpace(c: char) {
    || ('\t' <= c <= '\r')
    || c == ' '
    || c == '\U{85}'
    || c == '\U{A0}'
    || c == '\U{1680}'
    || ('\U{2000}' <= c <= '\U{200A}')
    || c == '\U{2028}'
    || c == '\U{2029}'
    || c == '\U{202F}'
    || c == '\U{205F}'
    || c == '\U{3000}'
  }

  /** The white space `int.TryParse` skips around a number (NumberStyles.Integer). */
  predicate IsParseWhite(c: char) {
    ('\t' <= c <= '\r') || c == ' '
  }

  /** `string.IsNullOrWhiteSpace` (a null string is the empty string here). */
  predicate IsBlank(s: string) {
    forall i :: 0 <= i < |s| ==> IsWhiteSpace(s[i])
  }

  /** `string.IsNullOrEmpty` for a string that may really be null. */
  predicate IsNullOrEmpty(s: Option<string>) {
    s.None? || |s.value| == 0
  }

  predicate StartsWith(s: string, prefix: string) {
    |prefix| <= |s| && s[..|prefix|] == prefix
  }

  /** `s.Contains(sub)`: ordinal, case-sensitive substring search. */
  predicate Contains(s: string, sub: string)
    decreases |s|
  {
    StartsWith(s, sub) || (|s| > 0 && Contains(s[1..], sub))
  }

  /** `sub` occurs in `s` at index `i`. */
  predicate OccursAt(s: string, sub: string, i: int) {
    0 <= i && i + |sub| <= |s| && s[i..i + |sub|] == sub
  }

  /** The search above finds exactly the occurrences of `sub`. */
  lemma {:induction false} ContainsIff(s: string, sub: string)
    ensures Contains(s, sub) <==> exists i :: OccursAt(s, sub, i)
    decreases |s|
  {
    if Contains(s, sub) {
      if StartsWith(s, sub) {
        assert OccursAt(s, sub, 0);
      } else {
        ContainsIff(s[1..], sub);
        var i :| OccursAt(s[1..], sub, i);
        assert s[1..][i..i + |sub|] == s[i + 1..i + 1 + |sub|];
        assert OccursAt(s, sub, i + 1);
      }
    }
    if exists i :: OccursAt(s, sub, i) {
      var i :| OccursAt(s, sub, i);
      if i == 0 {
        assert StartsWith(s, sub);
      } else {
        assert s[1..][i - 1..i - 1 + |sub|] == s[i..i + |sub|];
        assert OccursAt(s[1..], sub, i - 1);
        ContainsIff(s[1..], sub);
      }
    }
  }

  /** An occurrence in a prefix of a string is an occurrence in the string. */
  lemma ContainsInPrefix(s: string, tail: string, sub: string)
    requires Contains(s, sub)
    ensures Contains(s + tail, sub)
  {
    ContainsIff(s, sub);
    var i :| OccursAt(s, sub, i);
    assert (s + tail)[i..i + |sub|] == s[i..i + |sub|];
    assert OccursAt(s + tail, sub, i);
    ContainsIff(s + tail, sub);
  }

  /** An occurrence in a suffix of a string is an occurrence in the string. */
  lemma ContainsInSuffix(head: string, s: string, sub: string)
    requires Contains(s, sub)
    ensures Contains(head + s, sub)
  {
    ContainsIff(s, sub);
    var i :| OccursAt(s, sub, i);
    assert (head + s)[|head| + i..|head| + i + |sub|] == s[i..i + |sub|];
    assert OccursAt(head + s, sub, |head| + i);
    ContainsIff(head + s, sub);
  }

  /** `char.ToLowerInvariant` restricted to ASCII letters. */
  function LowerAscii(c: char): (r: char)
    ensures 'A' <= c <= 'Z' ==> r != c && r == (c as int + 32) as char
    ensures !('A' <= c <= 'Z') ==> r == c
  {
    if 'A' <= c <= 'Z' then (c as int + 32) as char else c
  }

  /** `ToLowerInvariant` / `ToLower` on ASCII text. */
  function ToLower(s: string): (r: string)
    ensures |r| == |s|
    ensures forall i :: 0 <= i < |s| ==> r[i] == LowerAscii(s[i])
  {
    if |s| == 0 then "" else [LowerAscii(s[0])] + ToLower(s[1..])
  }

  /** `a.Equals(b, StringComparison.OrdinalIgnoreCase)` on ASCII text. */
  predicate EqualsIgnoreCase(a: string, b: string) {
    ToLower(a) == ToLower(b)
  }

  /** Drops the leading characters satisfying `white`. */
  function TrimStartBy(s: string, white: char -> bool): (r: string)
    ensures |r| <= |s| && r == s[|s| - |r|..]
    ensures forall i :: 0 <= i < |s| - |r| ==> white(s[i])
    ensures |r| > 0 ==> !white(r[0])
  {
    if |s| > 0 && white(s[0]) then TrimStartBy(s[1..], white) else s
  }

  /** Drops the trailing characters satisfying `white`. */
  function TrimEndBy(s: string, white: char -> bool): (r: string)
    ensures |r| <= |s| && r == s[..|r|]
    ensures forall i :: |r| <= i < |s| ==> white(s[i])
    ensures |r| > 0 ==> !white(r[|r| - 1])
  {
    if |s| > 0 && white(s[|s| - 1]) then TrimEndBy(s[..|s| - 1], white) else s
  }

  /** `s.Trim()`: the slice of `s` between its leading and trailing white space. */
  function Trim(s: string): (r: string)
    ensures |r| > 0 ==> !IsWhiteSpace(r[0]) && !IsWhiteSpace(r[|r| - 1])
    ensures |r| == 0 <==> IsBlank(s)
    ensures exists i :: OccursAt(s, r, i)
  {
    var t := TrimStartBy(s, IsWhiteSpace);
    var r := TrimEndBy(t, IsWhiteSpace);
    assert OccursAt(s, r, |s| - |t|) by {
      assert s[|s| - |t|..][..|r|] == s[|s| - |t|..|s| - |t| + |r|];
    }
    assert |r| == 0 ==> IsBlank(s) by {
      if |r| == 0 {
        assert |t| == 0;
      }
    }
    r
  }

  /** `s.TrimEnd(c)`: drops every trailing occurrence of `c`. */
  function TrimEndChar(s: string, c: char): (r: string)
    ensures |r| <= |s| && r == s[..|r|]
    ensures forall i :: |r| <= i < |s| ==> s[i] == c
    ensures |r| > 0 ==> r[|r| - 1] != c
  {
    TrimEndBy(s, x => x == c)
  }

  // ---------------------------------------------------------------------------
  // Split(separators, StringSplitOptions.RemoveEmptyEntries)

  /** The separators for splitting process output into lines, and a line into words. */
  const LINE_BREAKS: set<char> := {'\r', '\n'}
  const SPACE: set<char> := {' '}

  /** Length of the separator-free run at the head of `s`. */
  function RunLength(s: string, seps: set<char>): (n: nat)
    ensures n <= |s|
    ensures forall i :: 0 <= i < n ==> s[i] !in seps
    ensures n == |s| || s[n] in seps
  {
    if |s| == 0 || s[0] in seps then 0 else 1 + RunLength(s[1..], seps)
  }

  /** The characters of `s` that are not separators, in order. */
  function RemoveAll(s: string, seps: set<char>): string
  {
    if |s| == 0 then ""
    else if s[0] in seps then RemoveAll(s[1..], seps)
    else [s[0]] + RemoveAll(s[1..], seps)
  }

  function Concat(pieces: seq<string>): string
  {
    if |pieces| == 0 then "" else pieces[0] + Concat(pieces[1..])
  }

  predicate SeparatorFree(s: string, seps: set<char>) {
    forall i :: 0 <= i < |s| ==> s[i] !in seps
  }

  lemma {:induction false} RemoveAllAppend(a: string, b: string, seps: set<char>)
    ensures RemoveAll(a + b, seps) == RemoveAll(a, seps) + RemoveAll(b, seps)
    decreases |a|
  {
    if |a| > 0 {
      assert (a + b)[1..] == a[1..] + b;
      RemoveAllAppend(a[1..], b, seps);
    } else {
      assert a + b == b;
    }
  }

  lemma {:induction false} RemoveAllOfFree(a: string, seps: set<char>)
    requires SeparatorFree(a, seps)
    ensures RemoveAll(a, seps) == a
    decreases |a|
  {
    if |a| > 0 {
      RemoveAllOfFree(a[1..], seps);
      assert a == [a[0]] + a[1..];
    }
  }

  /** `s.Split(seps, StringSplitOptions.RemoveEmptyEntries)`: the maximal non-empty
      separator-free pieces of `s`, in order. */
  function Split(s: string, seps: set<char>): (pieces: seq<string>)
    ensures forall k :: 0 <= k < |pieces| ==> |pieces[k]| > 0 && SeparatorFree(pieces[k], seps)
    ensures Concat(pieces) == RemoveAll(s, seps)
    decreases |s|
  {
    if |s| == 0 then []
    else if s[0] in seps then Split(s[1..], seps)
    else
      var n := RunLength(s, seps);
      var rest := Split(s[n..], seps);
      assert s == s[..n] + s[n..];
      RemoveAllAppend(s[..n], s[n..], seps);
      RemoveAllOfFree(s[..n], seps);
      assert ([s[..n]] + rest)[1..] == rest;
      [s[..n]] + rest
  }

  /** A run is cut short by a separator, so what follows it does not matter. */
  lemma {:induction false} RunLengthAppend(a: string, b: string, seps: set<char>)
    requires RunLength(a, seps) < |a| || (|b| > 0 && b[0] in seps)
    ensures RunLength(a + b, seps) == RunLength(a, seps)
    decreases |a|
  {
    if |a| > 0 && a[0] !in seps {
      assert (a + b)[1..] == a[1..] + b;
      RunLengthAppend(a[1..], b, seps);
    } else if |a| == 0 {
      assert a + b == b;
    }
  }

  /** Splitting text joined by a separator splits each side separately. */
  lemma {:induction false} SplitJoined(a: string, sep: char, b: string, seps: set<char>)
    requires sep in seps
    ensures Split(a + [sep] + b, seps) == Split(a, seps) + Split(b, seps)
    decreases |a|
  {
    var s := a + [sep] + b;
    if |a| == 0 {
      assert s[1..] == b;
    } else if a[0] in seps {
      assert s[1..] == a[1..] + [sep] + b;
      SplitJoined(a[1..], sep, b, seps);
    } else {
      var n := RunLength(a, seps);
      assert s == a + ([sep] + b);
      RunLengthAppend(a, [sep] + b, seps);
      assert s[..n] == a[..n];
      if n < |a| {
        assert s[n..] == a[n..] + [sep] + b;
        SplitJoined(a[n..], sep, b, seps);
        assert Split(a, seps) == [a[..n]] + Split(a[n..], seps);
      } else {
        assert a[n..] == [];
        assert s[n..] == [sep] + b;
        assert ([sep] + b)[1..] == b;
        assert Split(a[n..], seps) == [];
        assert Split(a, seps) == [a[..n]] + Split(a[n..], seps);
      }
    }
  }

  /** A non-empty separator-free string splits into itself. */
  lemma SplitOfPiece(a: string, seps: set<char>)
    requires |a| > 0 && SeparatorFree(a, seps)
    ensures Split(a, seps) == [a]
  {
    assert a[RunLength(a, seps)..] == [];
    assert a[..|a|] == a;
  }

  /** The pieces joined with one `sep` between neighbours (`string.Join`). */
  function Join(pieces: seq<string>, sep: char): string
  {
    if |pieces| == 0 then ""
    else if |pieces| == 1 then pieces[0]
    else pieces[0] + [sep] + Join(pieces[1..], sep)
  }

  /** Splitting undoes joining when the pieces are non-empty and free of separators. */
  lemma {:induction false} SplitJoin(pieces: seq<string>, sep: char, seps: set<char>)
    requires sep in seps
    requires forall k :: 0 <= k < |pieces| ==> |pieces[k]| > 0 && SeparatorFree(pieces[k], seps)
    ensures Split(Join(pieces, sep), seps) == pieces
    decreases |pieces|
  {
    if |pieces| == 1 {
      SplitOfPiece(pieces[0], seps);
    } else if |pieces| > 1 {
      SplitOfPiece(pieces[0], seps);
      SplitJoined(pieces[0], sep, Join(pieces[1..], sep), seps);
      SplitJoin(pieces[1..], sep, seps);
      assert pieces == [pieces[0]] + pieces[1..];
    }
  }

  /** A word of command output: non-empty and free of white space. */
  predicate IsToken(s: string) {
    |s| > 0 && forall i :: 0 <= i < |s| ==> !IsWhiteSpace(s[i])
  }

  /** A word contains none of a set of white-space separators. */
  lemma TokenFree(s: string, seps: set<char>)
    requires IsToken(s)
    requires forall c :: c in seps ==> IsWhiteSpace(c)
    ensures SeparatorFree(s, seps)
  {
  }

  /** A joined text begins with its first piece and ends with its last one. */
  lemma {:induction false} JoinEnds(pieces: seq<string>, sep: char)
    requires |pieces| > 0 && forall k :: 0 <= k < |pieces| ==> |pieces[k]| > 0
    ensures |Join(pieces, sep)| > 0
    ensures Join(pieces, sep)[0] == pieces[0][0]
    ensures Join(pieces, sep)[|Join(pieces, sep)| - 1] == pieces[|pieces| - 1][|pieces[|pieces| - 1]| - 1]
    decreases |pieces|
  {
    if |pieces| > 1 {
      JoinEnds(pieces[1..], sep);
      var rest := Join(pieces[1..], sep);
      assert Join(pieces, sep) == pieces[0] + ([sep] + rest);
    }
  }

  /** Joining pieces free of some characters, with a separator that is not one of
      them, gives a text free of them. */
  lemma {:induction false} JoinFree(pieces: seq<string>, sep: char, seps: set<char>)
    requires sep !in seps
    requires forall k :: 0 <= k < |pieces| ==> SeparatorFree(pieces[k], seps)
    ensures SeparatorFree(Join(pieces, sep), seps)
    decreases |pieces|
  {
    if |pieces| > 1 {
      JoinFree(pieces[1..], sep, seps);
      var s := Join(pieces, sep);
      var rest := Join(pieces[1..], sep);
      forall i | 0 <= i < |s| ensures s[i] !in seps {
        if i < |pieces[0]| { assert s[i] == pieces[0][i]; }
        else if i > |pieces[0]| { assert s[i] == rest[i - |pieces[0]| - 1]; }
      }
    }
  }

  /** Text without leading or trailing white space is its own trim. */
  lemma TrimOfTrimmed(s: string)
    requires |s| > 0 && !IsWhiteSpace(s[0]) && !IsWhiteSpace(s[|s| - 1])
    ensures Trim(s) == s
  {
    assert TrimStartBy(s, IsWhiteSpace) == s;
    assert TrimEndBy(s, IsWhiteSpace) == s;
  }

  // ---------------------------------------------------------------------------
  // Decimal digits

  predicate IsDigit(c: char) { '0' <= c <= '9' }

  predicate AllDigits(s: string) {
    forall i :: 0 <= i < |s| ==> IsDigit(s[i])
  }

  function DigitValue(c: char): nat
    requires IsDigit(c)
  {
    c as int - '0' as int
  }

  /** The number a string of decimal digits denotes. */
  function DigitsValue(s: string): nat
    requires AllDigits(s)
  {
    if |s| == 0 then 0 else DigitsValue(s[..|s| - 1]) * 10 + DigitValue(s[|s| - 1])
  }

  function DigitChar(d: nat): (c: char)
    requires d < 10
    ensures IsDigit(c) && DigitValue(c) == d
  {
    ('0' as int + d) as char
  }

  /** The decimal rendering of `n`, as string interpolation writes it. */
  function NatToDecimal(n: nat): (r: string)
    ensures |r| > 0 && AllDigits(r)
    ensures DigitsValue(r) == n
    ensures |r| > 1 ==> r[0] != '0'
  {
    if n < 10 then [DigitChar(n)]
    else
      var prefix := NatToDecimal(n / 10);
      var r := prefix + [DigitChar(n % 10)];
      assert r[..|r| - 1] == prefix;
      r
  }

  /** The decimal rendering of an integer, with a leading '-' when negative. */
  function IntToDecimal(x: int): (r: string)
    ensures |r| > 0
    ensures x >= 0 <==> r[0] != '-'
  {
    if x < 0 then "-" + NatToDecimal(-x) else NatToDecimal(x)
  }

  /** `int.TryParse(s, out v)` with the default integer style: optional surrounding
      white space, an optional sign, at least one digit, and a value in `int` range. */
  function ParseInt32(s: string): (r: Option<int>)
    ensures r.Some? ==> IsInt32(r.value)
    ensures r.Some? ==> exists i :: 0 <= i < |s| && IsDigit(s[i])
  {
    var t := TrimEndBy(TrimStartBy(s, IsParseWhite), IsParseWhite);
    assert forall i :: 0 <= i < |t| ==> exists j :: 0 <= j < |s| && s[j] == t[i] by {
      var u := TrimStartBy(s, IsParseWhite);
      forall i | 0 <= i < |t| ensures exists j :: 0 <= j < |s| && s[j] == t[i] {
        assert t[i] == u[i] == s[|s| - |u| + i];
      }
    }
    var negative := |t| > 0 && t[0] == '-';
    var signed := |t| > 0 && (t[0] == '-' || t[0] == '+');
    var digits := if signed then t[1..] else t;
    if |digits| == 0 || !AllDigits(digits) then None
    else
      assert IsDigit(digits[0]);
      var v := if negative then -(DigitsValue(digits) as int) else DigitsValue(digits);
      if IsInt32(v) then Some(v) else None
  }

  /** A rendered number is a single word. */
  lemma DecimalIsToken(x: int)
    ensures IsToken(IntToDecimal(x))
  {
    var r := IntToDecimal(x);
    var n := NatToDecimal(Abs(x));
    assert forall i :: 0 <= i < |n| ==> IsDigit(n[i]);
    assert forall i :: 0 <= i < |r| ==> r[i] == '-' || IsDigit(r[i]) by {
      if x < 0 {
        assert r == "-" + n;
        forall i | 0 <= i < |r| ensures r[i] == '-' || IsDigit(r[i]) {
          if i > 0 { assert r[i] == n[i - 1]; }
        }
      }
    }
  }

  /** A rendered number has no white space to trim at either end. */
  lemma DecimalUnpadded(x: int)
    ensures TrimEndBy(TrimStartBy(IntToDecimal(x), IsParseWhite), IsParseWhite) == IntToDecimal(x)
  {
    var r := IntToDecimal(x);
    assert TrimStartBy(r, IsParseWhite) == r by {
      assert !IsParseWhite(r[0]);
    }
    var last := r[|r| - 1];
    assert IsDigit(last) by {
      if x < 0 { assert last == NatToDecimal(-x)[|NatToDecimal(-x)| - 1]; }
    }
    assert TrimEndBy(r, IsParseWhite) == r;
  }

  /** Rendering a number in `int` range and parsing it back gives the number. */
  lemma ParseRendered(x: int)
    requires IsInt32(x)
    ensures ParseInt32(IntToDecimal(x)) == Some(x)
  {
    DecimalUnpadded(x);
    if x < 0 {
      assert IntToDecimal(x)[1..] == NatToDecimal(-x);
    }
  }
}

=== FILE: vm_info.dfy ===
/**
 * The virtual-machine record (VMInfo) and its uptime display.
 */
module VmInfo {
  import opened Text

  /** The states Hyper-V reports for a machine, plus `Unknown`. */
  datatype VmState = Off | Running | Paused | Saved | Starting | Stopping | Failed | Unknown

  datatype VmInfo = VmInfo(
    id: string,
    name: string,
    state: VmState,
    memoryMB: int,
    processorCount: int,
    generation: int,
    path: string,
    hypervisorType: string,
    notes: string,
    uptimeMinutes: int)

  /** The pieces `FormattedUptime` shows: "{m} min", "{h}h {m}min" or "{d}j {h}h {m}min". */
  datatype Uptime =
    | Minutes(minutes: int)
    | HoursMinutes(hours: int, minutes: int)
    | DaysHoursMinutes(days: int, hours: int, minutes: int)

  /** Splits an uptime in minutes into the displayed units. Below one hour (including
      any negative value) the raw count is shown; the parts shown always add back up. */
  function UptimeParts(uptimeMinutes: int): (u: Uptime)
    ensures u.Minutes? <==> uptimeMinutes < 60
    ensures u.Minutes? ==> u.minutes == uptimeMinutes
    ensures u.HoursMinutes? ==>
      uptimeMinutes < 1440 && u.hours * 60 + u.minutes == uptimeMinutes &&
      1 <= u.hours < 24 && 0 <= u.minutes < 60
    ensures u.DaysHoursMinutes? ==>
      uptimeMinutes >= 1440 && u.days * 1440 + u.hours * 60 + u.minutes == uptimeMinutes &&
      u.days >= 1 && 0 <= u.hours < 24 && 0 <= u.minutes < 60
  {
    if uptimeMinutes < 60 then Minutes(uptimeMinutes)
    else
      // Both operands are positive here, so Dafny's division agrees with C#'s.
      var hours := uptimeMinutes / 60;
      var minutes := uptimeMinutes % 60;
      if hours < 24 then HoursMinutes(hours, minutes)
      else DaysHoursMinutes(hours / 24, hours % 24, minutes)
  }

  /** `VMInfo.FormattedUptime`: the display text for the parts above. */
  function FormattedUptime(uptimeMinutes: int): (s: string)
    ensures uptimeMinutes < 60 ==> s == IntToDecimal(uptimeMinutes) + " min"
  {
    match UptimeParts(uptimeMinutes)
    case Minutes(m) => IntToDecimal(m) + " min"
    case HoursMinutes(h, m) => IntToDecimal(h) + "h " + IntToDecimal(m) + "min"
    case DaysHoursMinutes(d, h, m) =>
      IntToDecimal(d) + "j " + IntToDecimal(h) + "h " + IntToDecimal(m) + "min"
  }

  /** Different uptimes never get the same breakdown. */
  lemma UptimePartsInjective(a: int, b: int)
    requires UptimeParts(a) == UptimeParts(b)
    ensures a == b
  {
  }
}

=== FILE: vm_service.dfy ===
/**
 * The decision logic of the Hyper-V service (VMService): how PowerShell answers
 * are read, how the machine listing is parsed, and the guards in front of creating
 * machines and disks and attaching media. PowerShell is reached through a runner.
 */
module VmService {
  import opened Wrappers
  import opened Numeric
  import opened Text
  import opened Process
  import opened VmInfo

  const BYTES_PER_MB: int := 1024 * 1024
  const BYTES_PER_GB: int := 1024 * 1024 * 1024

  /** The PowerShell commands the service runs. */
  datatype VmCommand =
    | CheckVirtualization
    | CheckHyperV
    | EnableHyperV
    | NewVm(name: string, memoryStartupBytes: int, storagePath: string)
    | NewVhd(path: string, sizeBytes: int, dynamic: bool)
    | AddHardDisk(vmName: string, vhdPath: string)
    | StartVm(vmName: string)
    | GetVms
    | AddDvd(vmName: string, isoPath: string)

  /** The `-Command` text of each invocation. */
  function Arguments(c: VmCommand): string
  {
    match c
    case CheckVirtualization =>
      "-Command \"(Get-ComputerInfo).HyperVisorPresent -or (Get-CimInstance -ClassName Win32_Processor).VirtualizationFirmwareEnabled\""
    case CheckHyperV =>
      "-Command \"(Get-WindowsOptionalFeature -Online -FeatureName Microsoft-Hyper-V).State -eq 'Enabled'\""
    case EnableHyperV =>
      "-Command \"Enable-WindowsOptionalFeature -Online -FeatureName Microsoft-Hyper-V -All -NoRestart\""
    case NewVm(n, bytes, p) =>
      "-Command \"New-VM -Name '" + n + "' -MemoryStartupBytes " + IntToDecimal(bytes) + " -Path '" + p + "' -Generation 2\""
    case NewVhd(p, bytes, dyn) =>
      "-Command \"New-VHD -Path '" + p + "' -SizeBytes " + IntToDecimal(bytes) +
      " -Dynamic:" + (if dyn then "true" else "false") + "\""
    case AddHardDisk(n, p) => "-Command \"Add-VMHardDiskDrive -VMName '" + n + "' -Path '" + p + "'\""
    case StartVm(n) => "-Command \"Start-VM -Name '" + n + "'\""
    case GetVms =>
      "-Command \"Get-VM | Select-Object Name, Id, State, Path, AutomaticStartAction, ProcessorCount, MemoryStartup\""
    case AddDvd(n, p) => "-Command \"Add-VMDvdDrive -VMName '" + n + "' -Path '" + p + "'\""
  }

  /** PowerShell as the service sees it: the result of running each command, whose
      text is `Arguments`. */
  type Shell = VmCommand -> ProcessResult

  function Launch(run: Shell, c: VmCommand): ProcessResult
  {
    run(c)
  }

  // ---------------------------------------------------------------------------
  // Machine states

  /** The name Hyper-V prints for a state. */
  function StateName(s: VmState): string
  {
    match s
    case Off => "Off"
    case Running => "Running"
    case Paused => "Paused"
    case Saved => "Saved"
    case Starting => "Starting"
    case Stopping => "Stopping"
    case Failed => "Failed"
    case Unknown => "Unknown"
  }

  /** The lower-case spelling of each name, as the parser's switch writes it. */
  function LowerStateName(s: VmState): string
  {
    match s
    case Off => "off"
    case Running => "running"
    case Paused => "paused"
    case Saved => "saved"
    case Starting => "starting"
    case Stopping => "stopping"
    case Failed => "failed"
    case Unknown => "unknown"
  }

  /** The switch of `ParseVMState`, on the already lower-cased name. */
  function StateOfLower(l: string): (r: VmState)
    ensures r != Unknown ==> l == LowerStateName(r)
  {
    match l
    case "running" => Running
    case "off" => Off
    case "paused" => Paused
    case "saved" => Saved
    case "starting" => Starting
    case "stopping" => Stopping
    case "failed" => Failed
    case _ => Unknown
  }

  /** Each printed name lowers to the switch's spelling. */
  lemma LowerStateNames(s: VmState)
    ensures ToLower(StateName(s)) == LowerStateName(s)
  {
    var n, l := StateName(s), LowerStateName(s);
    LowerCapitalisedAs(n, l);
  }

  /** A capitalised word lowers to `l` when only its first letter differs from `l`'s,
      by lower-casing. */
  lemma LowerCapitalisedAs(w: string, l: string)
    requires |w| == |l| > 0 && LowerAscii(w[0]) == l[0]
    requires forall i :: 1 <= i < |w| ==> w[i] == l[i] && !('A' <= w[i] <= 'Z')
    ensures ToLower(w) == l
  {
  }

  /** `ParseVMState`: the seven known names in any ASCII case; anything else,
      null included, is `Unknown`. */
  function ParseVmState(state: Option<string>): (r: VmState)
    ensures state.None? ==> r == Unknown
    ensures r != Unknown ==> state.Some? && EqualsIgnoreCase(state.value, StateName(r))
  {
    match state
    case None => Unknown
    case Some(s) =>
      var r := StateOfLower(ToLower(s));
      LowerStateNames(r);
      r
  }

  /** The state of a printed state name is that state, "Unknown" included. */
  lemma ParseStateName(s: VmState)
    ensures ParseVmState(Some(StateName(s))) == s
  {
    LowerStateNames(s);
  }

  /** Every state name is a single word. */
  lemma StateNameIsToken(s: VmState)
    ensures IsToken(StateName(s))
  {
    var n := StateName(s);
    assert forall i :: 0 <= i < |n| ==> 'A' <= n[i] <= 'z';
  }

  /** Case does not change the state read. */
  lemma ParseVmStateIgnoresCase(a: string, b: string)
    requires EqualsIgnoreCase(a, b)
    ensures ParseVmState(Some(a)) == ParseVmState(Some(b))
  {
  }

  // ---------------------------------------------------------------------------
  // Yes/no questions

  /** The reading of a PowerShell boolean: exit code 0 and, once trimmed, "True" in
      any case. Shared by `IsVirtualizationSupportedAsync` and `IsHyperVEnabledAsync`. */
  predicate AnswersTrue(r: ProcessResult) {
    r.exitCode == 0 && EqualsIgnoreCase(Trim(r.stdout), "True")
  }

  function IsVirtualizationSupported(run: Shell): (ok: bool)
    ensures ok <==> AnswersTrue(Launch(run, CheckVirtualization))
    ensures ok ==> Launch(run, CheckVirtualization).exitCode == 0
  {
    AnswersTrue(Launch(run, CheckVirtualization))
  }

  function IsHyperVEnabled(run: Shell): (ok: bool)
    ensures ok <==> AnswersTrue(Launch(run, CheckHyperV))
    ensures ok ==> Launch(run, CheckHyperV).exitCode == 0
  {
    AnswersTrue(Launch(run, CheckHyperV))
  }

  /** PowerShell's "True" in upper case followed by a line break still reads as a
      yes: the answer is trimmed and compared without regard to case. */
  lemma AnswersTrueReadsTrimmedOutput(r: ProcessResult, pad: string)
    requires r.exitCode == 0
    requires forall i :: 0 <= i < |pad| ==> IsWhiteSpace(pad[i])
    requires r.stdout == "TRUE" + pad
    ensures AnswersTrue(r)
  {
    TrimTruePad(pad);
    TrueInAnyCase();
  }

  /** Trimming drops white space after "TRUE". */
  lemma TrimTruePad(pad: string)
    requires forall i :: 0 <= i < |pad| ==> IsWhiteSpace(pad[i])
    ensures Trim("TRUE" + pad) == "TRUE"
  {
    var t := "TRUE";
    assert (t + pad)[0] == 'T';
    assert TrimStartBy(t + pad, IsWhiteSpace) == t + pad;
    TrimEndPad(t, pad);
  }

  lemma TrueInAnyCase()
    ensures EqualsIgnoreCase("TRUE", "True")
  {
    assert ToLower("TRUE") == "true";
    assert ToLower("True") == "true";
  }

  lemma TrimEndPad(t: string, pad: string)
    requires |t| > 0 && !IsWhiteSpace(t[|t| - 1])
    requires forall i :: 0 <= i < |pad| ==> IsWhiteSpace(pad[i])
    ensures TrimEndBy(t + pad, IsWhiteSpace) == t
  {
    var r := TrimEndBy(t + pad, IsWhiteSpace);
    assert (t + pad)[..|t|] == t;
  }

  /** `EnableHyperVAsync`: exit code 0 and no "Error" in standard output. */
  function EnableHyperVFeature(run: Shell): (ok: bool)
    ensures ok <==> Launch(run, EnableHyperV).exitCode == 0 && !Contains(Launch(run, EnableHyperV).stdout, "Error")
  {
    var r := Launch(run, EnableHyperV);
    r.exitCode == 0 && !Contains(r.stdout, "Error")
  }

  /** Enabling Hyper-V is judged on standard output alone: "Error" reported only on
      the error stream still counts as success, and on standard output as failure. */
  lemma EnableHyperVReadsStdout(run: Shell)
    ensures Launch(run, EnableHyperV) == ProcessResult(0, "", "Error") ==> EnableHyperVFeature(run)
    ensures Launch(run, EnableHyperV) == ProcessResult(0, "Error", "") ==> !EnableHyperVFeature(run)
  {
    assert Contains("Error", "Error");
    assert !Contains("", "Error");
  }

  // ---------------------------------------------------------------------------
  // `Get-VM` listing

  /** The record a listing row produces: the four columns read, "Hyper-V" as the
      hypervisor, everything else left at its default. */
  function ListedVm(name: string, id: string, state: VmState, path: string): (v: VmInfo)
    ensures v.hypervisorType == "Hyper-V"
  {
    VmInfo(id, name, state, 0, 0, 0, path, "Hyper-V", "", 0)
  }

  /** One row of the listing: at least four words, Name, Id, State and Path. */
  function ParseVmLine(line: string): (r: Option<VmInfo>)
    ensures var parts := Split(Trim(line), SPACE);
      && (r.Some? <==> |parts| >= 4)
      && (r.Some? ==> r.value == ListedVm(parts[0], parts[1], ParseVmState(Some(parts[2])), parts[3]))
    ensures r.Some? ==> r.value.hypervisorType == "Hyper-V"
  {
    var parts := Split(Trim(line), SPACE);
    if |parts| >= 4 then Some(ListedVm(parts[0], parts[1], ParseVmState(Some(parts[2])), parts[3]))
    else None
  }

  /** `ListVirtualMachinesAsync`: nothing when PowerShell fails; otherwise every row
      after the header and the separator line that has four words. */
  function ListVirtualMachines(listing: ProcessResult): (vms: seq<VmInfo>)
    ensures listing.exitCode != 0 ==> vms == []
    ensures forall k :: 0 <= k < |vms| ==> vms[k].hypervisorType == "Hyper-V"
    ensures listing.exitCode == 0 ==>
      var lines := Split(listing.stdout, LINE_BREAKS);
      && |vms| <= |lines| && (|lines| <= 2 ==> vms == [])
      && forall k :: 0 <= k < |vms| ==> exists i :: 2 <= i < |lines| && ParseVmLine(lines[i]) == Some(vms[k])
  {
    if listing.exitCode != 0 then []
    else
      var lines := Split(listing.stdout, LINE_BREAKS);
      if |lines| <= 2 then []
      else
        FilterMapKeeps(lines[2..], ParseVmLine, (v: VmInfo) => v.hypervisorType == "Hyper-V");
        FilterMapSuffix(lines, 2, ParseVmLine);
        FilterMap(lines[2..], ParseVmLine)
  }

  /** A machine as the listing can show it: four single-word columns and nothing
      the listing does not carry. */
  predicate Shown(v: VmInfo) {
    IsToken(v.name) && IsToken(v.id) && IsToken(v.path) &&
    v == ListedVm(v.name, v.id, v.state, v.path)
  }

  function VmWords(v: VmInfo): seq<string> {
    [v.name, v.id, StateName(v.state), v.path]
  }

  /** The row `Get-VM | Select-Object` prints for a machine (single spaces). */
  function VmRow(v: VmInfo): string {
    Join(VmWords(v), ' ')
  }

  function VmRows(vms: seq<VmInfo>): (rs: seq<string>)
    ensures |rs| == |vms| && forall k :: 0 <= k < |vms| ==> rs[k] == VmRow(vms[k])
  {
    if |vms| == 0 then [] else [VmRow(vms[0])] + VmRows(vms[1..])
  }

  /** The whole listing: a header line, a separator line, then the rows. */
  function VmTable(header: string, rule: string, vms: seq<VmInfo>): string {
    Join([header, rule] + VmRows(vms), '\n')
  }

  lemma VmWordsAreTokens(v: VmInfo)
    requires Shown(v)
    ensures forall k :: 0 <= k < |VmWords(v)| ==> IsToken(VmWords(v)[k])
  {
    StateNameIsToken(v.state);
  }

  lemma ParseVmRow(v: VmInfo)
    requires Shown(v)
    ensures ParseVmLine(VmRow(v)) == Some(v)
  {
    var ws := VmWords(v);
    VmWordsAreTokens(v);
    forall k | 0 <= k < |ws| ensures |ws[k]| > 0 && SeparatorFree(ws[k], SPACE) {
      TokenFree(ws[k], SPACE);
    }
    JoinEnds(ws, ' ');
    TrimOfTrimmed(VmRow(v));
    SplitJoin(ws, ' ', SPACE);
    ParseStateName(v.state);
  }

  lemma VmRowIsOneLine(v: VmInfo)
    requires Shown(v)
    ensures |VmRow(v)| > 0 && SeparatorFree(VmRow(v), LINE_BREAKS)
  {
    var ws := VmWords(v);
    VmWordsAreTokens(v);
    forall k | 0 <= k < |ws| ensures SeparatorFree(ws[k], LINE_BREAKS) {
      TokenFree(ws[k], LINE_BREAKS);
    }
    JoinFree(ws, ' ', LINE_BREAKS);
    JoinEnds(ws, ' ');
  }

  /** Parsing the rows of a listing gives back the machines. */
  lemma ParseVmRows(vms: seq<VmInfo>)
    requires forall k :: 0 <= k < |vms| ==> Shown(vms[k])
    ensures FilterMap(VmRows(vms), ParseVmLine) == vms
  {
    var rs := VmRows(vms);
    forall k | 0 <= k < |vms| ensures ParseVmLine(rs[k]) == Some(vms[k]) {
      ParseVmRow(vms[k]);
    }
    FilterMapAll(rs, ParseVmLine, vms);
  }

  /** Listing round trip: the machines Hyper-V lists under its two heading lines are
      read back exactly. */
  lemma ListVirtualMachinesRoundTrip(header: string, rule: string, vms: seq<VmInfo>, stderr: string)
    requires |header| > 0 && SeparatorFree(header, LINE_BREAKS)
    requires |rule| > 0 && SeparatorFree(rule, LINE_BREAKS)
    requires forall k :: 0 <= k < |vms| ==> Shown(vms[k])
    ensures ListVirtualMachines(ProcessResult(0, VmTable(header, rule, vms), stderr)) == vms
  {
    var lines := [header, rule] + VmRows(vms);
    forall k | 0 <= k < |lines| ensures |lines[k]| > 0 && SeparatorFree(lines[k], LINE_BREAKS) {
      if k >= 2 { VmRowIsOneLine(vms[k - 2]); }
    }
    SplitJoin(lines, '\n', LINE_BREAKS);
    assert lines[2..] == VmRows(vms);
    ParseVmRows(vms);
  }

  /** `GetVMByIdAsync`: the first listed machine with exactly this id. */
  function GetVmById(vms: seq<VmInfo>, id: string): (r: Option<VmInfo>)
    ensures r.None? <==> forall k :: 0 <= k < |vms| ==> vms[k].id != id
    ensures r.Some? ==> exists k :: 0 <= k < |vms| && vms[k] == r.value &&
                          r.value.id == id && forall j :: 0 <= j < k ==> vms[j].id != id
  {
    if |vms| == 0 then None
    else if vms[0].id == id then Some(vms[0])
    else
      var r := GetVmById(vms[1..], id);
      assert r.Some? ==> exists k :: 0 <= k < |vms| && vms[k] == r.value &&
                          r.value.id == id && forall j :: 0 <= j < k ==> vms[j].id != id by {
        if r.Some? {
          var k :| 0 <= k < |vms[1..]| && vms[1..][k] == r.value && r.value.id == id &&
                   forall j :: 0 <= j < k ==> vms[1..][j].id != id;
          assert vms[k + 1] == r.value;
          assert forall j :: 1 <= j < k + 1 ==> vms[j].id == vms[1..][j - 1].id;
        }
      }
      assert r.None? ==> forall k :: 0 <= k < |vms| ==> vms[k].id != id by {
        if r.None? {
          forall k | 0 <= k < |vms| ensures vms[k].id != id {
            if k > 0 { assert vms[k] == vms[1..][k - 1]; }
          }
        }
      }
      r
  }

  /** The machine the service finds for an id, by listing again. */
  function FindVm(run: Shell, id: string): Option<VmInfo> {
    GetVmById(ListVirtualMachines(Launch(run, GetVms)), id)
  }

  // ---------------------------------------------------------------------------
  // Creating machines and disks

  /** `vmConfig.MemoryMB * 1024 * 1024` as written: an `int` product, which wraps
      for 2048 MB and more. */
  function MemoryStartupBytesAsWritten(memoryMB: int): (bytes: int)
    requires IsInt32(memoryMB)
    ensures IsInt32(bytes)
    ensures (bytes - memoryMB * BYTES_PER_MB) % TWO_32 == 0
    ensures memoryMB >= 2048 ==> TruncDiv(bytes, BYTES_PER_MB) < memoryMB
  {
    var bytes := WrapInt32(memoryMB * BYTES_PER_MB);
    QuotientOfInt32Below(bytes, BYTES_PER_MB, 2048);
    bytes
  }

  /** An `int` divided by a unit that takes `limit` steps to reach 2^31 is below
      `limit`: an `int` byte count cannot stand for `limit` units or more. */
  lemma QuotientOfInt32Below(bytes: int, unit: int, limit: int)
    requires IsInt32(bytes) && 0 < unit <= -INT32_MIN && limit * unit == -INT32_MIN
    ensures TruncDiv(bytes, unit) < limit
  {
    var q := TruncDiv(bytes, unit);
    assert q * unit < limit * unit;
    assert (limit - q) * unit == limit * unit - q * unit;
  }

  /** The startup memory in bytes computed in 64-bit arithmetic. */
  function MemoryStartupBytes(memoryMB: int): (bytes: int)
    requires IsInt32(memoryMB)
    ensures IsInt64(bytes)
    ensures TruncDiv(bytes, BYTES_PER_MB) == memoryMB
  {
    MegabytesInLong(memoryMB);
    memoryMB * BYTES_PER_MB
  }

  /** A megabyte count in `int` range, in bytes, fits a `long` and divides back. */
  lemma MegabytesInLong(x: int)
    requires IsInt32(x)
    ensures IsInt64(x * BYTES_PER_MB)
    ensures TruncDiv(x * BYTES_PER_MB, BYTES_PER_MB) == x
  {
    var q := TruncDiv(x * BYTES_PER_MB, BYTES_PER_MB);
    assert x * BYTES_PER_MB - q * BYTES_PER_MB == (x - q) * BYTES_PER_MB;
  }

  /** A gigabyte count in `int` range, in bytes, fits a `long` and divides back. */
  lemma GigabytesInLong(x: int)
    requires IsInt32(x)
    ensures IsInt64(x * BYTES_PER_GB)
    ensures TruncDiv(x * BYTES_PER_GB, BYTES_PER_GB) == x
  {
    var q := TruncDiv(x * BYTES_PER_GB, BYTES_PER_GB);
    assert x * BYTES_PER_GB - q * BYTES_PER_GB == (x - q) * BYTES_PER_GB;
  }

  /** The default VM memory of 4096 MB is passed to New-VM as 0 bytes, and 2048 MB
      as a negative count. */
  lemma MemoryStartupBytesWraps()
    ensures MemoryStartupBytesAsWritten(4096) == 0
    ensures MemoryStartupBytesAsWritten(2048) == INT32_MIN
    ensures MemoryStartupBytes(4096) == 4096 * BYTES_PER_MB
  {
  }

  /** A machine's settings as `CreateVirtualMachineAsync` reads them. */
  datatype VmConfig = VmConfig(name: string, processorCount: int, memoryMB: int, diskSizeGB: int,
                               storagePath: string, isDynamicDisk: bool)

  /** `CreateVirtualMachineAsync` with the New-VM command chosen by `newVm`; `newId`
      stands for the fresh GUID. Nothing is created when Hyper-V is off. */
  function CreateVmWith(run: Shell, newVm: VmCommand, newId: string): (r: (Option<string>, seq<VmCommand>))
    ensures !IsHyperVEnabled(run) ==> r == (None, [CheckHyperV])
    ensures IsHyperVEnabled(run) ==>
      r.1 == [CheckHyperV, newVm] && (r.0 == Some(newId) <==> ExitedCleanly(Launch(run, newVm)))
    ensures r.0.Some? ==> r.0 == Some(newId) && newVm in r.1
  {
    if !IsHyperVEnabled(run) then (None, [CheckHyperV])
    else if !ExitedCleanly(Launch(run, newVm)) then (None, [CheckHyperV, newVm])
    else (Some(newId), [CheckHyperV, newVm])
  }

  /** The machine creation as written, with the wrapped memory size: from 2048 MB
      on, New-VM is never asked for the configured memory. */
  function CreateVmAsWritten(run: Shell, config: VmConfig, newId: string): (r: (Option<string>, seq<VmCommand>))
    requires IsInt32(config.memoryMB)
    ensures IsHyperVEnabled(run) ==> |r.1| == 2 && r.1[1].NewVm? && IsInt32(r.1[1].memoryStartupBytes)
    ensures IsHyperVEnabled(run) && config.memoryMB >= 2048 ==>
      TruncDiv(r.1[1].memoryStartupBytes, BYTES_PER_MB) < config.memoryMB
  {
    CreateVmWith(run, NewVm(config.name, MemoryStartupBytesAsWritten(config.memoryMB), config.storagePath), newId)
  }

  /** The machine creation with the memory size computed in 64 bits: New-VM is asked
      for exactly `memoryMB` megabytes. */
  function CreateVm(run: Shell, config: VmConfig, newId: string): (r: (Option<string>, seq<VmCommand>))
    requires IsInt32(config.memoryMB)
    ensures IsHyperVEnabled(run) ==>
      exists c :: c in r.1 && c.NewVm? && c.name == config.name &&
                  TruncDiv(c.memoryStartupBytes, BYTES_PER_MB) == config.memoryMB
    ensures r.0.Some? ==> r.0 == Some(newId)
    ensures !IsHyperVEnabled(run) ==> r == (None, [CheckHyperV])
  {
    var bytes := MemoryStartupBytes(config.memoryMB);
    var c := NewVm(config.name, bytes, config.storagePath);
    var r := CreateVmWith(run, c, newId);
    assert TruncDiv(c.memoryStartupBytes, BYTES_PER_MB) == config.memoryMB;
    assert IsHyperVEnabled(run) ==> r.1[1] == c && c in r.1;
    r
  }

  /** `sizeInGB * 1024 * 1024 * 1024` as written: an `int` product, which wraps for
      every size of 2 GB and more. */
  function VhdSizeBytesAsWritten(sizeInGB: int): (bytes: int)
    requires IsInt32(sizeInGB)
    ensures IsInt32(bytes)
    ensures (bytes - sizeInGB * BYTES_PER_GB) % TWO_32 == 0
    ensures sizeInGB >= 2 ==> TruncDiv(bytes, BYTES_PER_GB) < sizeInGB
  {
    var bytes := WrapInt32(sizeInGB * BYTES_PER_GB);
    QuotientOfInt32Below(bytes, BYTES_PER_GB, 2);
    bytes
  }

  /** The disk size in bytes computed in 64-bit arithmetic. */
  function VhdSizeBytes(sizeInGB: int): (bytes: int)
    requires IsInt32(sizeInGB)
    ensures IsInt64(bytes)
    ensures TruncDiv(bytes, BYTES_PER_GB) == sizeInGB
  {
    GigabytesInLong(sizeInGB);
    sizeInGB * BYTES_PER_GB
  }

  /** A 50 GB disk is requested as a negative size and a 4 GB disk as 0 bytes. */
  lemma VhdSizeBytesWraps()
    ensures VhdSizeBytesAsWritten(50) == INT32_MIN
    ensures VhdSizeBytesAsWritten(4) == 0
    ensures VhdSizeBytes(50) == 50 * BYTES_PER_GB
  {
  }

  /** `CreateVirtualDiskAsync` with the size chosen by `sizeBytes`: the path back on
      success, nothing otherwise. */
  function CreateVirtualDiskWith(run: Shell, path: string, sizeBytes: int, isDynamic: bool): (r: Option<string>)
    ensures r.Some? <==> ExitedCleanly(Launch(run, NewVhd(path, sizeBytes, isDynamic)))
    ensures r.Some? ==> r.value == path
  {
    if ExitedCleanly(Launch(run, NewVhd(path, sizeBytes, isDynamic))) then Some(path) else None
  }

  function CreateVirtualDiskAsWritten(run: Shell, path: string, sizeInGB: int, isDynamic: bool): (r: Option<string>)
    requires IsInt32(sizeInGB)
    ensures r.Some? <==> ExitedCleanly(Launch(run, NewVhd(path, VhdSizeBytesAsWritten(sizeInGB), isDynamic)))
    ensures r.Some? ==> r.value == path
  {
    CreateVirtualDiskWith(run, path, VhdSizeBytesAsWritten(sizeInGB), isDynamic)
  }

  /** The disk creation with the size computed in 64 bits. */
  function CreateVirtualDisk(run: Shell, path: string, sizeInGB: int, isDynamic: bool): (r: Option<string>)
    requires IsInt32(sizeInGB)
    ensures r.Some? <==> ExitedCleanly(Launch(run, NewVhd(path, VhdSizeBytes(sizeInGB), isDynamic)))
    ensures r.Some? ==> r.value == path
  {
    CreateVirtualDiskWith(run, path, VhdSizeBytes(sizeInGB), isDynamic)
  }

  // ---------------------------------------------------------------------------
  // Acting on an existing machine

  /** `AttachVirtualDiskAsync`: the VHD file must exist and the id must be listed. */
  function AttachVirtualDisk(run: Shell, vhdExists: bool, vmId: string, vhdPath: string): (r: (bool, seq<VmCommand>))
    ensures !vhdExists ==> r == (false, [])
    ensures vhdExists && FindVm(run, vmId).None? ==> r == (false, [GetVms])
    ensures r.0 <==> vhdExists && FindVm(run, vmId).Some? &&
                     ExitedCleanly(Launch(run, AddHardDisk(FindVm(run, vmId).value.name, vhdPath)))
  {
    if !vhdExists then (false, [])
    else match FindVm(run, vmId)
      case None => (false, [GetVms])
      case Some(vm) =>
        var c := AddHardDisk(vm.name, vhdPath);
        (ExitedCleanly(Launch(run, c)), [GetVms, c])
  }

  /** `StartVirtualMachineAsync`: the id must be listed. */
  function StartVirtualMachine(run: Shell, vmId: string): (r: (bool, seq<VmCommand>))
    ensures FindVm(run, vmId).None? ==> r == (false, [GetVms])
    ensures r.0 <==> FindVm(run, vmId).Some? &&
                     ExitedCleanly(Launch(run, StartVm(FindVm(run, vmId).value.name)))
  {
    match FindVm(run, vmId)
    case None => (false, [GetVms])
    case Some(vm) => (ExitedCleanly(Launch(run, StartVm(vm.name))), [GetVms, StartVm(vm.name)])
  }

  /** `AttachISOAsync`: the ISO file must exist and the id must be listed. */
  function AttachIso(run: Shell, isoExists: bool, vmId: string, isoPath: string): (r: (bool, seq<VmCommand>))
    ensures !isoExists ==> r == (false, [])
    ensures isoExists && FindVm(run, vmId).None? ==> r == (false, [GetVms])
    ensures r.0 <==> isoExists && FindVm(run, vmId).Some? &&
                     ExitedCleanly(Launch(run, AddDvd(FindVm(run, vmId).value.name, isoPath)))
  {
    if !isoExists then (false, [])
    else match FindVm(run, vmId)
      case None => (false, [GetVms])
      case Some(vm) =>
        var c := AddDvd(vm.name, isoPath);
        (ExitedCleanly(Launch(run, c)), [GetVms, c])
  }

  /** A machine that is listed is acted on by its listed name; one that is not
      listed is never touched. */
  lemma UnlistedMachineIsNeverTouched(run: Shell, vmId: string, path: string)
    requires forall k :: 0 <= k < |ListVirtualMachines(Launch(run, GetVms))| ==>
               ListVirtualMachines(Launch(run, GetVms))[k].id != vmId
    ensures AttachVirtualDisk(run, true, vmId, path) == (false, [GetVms])
    ensures StartVirtualMachine(run, vmId) == (false, [GetVms])
    ensures AttachIso(run, true, vmId, path) == (false, [GetVms])
  {
  }
}

=== FILE: wrappers.dfy ===
/** A value that may be absent: the model's stand-in for a C# reference that may be null. */
module Wrappers {

  datatype Option<+T> = None | Some(value: T) {

    /** The wrapped value, or `default` when absent (C#'s `x ?? default`). */
    function GetOr(default: T): (r: T)
      ensures Some? ==> r == value
      ensures None? ==> r == default
    {
      match this
      case Some(v) => v
      case None => default
    }
  }

  /** The values `f` yields for the elements of `xs`, in order, skipping the
      elements it rejects (a loop that adds only what parses). */
  function FilterMap<A, B>(xs: seq<A>, f: A -> Option<B>): (ys: seq<B>)
    ensures |ys| <= |xs|
    ensures forall k :: 0 <= k < |ys| ==> exists i :: 0 <= i < |xs| && f(xs[i]) == Some(ys[k])
  {
    if |xs| == 0 then []
    else
      var rest := FilterMap(xs[1..], f);
      assert forall k :: 0 <= k < |rest| ==> exists i :: 0 <= i < |xs| && f(xs[i]) == Some(rest[k]) by {
        forall k | 0 <= k < |rest| ensures exists i :: 0 <= i < |xs| && f(xs[i]) == Some(rest[k]) {
          var i :| 0 <= i < |xs[1..]| && f(xs[1..][i]) == Some(rest[k]);
          assert xs[i + 1] == xs[1..][i];
        }
      }
      match f(xs[0])
      case Some(y) => [y] + rest
      case None => rest
  }

  /** One step of `FilterMap`. */
  lemma FilterMapCons<A, B>(xs: seq<A>, f: A -> Option<B>)
    requires |xs| > 0
    ensures FilterMap(xs, f) == (if f(xs[0]).Some? then [f(xs[0]).value] else []) + FilterMap(xs[1..], f)
  {
  }

  /** A function that reads every element back keeps them all, in order. */
  lemma {:induction false} FilterMapAll<A, B>(xs: seq<A>, f: A -> Option<B>, ys: seq<B>)
    requires |xs| == |ys| && forall k :: 0 <= k < |xs| ==> f(xs[k]) == Some(ys[k])
    ensures FilterMap(xs, f) == ys
    decreases |xs|
  {
    if |xs| > 0 {
      FilterMapCons(xs, f);
      FilterMapAll(xs[1..], f, ys[1..]);
      assert [ys[0]] + ys[1..] == ys;
    }
  }

  /** Whatever every read value satisfies, every kept value satisfies. */
  lemma {:induction false} FilterMapKeeps<A, B>(xs: seq<A>, f: A -> Option<B>, p: B -> bool)
    requires forall k :: 0 <= k < |xs| && f(xs[k]).Some? ==> p(f(xs[k]).value)
    ensures forall k :: 0 <= k < |FilterMap(xs, f)| ==> p(FilterMap(xs, f)[k])
    decreases |xs|
  {
    if |xs| > 0 {
      FilterMapCons(xs, f);
      FilterMapKeeps(xs[1..], f, p);
      assert forall k :: 0 <= k < |xs[1..]| ==> xs[1..][k] == xs[k + 1];
    }
  }

  /** `FilterMap` over the suffix from `d`: each value comes from an element at or
      after `d`. */
  lemma FilterMapSuffix<A, B>(xs: seq<A>, d: nat, f: A -> Option<B>)
    requires d <= |xs|
    ensures |FilterMap(xs[d..], f)| <= |xs| - d
    ensures forall k :: 0 <= k < |FilterMap(xs[d..], f)| ==>
      exists i :: d <= i < |xs| && f(xs[i]) == Some(FilterMap(xs[d..], f)[k])
  {
    var ys := FilterMap(xs[d..], f);
    forall k | 0 <= k < |ys| ensures exists i :: d <= i < |xs| && f(xs[i]) == Some(ys[k]) {
      var i :| 0 <= i < |xs[d..]| && f(xs[d..][i]) == Some(ys[k]);
      assert xs[i + d] == xs[d..][i];
    }
  }

  /** The elements of `xs` that satisfy `p`, in order (LINQ's `Where`). */
  function Filter<T>(xs: seq<T>, p: T -> bool): (ys: seq<T>)
    ensures |ys| <= |xs|
    ensures forall k :: 0 <= k < |ys| ==> ys[k] in xs && p(ys[k])
  {
    if |xs| == 0 then []
    else
      var rest := Filter(xs[1..], p);
      assert forall k :: 0 <= k < |rest| ==> rest[k] in xs;
      if p(xs[0]) then [xs[0]] + rest else rest
  }

  /** Every element that satisfies `p` is kept, and the first of them comes first. */
  lemma {:induction false} FilterKeeps<T>(xs: seq<T>, p: T -> bool)
    ensures forall k :: 0 <= k < |xs| && p(xs[k]) ==> xs[k] in Filter(xs, p)
    ensures forall k ::
      (0 <= k < |xs| && p(xs[k]) && forall j :: 0 <= j < k ==> !p(xs[j])) ==>
      |Filter(xs, p)| > 0 && Filter(xs, p)[0] == xs[k]
    decreases |xs|
  {
    if |xs| > 0 {
      FilterKeeps(xs[1..], p);
      assert forall k :: 1 <= k < |xs| ==> xs[k] == xs[1..][k - 1];
    }
  }
}

=== FILE: wsl_service.dfy ===
/**
 * The decision logic of the WSL service (WSLService): the OS-version rule, how
 * the installed/available checks read `wsl --status`, how `wsl --list --verbose`
 * output is parsed, and the guards in front of installing or importing a
 * distribution. Processes are reached through a runner.
 */
module WslService {
  import opened Wrappers
  import opened Numeric
  import opened Text
  import opened Process

  /** `WSLDistroInfo`, without the details a second round of processes fills in. */
  datatype Distro = Distro(name: string, state: string, version: int, isDefault: bool)

  /** The wsl.exe / PowerShell invocations the service makes. */
  datatype WslCommand =
    | Status
    | ListVerbose
    | InstallDistro(name: string)
    | ImportDistro(name: string, installPath: string, tarFile: string)
    | SetDefaultDistro(name: string)
    | InstallWsl
    | EnableWslFeature
    | EnablePlatformFeature
    | SetDefaultVersion2

  /** The argument string each invocation passes. */
  function Arguments(c: WslCommand): string
  {
    match c
    case Status => "--status"
    case ListVerbose => "--list --verbose"
    case InstallDistro(n) => "--install -d " + n
    case ImportDistro(n, p, t) => "--import " + n + " \"" + p + "\" \"" + t + "\""
    case SetDefaultDistro(n) => "--set-default " + n
    case InstallWsl => "--install"
    case EnableWslFeature =>
      "-Command \"Enable-WindowsOptionalFeature -Online -FeatureName Microsoft-Windows-Subsystem-Linux -NoRestart\""
    case EnablePlatformFeature =>
      "-Command \"Enable-WindowsOptionalFeature -Online -FeatureName VirtualMachinePlatform -NoRestart\""
    case SetDefaultVersion2 => "--set-default-version 2"
  }

  function Launch(run: Runner, c: WslCommand): ProcessResult
  {
    run(Arguments(c))
  }

  /** `IsWSLSupportedAsync`: Windows 10 build 14393 (version 1607) or later, on a
      64-bit system. */
  function IsWslSupported(major: int, build: int, is64Bit: bool): (ok: bool)
    ensures ok ==> is64Bit && major >= 10
    ensures major == 10 ==> (ok <==> build >= 14393 && is64Bit)
    ensures major > 10 ==> (ok <==> is64Bit)
    ensures major < 10 ==> !ok
  {
    (major > 10 || (major == 10 && build >= 14393)) && is64Bit
  }

  /** A newer Windows keeps WSL support: a later build, or a later major version. */
  lemma SupportIsMonotone(major: int, build: int, major2: int, build2: int, is64Bit: bool)
    requires IsWslSupported(major, build, is64Bit)
    requires major2 > major || (major2 == major && build2 >= build)
    ensures IsWslSupported(major2, build2, is64Bit)
  {
  }

  const NOT_INSTALLED_FR: string := "WSL n'est pas installé"
  const NOT_INSTALLED_EN: string := "WSL is not installed"

  /** `IsWSLInstalledAsync`: wsl.exe must exist, and `wsl --status` must exit with 0
      without reporting on its error stream that WSL is not installed. */
  function IsWslInstalled(wslExeExists: bool, status: ProcessResult): (ok: bool)
    ensures !wslExeExists ==> !ok
    ensures wslExeExists ==>
      (ok <==> status.exitCode == 0 &&
               !Contains(status.stderr, NOT_INSTALLED_FR) && !Contains(status.stderr, NOT_INSTALLED_EN))
    ensures ok ==> !Contains(status.stderr, NOT_INSTALLED_EN)
  {
    wslExeExists && status.exitCode == 0 &&
    !Contains(status.stderr, NOT_INSTALLED_FR) && !Contains(status.stderr, NOT_INSTALLED_EN)
  }

  /** `IsWSLAvailableAsync`: supported and installed. The distribution list it also
      fetches does not influence the answer. */
  function IsWslAvailable(supported: bool, installed: bool, distros: seq<Distro>): (ok: bool)
    ensures ok <==> supported && installed
  {
    if !supported then false
    else if !installed then false
    else
      var hasDistributions := |distros| > 0;  // only logged
      true
  }

  /** The verdict on `EnableWSLAsync`: exit code 0 and no "Error" in the output. */
  function EnableWsl(run: Runner): (ok: bool)
    ensures ok ==> Launch(run, EnableWslFeature).exitCode == 0
    ensures ok <==> Launch(run, EnableWslFeature).exitCode == 0 && !Contains(Launch(run, EnableWslFeature).stdout, "Error")
  {
    var r := Launch(run, EnableWslFeature);
    r.exitCode == 0 && !Contains(r.stdout, "Error")
  }

  /** `UpdateToWSL2Async`: enable the platform feature, and only if that exits with 0
      make version 2 the default; "Error" on either stream of the second fails it. */
  function UpdateToWsl2(run: Runner): (r: (bool, seq<WslCommand>))
    ensures Launch(run, EnablePlatformFeature).exitCode != 0 ==> r == (false, [EnablePlatformFeature])
    ensures Launch(run, EnablePlatformFeature).exitCode == 0 ==>
      r.1 == [EnablePlatformFeature, SetDefaultVersion2] &&
      (r.0 <==> var p := Launch(run, SetDefaultVersion2);
                p.exitCode == 0 && !Contains(p.stdout, "Error") && !Contains(p.stderr, "Error"))
  {
    if Launch(run, EnablePlatformFeature).exitCode != 0 then (false, [EnablePlatformFeature])
    else
      var p := Launch(run, SetDefaultVersion2);
      (p.exitCode == 0 && !Contains(p.stdout, "Error") && !Contains(p.stderr, "Error"),
       [EnablePlatformFeature, SetDefaultVersion2])
  }

  // ---------------------------------------------------------------------------
  // `wsl --list --verbose`

  /** The row of the listing as the code reads it: name, state and version from the
      first three space-separated tokens; a version that does not parse is 0. */
  function ParseDistroLineAsWritten(line: string): (r: Option<Distro>)
    ensures r.Some? <==> |Split(Trim(line), SPACE)| >= 3
    ensures r.Some? ==> var parts := Split(Trim(line), SPACE);
      r.value.name == parts[0] && r.value.state == parts[1] &&
      r.value.version == ParseInt32(parts[2]).GetOr(0)
    ensures r.Some? ==> !r.value.isDefault
  {
    var parts := Split(Trim(line), SPACE);
    if |parts| >= 3 then Some(Distro(parts[0], parts[1], ParseInt32(parts[2]).GetOr(0), false))
    else None
  }

  /** The row read with the default-distribution marker taken into account: wsl marks
      the default distribution with a leading "*" token, which is skipped and recorded
      as `isDefault`. */
  function ParseDistroLine(line: string): (r: Option<Distro>)
    ensures var parts := Split(Trim(line), SPACE);
      var marked := |parts| > 0 && parts[0] == "*";
      var fields := if marked then parts[1..] else parts;
      && (r.Some? <==> |fields| >= 3)
      && (r.Some? ==>
            r.value == Distro(fields[0], fields[1], ParseInt32(fields[2]).GetOr(0), marked))
  {
    var parts := Split(Trim(line), SPACE);
    var marked := |parts| > 0 && parts[0] == "*";
    var fields := if marked then parts[1..] else parts;
    if |fields| >= 3 then Some(Distro(fields[0], fields[1], ParseInt32(fields[2]).GetOr(0), marked))
    else None
  }

  /** `ListDistributionsAsync` given how a row is read: nothing when the listing
      exits with an error, otherwise the parsed rows after the first non-empty line. */
  function ListDistributionsWith(listing: ProcessResult, parse: string -> Option<Distro>): (ds: seq<Distro>)
    ensures listing.exitCode != 0 ==> ds == []
    ensures listing.exitCode == 0 && |Split(listing.stdout, LINE_BREAKS)| <= 1 ==> ds == []
  {
    if listing.exitCode != 0 then []
    else
      var lines := Split(listing.stdout, LINE_BREAKS);
      if |lines| == 0 then [] else FilterMap(lines[1..], parse)
  }

  /** The listing as the code reads it. */
  function ListDistributionsAsWritten(listing: ProcessResult): (ds: seq<Distro>)
    ensures forall k :: 0 <= k < |ds| ==> !ds[k].isDefault
  {
    if listing.exitCode == 0 && |Split(listing.stdout, LINE_BREAKS)| > 0 then
      FilterMapKeeps(Split(listing.stdout, LINE_BREAKS)[1..], ParseDistroLineAsWritten, (d: Distro) => !d.isDefault);
      ListDistributionsWith(listing, ParseDistroLineAsWritten)
    else
      ListDistributionsWith(listing, ParseDistroLineAsWritten)
  }

  /** The listing read with the default marker understood; the rest of the model
      uses this one. */
  function ListDistributions(listing: ProcessResult): seq<Distro>
  {
    ListDistributionsWith(listing, ParseDistroLine)
  }

  /** A distribution that the listing can show. */
  predicate Listable(d: Distro) {
    IsToken(d.name) && d.name != "*" && IsToken(d.state) && IsInt32(d.version)
  }

  /** The words of a distribution's row: the default marker, then name, state and
      version. */
  function RowWords(d: Distro): seq<string> {
    (if d.isDefault then ["*"] else []) + [d.name, d.state, IntToDecimal(d.version)]
  }

  /** The row wsl prints for a distribution (single spaces between columns). */
  function Row(d: Distro): string {
    Join(RowWords(d), ' ')
  }

  /** The header line followed by one line per distribution. */
  function Table(header: string, ds: seq<Distro>): string {
    Join([header] + RowStrings(ds), '\n')
  }

  function RowStrings(ds: seq<Distro>): (rs: seq<string>)
    ensures |rs| == |ds| && forall k :: 0 <= k < |ds| ==> rs[k] == Row(ds[k])
  {
    if |ds| == 0 then [] else [Row(ds[0])] + RowStrings(ds[1..])
  }

  lemma RowWordsAreTokens(d: Distro)
    requires Listable(d)
    ensures forall k :: 0 <= k < |RowWords(d)| ==> IsToken(RowWords(d)[k])
  {
    DecimalIsToken(d.version);
  }

  lemma RowIsOneLine(d: Distro)
    requires Listable(d)
    ensures |Row(d)| > 0 && SeparatorFree(Row(d), LINE_BREAKS)
  {
    var ws := RowWords(d);
    RowWordsAreTokens(d);
    forall k | 0 <= k < |ws| ensures SeparatorFree(ws[k], LINE_BREAKS) {
      TokenFree(ws[k], LINE_BREAKS);
    }
    JoinFree(ws, ' ', LINE_BREAKS);
    JoinEnds(ws, ' ');
  }

  /** The listing's lines are its header and the rows. */
  lemma SplitTable(header: string, ds: seq<Distro>)
    requires |header| > 0 && SeparatorFree(header, LINE_BREAKS)
    requires forall k :: 0 <= k < |ds| ==> Listable(ds[k])
    ensures Split(Table(header, ds), LINE_BREAKS) == [header] + RowStrings(ds)
  {
    var lines := [header] + RowStrings(ds);
    forall k | 0 <= k < |lines| ensures |lines[k]| > 0 && SeparatorFree(lines[k], LINE_BREAKS) {
      if k > 0 { RowIsOneLine(ds[k - 1]); }
    }
    SplitJoin(lines, '\n', LINE_BREAKS);
  }

  /** The tokens of a row: the marker when it is the default, then the three columns. */
  lemma RowTokens(d: Distro)
    requires Listable(d)
    ensures Split(Trim(Row(d)), SPACE) == RowWords(d)
  {
    var ws := RowWords(d);
    RowWordsAreTokens(d);
    forall k | 0 <= k < |ws| ensures |ws[k]| > 0 && SeparatorFree(ws[k], SPACE) {
      TokenFree(ws[k], SPACE);
    }
    JoinEnds(ws, ' ');
    TrimOfTrimmed(Row(d));
    SplitJoin(ws, ' ', SPACE);
  }

  /** Each row is read back as the distribution it shows. */
  lemma ParseRow(d: Distro)
    requires Listable(d)
    ensures ParseDistroLine(Row(d)) == Some(d)
  {
    RowTokens(d);
    ParseRendered(d.version);
    ParsedFields(Row(d), [d.name, d.state, IntToDecimal(d.version)], d.isDefault);
  }

  /** How `ParseDistroLine` reads a line whose tokens are known. */
  lemma ParsedFields(line: string, fields: seq<string>, marked: bool)
    requires |fields| == 3 && fields[0] != "*"
    requires Split(Trim(line), SPACE) == (if marked then ["*"] else []) + fields
    ensures ParseDistroLine(line) == Some(Distro(fields[0], fields[1], ParseInt32(fields[2]).GetOr(0), marked))
  {
    if marked {
      assert (["*"] + fields)[1..] == fields;
    }
  }

  /** Parsing the rows of a listing gives back the distributions. */
  lemma ParseRows(ds: seq<Distro>)
    requires forall k :: 0 <= k < |ds| ==> Listable(ds[k])
    ensures FilterMap(RowStrings(ds), ParseDistroLine) == ds
  {
    var rs := RowStrings(ds);
    forall k | 0 <= k < |ds| ensures ParseDistroLine(rs[k]) == Some(ds[k]) {
      ParseRow(ds[k]);
    }
    FilterMapAll(rs, ParseDistroLine, ds);
  }

  /** Listing round trip: whatever distributions wsl lists under a one-line header,
      the service reads back exactly, default marker included. */
  lemma ListDistributionsRoundTrip(header: string, ds: seq<Distro>, stderr: string)
    requires |header| > 0 && SeparatorFree(header, LINE_BREAKS)
    requires forall k :: 0 <= k < |ds| ==> Listable(ds[k])
    ensures ListDistributions(ProcessResult(0, Table(header, ds), stderr)) == ds
  {
    SplitTable(header, ds);
    ParseRows(ds);
    assert ([header] + RowStrings(ds))[1..] == RowStrings(ds);
  }

  /** The listing as the code reads it takes the default marker for the name: the
      row of the default distribution comes back named "*", with the distribution's
      name as its state and the state read as the version. */
  lemma DefaultMarkerMisread(d: Distro)
    requires Listable(d) && d.isDefault
    ensures ParseDistroLineAsWritten(Row(d)) == Some(Distro("*", d.name, ParseInt32(d.state).GetOr(0), false))
    ensures ParseDistroLineAsWritten(Row(d)) != Some(d)
  {
    RowTokens(d);
    var parts := Split(Trim(Row(d)), SPACE);
    assert parts == ["*", d.name, d.state, IntToDecimal(d.version)];
  }

  /** A default "Ubuntu" running under WSL 2 can be listed, and its row is
      "* Ubuntu Running 2". */
  lemma UbuntuRow()
    ensures Listable(Distro("Ubuntu", "Running", 2, true))
    ensures Row(Distro("Ubuntu", "Running", 2, true)) == "* Ubuntu Running 2"
  {
    var d := Distro("Ubuntu", "Running", 2, true);
    assert Listable(d) by {
      var n, st := "Ubuntu", "Running";
      assert forall i :: 0 <= i < |n| ==> 'A' <= n[i] <= 'z';
      assert forall i :: 0 <= i < |st| ==> 'A' <= st[i] <= 'z';
    }
    assert RowWords(d) == ["*", "Ubuntu", "Running", "2"] by {
      assert IntToDecimal(2) == "2";
    }
    assert Join(["Ubuntu", "Running", "2"], ' ') == "Ubuntu Running 2" by {
      assert Join(["Running", "2"], ' ') == "Running 2" by {
        assert Join(["2"], ' ') == "2";
      }
    }
  }

  /** An instance: "* Ubuntu Running 2" is read as a distribution named "*". */
  lemma DefaultUbuntuMisread()
    ensures ParseDistroLineAsWritten("* Ubuntu Running 2") == Some(Distro("*", "Ubuntu", 0, false))
  {
    var d := Distro("Ubuntu", "Running", 2, true);
    UbuntuRow();
    DefaultMarkerMisread(d);
    assert ParseInt32("Running").None? by {
      assert !IsDigit("Running"[0]);
    }
  }

  /** With the marker understood the same row reads as the default "Ubuntu". */
  lemma DefaultMarkerRead()
    ensures ParseDistroLine("* Ubuntu Running 2") == Some(Distro("Ubuntu", "Running", 2, true))
  {
    var d := Distro("Ubuntu", "Running", 2, true);
    UbuntuRow();
    ParseRow(d);
  }

  // ---------------------------------------------------------------------------
  // Installing and importing

  /** Some listed distribution has this name, ignoring ASCII case. */
  predicate Listed(ds: seq<Distro>, name: string) {
    exists k :: 0 <= k < |ds| && EqualsIgnoreCase(ds[k].name, name)
  }

  /** `InstallDistributionAsync` given how the listing is read. `installed` is what
      `IsWSLInstalledAsync` answered. Nothing is listed when WSL is missing; nothing
      is installed when a distribution of that name (any case) is listed. */
  function InstallDistributionWith(run: Runner, installed: bool, name: string,
                                   list: ProcessResult -> seq<Distro>): (r: (bool, seq<WslCommand>))
    ensures !installed ==> r == (false, [])
    ensures installed && Listed(list(Launch(run, ListVerbose)), name) ==> r == (false, [ListVerbose])
    ensures installed && !Listed(list(Launch(run, ListVerbose)), name) ==>
      r.1 == [ListVerbose, InstallDistro(name)] && (r.0 <==> ExitedCleanly(Launch(run, InstallDistro(name))))
    ensures r.0 ==> InstallDistro(name) in r.1
  {
    if !installed then (false, [])
    else if Listed(list(Launch(run, ListVerbose)), name) then (false, [ListVerbose])
    else (ExitedCleanly(Launch(run, InstallDistro(name))), [ListVerbose, InstallDistro(name)])
  }

  /** The installation as written: the duplicate check reads the listing with
      `ListDistributionsAsWritten`, so the default distribution is not seen. */
  function InstallDistributionAsWritten(run: Runner, installed: bool, name: string): (r: (bool, seq<WslCommand>))
    ensures installed && !Listed(ListDistributionsAsWritten(Launch(run, ListVerbose)), name) ==>
      r.1 == [ListVerbose, InstallDistro(name)]
    ensures r.0 <==> installed && !Listed(ListDistributionsAsWritten(Launch(run, ListVerbose)), name) &&
                     ExitedCleanly(Launch(run, InstallDistro(name)))
  {
    InstallDistributionWith(run, installed, name, ListDistributionsAsWritten)
  }

  /** The installation with the listing's default marker understood. */
  function InstallDistribution(run: Runner, installed: bool, name: string): (r: (bool, seq<WslCommand>))
    ensures installed && Listed(ListDistributions(Launch(run, ListVerbose)), name) ==> r == (false, [ListVerbose])
    ensures r.0 <==> installed && !Listed(ListDistributions(Launch(run, ListVerbose)), name) &&
                     ExitedCleanly(Launch(run, InstallDistro(name)))
  {
    InstallDistributionWith(run, installed, name, ListDistributions)
  }

  /** `ImportDistributionAsync` given how the listing is read: WSL installed, then the
      archive present, then no distribution of that name, each checked in this order
      before `wsl --import`. */
  function ImportDistributionWith(run: Runner, installed: bool, tarExists: bool,
                                  tarFile: string, installPath: string, name: string,
                                  list: ProcessResult -> seq<Distro>): (r: (bool, seq<WslCommand>))
    ensures !installed || !tarExists ==> r == (false, [])
    ensures installed && tarExists && Listed(list(Launch(run, ListVerbose)), name) ==>
      r == (false, [ListVerbose])
    ensures installed && tarExists && !Listed(list(Launch(run, ListVerbose)), name) ==>
      r.1 == [ListVerbose, ImportDistro(name, installPath, tarFile)]
    ensures r.0 <==>
      installed && tarExists && !Listed(list(Launch(run, ListVerbose)), name) &&
      ExitedCleanly(Launch(run, ImportDistro(name, installPath, tarFile)))
  {
    if !installed then (false, [])
    else if !tarExists then (false, [])
    else if Listed(list(Launch(run, ListVerbose)), name) then (false, [ListVerbose])
    else
      var c := ImportDistro(name, installPath, tarFile);
      (ExitedCleanly(Launch(run, c)), [ListVerbose, c])
  }

  /** The import as written, with the listing read by `ListDistributionsAsWritten`. */
  function ImportDistributionAsWritten(run: Runner, installed: bool, tarExists: bool,
                                       tarFile: string, installPath: string, name: string): (r: (bool, seq<WslCommand>))
    ensures installed && tarExists && !Listed(ListDistributionsAsWritten(Launch(run, ListVerbose)), name) ==>
      r.1 == [ListVerbose, ImportDistro(name, installPath, tarFile)]
    ensures r.0 <==>
      installed && tarExists && !Listed(ListDistributionsAsWritten(Launch(run, ListVerbose)), name) &&
      ExitedCleanly(Launch(run, ImportDistro(name, installPath, tarFile)))
  {
    ImportDistributionWith(run, installed, tarExists, tarFile, installPath, name, ListDistributionsAsWritten)
  }

  /** The import with the listing's default marker understood. */
  function ImportDistribution(run: Runner, installed: bool, tarExists: bool,
                              tarFile: string, installPath: string, name: string): (r: (bool, seq<WslCommand>))
    ensures installed && tarExists && Listed(ListDistributions(Launch(run, ListVerbose)), name) ==>
      r == (false, [ListVerbose])
    ensures r.0 <==>
      installed && tarExists && !Listed(ListDistributions(Launch(run, ListVerbose)), name) &&
      ExitedCleanly(Launch(run, ImportDistro(name, installPath, tarFile)))
  {
    ImportDistributionWith(run, installed, tarExists, tarFile, installPath, name, ListDistributions)
  }

  /** `SetDefaultDistributionAsync`. */
  function SetDefaultDistribution(run: Runner, name: string): (ok: bool)
    ensures ok <==> Launch(run, SetDefaultDistro(name)).exitCode == 0 &&
                    !Contains(Launch(run, SetDefaultDistro(name)).stderr, "Error")
  {
    ExitedCleanly(Launch(run, SetDefaultDistro(name)))
  }

  /** `InstallWSLAsync`. */
  function InstallWslFeature(run: Runner): (ok: bool)
    ensures ok <==> Launch(run, InstallWsl).exitCode == 0 && !Contains(Launch(run, InstallWsl).stderr, "Error")
  {
    ExitedCleanly(Launch(run, InstallWsl))
  }

  /** The verdicts read different streams: enabling the WSL feature looks for
      "Error" on standard output only, while setting the default distribution and
      installing WSL look on the error stream only. A clean exit with "Error" on
      just one stream is therefore a success for one and a failure for the others. */
  lemma VerdictStreams(run: Runner, name: string, out: string, err: string)
    requires Launch(run, EnableWslFeature) == ProcessResult(0, out, err)
    requires Launch(run, SetDefaultDistro(name)) == ProcessResult(0, out, err)
    requires Launch(run, InstallWsl) == ProcessResult(0, out, err)
    ensures out == "" && err == "Error" ==>
      EnableWsl(run) && !SetDefaultDistribution(run, name) && !InstallWslFeature(run)
    ensures out == "Error" && err == "" ==>
      !EnableWsl(run) && SetDefaultDistribution(run, name) && InstallWslFeature(run)
  {
    assert Contains("Error", "Error");
    assert !Contains("", "Error");
  }

  /** A distribution already listed as the default is neither installed nor
      imported a second time: with the marker understood, the duplicate check sees
      its real name. */
  lemma DefaultDistroIsNotReinstalled(run: Runner, header: string, d: Distro, tarFile: string, installPath: string)
    requires |header| > 0 && SeparatorFree(header, LINE_BREAKS)
    requires Listable(d) && d.isDefault
    requires Launch(run, ListVerbose) == ProcessResult(0, Table(header, [d]), "")
    ensures InstallDistribution(run, true, d.name) == (false, [ListVerbose])
    ensures ImportDistribution(run, true, true, tarFile, installPath, d.name) == (false, [ListVerbose])
  {
    ListDistributionsRoundTrip(header, [d], "");
    assert EqualsIgnoreCase([d][0].name, d.name);
  }

  /** Only "*" itself equals "*" ignoring case. */
  lemma StarMatchesOnlyStar(name: string)
    requires EqualsIgnoreCase("*", name)
    ensures name == "*"
  {
    assert |ToLower(name)| == |name| == 1;
    assert LowerAscii(name[0]) == '*';
  }

  /** As written, the listing of a default distribution names it "*", so the
      duplicate check misses it: the distribution is installed, or imported, again. */
  lemma DefaultDistroReinstalledAsWritten(run: Runner, header: string, d: Distro, tarFile: string, installPath: string)
    requires |header| > 0 && SeparatorFree(header, LINE_BREAKS)
    requires Listable(d) && d.isDefault
    requires Launch(run, ListVerbose) == ProcessResult(0, Table(header, [d]), "")
    ensures InstallDistributionAsWritten(run, true, d.name).1 == [ListVerbose, InstallDistro(d.name)]
    ensures ImportDistributionAsWritten(run, true, true, tarFile, installPath, d.name).1 ==
      [ListVerbose, ImportDistro(d.name, installPath, tarFile)]
  {
    var listing := Launch(run, ListVerbose);
    SplitTable(header, [d]);
    var lines := [header] + RowStrings([d]);
    assert lines[1..] == [Row(d)];
    DefaultMarkerMisread(d);
    var misread := Distro("*", d.name, ParseInt32(d.state).GetOr(0), false);
    FilterMapAll([Row(d)], ParseDistroLineAsWritten, [misread]);
    var ds := ListDistributionsAsWritten(listing);
    assert ds == [misread];
    if Listed(ds, d.name) {
      StarMatchesOnlyStar(d.name);
    }
  }
}
